=== FILE: README.md ===
# QuadCalc core, modelled in Dafny

QuadCalc is a browser tool for planning an FPV quadcopter build. The user
fills fourteen slots (frame, motors, propellers, battery, flight controller,
ESC, VTX, VTX antenna, camera, receiver, RX antenna, transmitter, goggles,
other) with parts. The application then:

- checks every pair of parts against a table of compatibility rules;
- scores the build;
- colours and animates the wiring diagram;
- saves builds and user-defined parts in browser storage;
- exports a build as CSV;
- hands a text summary of the build to an AI assistant.

This project models that logic as pure Dafny functions over immutable data and
proves what the code promises about it.

The modules follow the program's files:

| module | models |
|---|---|
| `Wrappers` | `Option` and `Result` |
| `Assoc` | JavaScript `Map`s and objects as insertion-ordered key tables: first-match lookup, assignment that replaces in place or appends |
| `Seqs` | `Array.filter`, and the concatenation of per-element pieces that the alert loop performs |
| `JsText` | `String(n)`, `parseInt`, `Number(s)`, `join`, `split` and `\s` |
| `Entities` | a part (`Component`), its spec values, and JavaScript truthiness, strict equality and string conversion |
| `Helpers` | the category registry, `CATEGORY_MAP` and the two formatters |
| `BuildStore` | the Pinia build store |
| `Rules` | the spec parsers, the nineteen rule checks with their exact messages, and the rule table |
| `Compatibility` | alerts, score, severity filters and per-category status |
| `Storage` | saved builds, custom presets, CSV export and download file names |
| `Ai` | the build summary sent to the assistant, the API-key guard, the chat state |
| `NodeAnimations` | the two diagram watchers and their animation timers |
| `NodePositions` | dragged node positions and their persistence |

How the model represents the program:

- A `Map` or a plain object is a sequence of key/value entries kept in
  insertion order. The store's slots, a part's specs, the preset table and
  the position table are all of this kind. A `Map` iterates in insertion
  order; a plain object lists integer-like keys first, which the model does
  not reproduce (see "Left out").
- A spec value is a string, an integer, a boolean or a list of strings.
- Money is in cents and weight in grams.
- Storage reads are an `Option`: `None` stands for a missing entry and for one
  that does not parse.
- Storage writes take a `writeOk` flag. In `useStorage.js` a failed write
  surfaces as a `QuotaExceededError` failure. In `useNodePositions.js` the
  code swallows the error, so the stored value simply stays as it was.
- Clocks, random ids, the currency and weight formatters' locale output, and
  the network reply are parameters.

Where the repository's own description and the code differ, the model
follows the code, with one exception noted below:

- the table has nineteen rules and nineteen explanations;
- total cost is the plain sum of part costs;
- total weight counts a part four times when its category tag is `motors` or
  `propellers`;
- `voltageOverlap` is defined but no rule calls it.

The rx-rxAntenna-frequency rule has a comment saying a dual-band receiver
"868/915MHz" matches an "868MHz" antenna. The code compares the `/`-separated
pieces literally, unit and all. So "868/915MHz" against "868MHz" raises the
error, and only "915MHz" matches. The model keeps this behaviour, and
`Rules.DualBandComparesPiecesLiterally` states it for every text of this shape.

The exception is the same rule's handling of a frequency that is not a
string. The code calls `split` on the raw value, so a numeric frequency such
as 915 makes the check throw, and the throw aborts the whole alert
computation (see "Findings"). `Rules.CheckRxAntennaFrequencyAsWritten` models
that behaviour. The rule table used everywhere else, through `Rules.Check`,
holds the corrected rule, which compares the values' string forms. So for
such an input `Compatibility`, `Ai.BuildContext` and `NodeAnimations` give
the corrected program's alerts, score, summary and statuses, where the code
throws.

## Model

| member | source | states |
|---|---|---|
| Helpers.Categories | src/utils/helpers.js:21-36 | the registry has exactly fourteen categories |
| Helpers.CategoryOrder | src/utils/helpers.js:21-36 | the registry keys, in display order, are frame, motors, propellers, battery, fc, esc, vtx, vtxAntenna, camera, rx, rxAntenna, tx, goggles, other |
| Helpers.CategoryKeysDistinct | src/utils/helpers.js:21-36 | no two categories share a key, so every slot is addressed by exactly one key |
| Helpers.RegistryLookup | src/utils/helpers.js:38 | `Object.fromEntries` over any registry with distinct keys maps each key to its own entry and answers nothing for any other key |
| Helpers.CategoryMapLookup | src/utils/helpers.js:38 | `CATEGORY_MAP[k]` is the registry entry whose key is k, and undefined for every non-registry key |
| Helpers.FormatWeight | src/utils/helpers.js:11-15 | a missing weight prints "—", and a weight under 1000 g prints as its integer followed by " g" |
| Helpers.FormatCurrency | src/utils/helpers.js:1-9 | a missing amount prints "—" |
| BuildStore.EmptyBuild | src/stores/buildStore.js:5-9 | a fresh slot table has every registry key, in registry order, each holding null |
| BuildStore.Initial | src/stores/buildStore.js:12-13 | the store starts with distinct registry keys, every slot empty, named "Untitled Build" |
| BuildStore.FilledCount | src/stores/buildStore.js:16-18 | the filled count never exceeds the number of slots and is zero exactly when every slot is empty |
| BuildStore.TotalCost | src/stores/buildStore.js:20-22 | an empty build costs 0, and parts with no negative cost give a non-negative total (`SetComponentCost` states how a set changes it) |
| BuildStore.TotalWeight | src/stores/buildStore.js:24-31 | an empty build weighs 0, and parts with no negative weight give a non-negative total (`SetComponentWeight` states the four-fold share) |
| BuildStore.SetComponent | src/stores/buildStore.js:33-39 | the key holds a copy of the part tagged with the key, or null, and is present afterwards even when it was not before (it is then added last); every other slot and the name are unchanged |
| BuildStore.SetComponentKeepsInvariant | src/stores/buildStore.js:33-39 | setting a slot keeps the keys distinct and every filled slot's tag equal to its key |
| BuildStore.SetComponentCount | src/stores/buildStore.js:16-18 | after a set, the filled count changes by the new slot's share minus the old slot's share |
| BuildStore.SetComponentCost | src/stores/buildStore.js:20-22 | after a set, the total cost changes by the new part's cost minus the replaced part's cost |
| BuildStore.SetComponentWeight | src/stores/buildStore.js:24-31 | after a set, the total weight changes by the new part's share minus the replaced one's; a part placed under motors or propellers weighs four times its weight |
| BuildStore.ClearComponent | src/stores/buildStore.js:41-43 | the slot becomes null and is present afterwards: an existing key keeps its place and a new one is added last; nothing else changes |
| BuildStore.ClearAll | src/stores/buildStore.js:45-48 | every existing key is kept and emptied, and the name resets to "Untitled Build" |
| BuildStore.ClearAllIdempotent | src/stores/buildStore.js:45-48 | clearing twice is the same as clearing once |
| BuildStore.LoadBuild | src/stores/buildStore.js:50-56 | the store keeps its own keys; each key takes the build's part for it or null; the name falls back to "Loaded Build" |
| BuildStore.ExportBuild | src/stores/buildStore.js:58-64 | the export carries the name, a copy of the slots and the given time |
| BuildStore.ExportLoadRoundTrip | src/stores/buildStore.js:50-64 | loading an exported build into a store with the same keys restores the exporting store exactly, when those keys are distinct and the build has a non-empty name (an empty name loads as "Loaded Build") |
| Rules.ParseVoltage | src/data/compatibilityRules.js:11-16 | a falsy value has no range; a parsed range comes from a text containing "S" and has non-negative ends |
| Rules.VoltageOfRange | src/data/compatibilityRules.js:11-16 | "a-bS" parses to the range from a to b |
| Rules.VoltageOfSingle | src/data/compatibilityRules.js:11-16 | "nS" parses to the one-point range from n to n |
| Rules.VoltageNeedsS | src/data/compatibilityRules.js:11-16 | a value whose text has no "S" never parses to a range |
| Rules.VoltageFound | src/data/compatibilityRules.js:11-16 | a non-empty text has a range exactly when some "S" directly follows a digit, or follows a "-" that follows a digit; so "S", "HVS" and "-S" give none |
| Rules.ParseSCount | src/data/compatibilityRules.js:19-23 | a falsy value has no cell count |
| Rules.SCountFound | src/data/compatibilityRules.js:19-23 | a text yields a cell count exactly when some "S" directly follows a digit |
| Rules.SCountIsFirstRun | src/data/compatibilityRules.js:19-23 | the count is the value of the whole digit run before the first "S" that follows a digit |
| Rules.SCountOfPrefix | src/data/compatibilityRules.js:19-23 | any text that starts with digits followed by "S" yields those digits' value |
| Rules.VoltageOverlap | src/data/compatibilityRules.js:26-29 | a missing range overlaps everything |
| Rules.OverlapSymmetric | src/data/compatibilityRules.js:26-29 | overlap does not depend on argument order |
| Rules.OverlapIffCommonPoint | src/data/compatibilityRules.js:26-29 | two well-formed ranges overlap exactly when some cell count lies in both |
| Rules.CheckExact | src/data/compatibilityRules.js:41-45 | an exact-match rule (this one and eight more of the same form) fires exactly when both values are truthy and not strictly equal, with the rule's message over the two rendered values |
| Rules.ExactSymmetric | src/data/compatibilityRules.js:41-45 | whether an exact-match rule fires does not depend on which part comes first |
| Rules.ExactAgreeingNeverFires | src/data/compatibilityRules.js:41-45 | two parts with the same non-list value never trip an exact-match rule |
| Rules.CheckVoltage | src/data/compatibilityRules.js:131-137 | a voltage rule fires exactly when a non-zero cell count and a device range both parse and the count lies outside the range |
| Rules.VoltageInsideRange | src/data/compatibilityRules.js:131-137 | for "nS" against "a-bS", the rule is silent exactly when a ≤ n ≤ b |
| Rules.SizeRange | src/data/compatibilityRules.js:78-82 | only 3", 5" and 7" frames have a typical stator range |
| Rules.CheckMotorFrameSize | src/data/compatibilityRules.js:73-89 | fires exactly when both sizes are present, the frame class is known, the motor size parses, and it falls outside the class's range |
| Rules.MotorSizeNumber | src/data/compatibilityRules.js:73-89 | a numeric motor size on a 3", 5" or 7" frame is flagged exactly when it lies outside that frame's range |
| Rules.CheckEscFcProtocol | src/data/compatibilityRules.js:249-257 | fires exactly when both protocol fields are present and no protocol of one side is strictly equal to one of the other |
| Rules.ProtocolSymmetric | src/data/compatibilityRules.js:249-257 | sharing a protocol is symmetric, so firing does not depend on argument order |
| Rules.SharedProtocolPasses | src/data/compatibilityRules.js:249-257 | an ESC listing the FC's protocol passes |
| Rules.CheckBatteryFrameSize | src/data/compatibilityRules.js:285-293 | fires exactly for XT60 on the string size "3", or XT30 on "5" or "7" |
| Rules.CheckMotorEscCurrent | src/data/compatibilityRules.js:305-313 | fires exactly when the stator parses to 2205 or more and the current converts to a number below 30 |
| Rules.ToNumber | src/data/compatibilityRules.js:310 | the conversion `escA < 30` applies: a number is itself, true is 1 and false 0, the empty string is 0 |
| Rules.NumberOfDigits | src/data/compatibilityRules.js:310 | a string of decimal digits converts to the number they spell |
| Rules.NumberOfRendering | src/data/compatibilityRules.js:310 | a non-negative number and its decimal rendering convert to the same value |
| Rules.CurrentNumbers | src/data/compatibilityRules.js:305-313 | with numeric specs, fires exactly when the motor is 2205 or larger and the ESC is rated under 30 A |
| Rules.CheckFcEscAio | src/data/compatibilityRules.js:325-329 | fires exactly when the FC is AIO and the ESC is not the virtual AIO ESC |
| Rules.CheckVtxAntennaConnector | src/data/compatibilityRules.js:341-351 | silent exactly when a connector is missing or both are strictly equal; within the SMA family the message suggests a simple adapter, otherwise a pigtail |
| Rules.ConnectorSymmetric | src/data/compatibilityRules.js:341-351 | whether the connector rule fires does not depend on argument order |
| Rules.Bands | src/data/compatibilityRules.js:367-368 | a frequency text has one band per "/"-separated piece, each piece with its white space removed |
| Rules.CheckRxAntennaFrequencyAsWritten | src/data/compatibilityRules.js:362-374 | the rule as written raises exactly when both frequencies are truthy and one is not a string |
| Rules.CheckRxAntennaFrequency | src/data/compatibilityRules.js:362-374 | the rule (read through `String(v)`) is silent exactly when a frequency is missing or the two share a band |
| Rules.FrequencySelfMatch | src/data/compatibilityRules.js:362-374 | a receiver and an antenna with the same frequency never conflict |
| Rules.FrequencyAgreesOnStrings | src/data/compatibilityRules.js:362-374 | wherever the written rule does not raise, it agrees with the model's rule |
| Rules.FrequencyNumberRaises | src/data/compatibilityRules.js:362-374 | a numeric receiver frequency 915 makes the written rule raise, while the model's rule matches it with antenna "915" |
| Rules.FrequencyOfTexts | src/data/compatibilityRules.js:362-374 | for two non-empty string frequencies, the rule is silent exactly when their bands share one |
| Rules.DualBandComparesPiecesLiterally | src/data/compatibilityRules.js:366-372 | a receiver "a/b‹unit›" conflicts with an "a‹unit›" antenna and accepts a "b‹unit›" one |
| Rules.Check | src/data/compatibilityRules.js:31-378 | every message a rule returns is non-empty, so a returned message always counts as a conflict |
| Rules.Table | src/data/compatibilityRules.js:31-378 | the table holds nineteen rules |
| Rules.TableListsEachRuleOnce | src/data/compatibilityRules.js:31-378 | every rule is in the table and no two entries share an id |
| Compatibility.RuleAlert | src/composables/useCompatibility.js:11-26 | a rule raises an alert exactly when both its slots are filled and its check returns a message; the alert carries that rule and message |
| Compatibility.Alerts | src/composables/useCompatibility.js:8-29 | the build has at most one alert per rule of the nineteen, each raised by a rule of the table (`AlertMembership` gives the converse) |
| Compatibility.AlertsOf | src/composables/useCompatibility.js:8-29 | there is at most one alert per rule, and each comes from some rule of the table |
| Compatibility.AlertsAppend | src/composables/useCompatibility.js:10-27 | alerts follow table order: the alerts of two concatenated tables are those of each in turn |
| Compatibility.AlertsComplete | src/composables/useCompatibility.js:10-27 | every alert that a rule of the walked table raises is in the list |
| Compatibility.AlertMembership | src/composables/useCompatibility.js:8-29 | an alert is listed exactly when some rule of the table raises it |
| Compatibility.AlertCount | src/composables/useCompatibility.js:36-47 | the passing rules never outnumber the applicable ones, and the alerts number applicable minus passing |
| Compatibility.RoundHalfUp | src/composables/useCompatibility.js:49 | `Math.round(n / d)` is the nearest integer, with halves rounded up |
| Compatibility.Percent | src/composables/useCompatibility.js:49 | the percentage is at most 100 and equals 100 exactly when the passing share rounds up to one |
| Compatibility.ScoreOf | src/composables/useCompatibility.js:36-50 | the score is at most 100, and 100 when no rule applies |
| Compatibility.Score | src/composables/useCompatibility.js:36-50 | the build's score is at most 100, and 100 when no rule applies (`ScoreHundredIffNoAlerts` ties it to the alerts) |
| Compatibility.ScoreOfHundredIff | src/composables/useCompatibility.js:36-50 | for any table of fewer than 200 rules, the score is 100 exactly when no alert is raised |
| Compatibility.ScoreHundredIffNoAlerts | src/composables/useCompatibility.js:36-50 | the build scores 100 exactly when the alert list is empty |
| Compatibility.OfSeverity | src/composables/useCompatibility.js:31-33 | the errors, warnings and infos lists hold exactly the alerts of that severity |
| Compatibility.Errors | src/composables/useCompatibility.js:31 | the errors are exactly the build's alerts of severity error |
| Compatibility.Warnings | src/composables/useCompatibility.js:32 | the warnings are exactly the build's alerts of severity warning |
| Compatibility.Infos | src/composables/useCompatibility.js:33 | the infos are exactly the build's alerts of severity info |
| Compatibility.OfSeverityAppend | src/composables/useCompatibility.js:31-33 | the severity filters keep the alerts' order |
| Compatibility.SeverityPartition | src/composables/useCompatibility.js:31-33 | every alert lands in exactly one of the three lists |
| Compatibility.Worst | src/composables/useCompatibility.js:55-58 | the status is error exactly when some related alert is an error, warning exactly when one is a warning and none an error, and ok otherwise |
| Compatibility.CategoryStatus | src/composables/useCompatibility.js:53-58 | an empty slot is 'empty'; a filled slot is 'error', 'warning' or 'ok' by the worst alert that mentions it |
| Compatibility.NoAlertsAllClear | src/composables/useCompatibility.js:36-58 | with no alerts the score is 100 and every filled slot is 'ok' |
| Storage.Escape | src/composables/useStorage.js:90 | doubling the quotes never shortens a cell |
| Storage.QuoteCell | src/composables/useStorage.js:90 | a cell is written between double quotes |
| Storage.EncodeRow | src/composables/useStorage.js:90 | a row is empty exactly when it has no cells, and otherwise starts with a quote |
| Storage.ReadEscaped | src/composables/useStorage.js:90 | reading a quoted cell back undoes the quote doubling |
| Storage.DecodeEncodedCsv | src/composables/useStorage.js:90 | any non-empty list of rows, encoded as the export does, decodes back to the same rows |
| Storage.CategoryRow | src/composables/useStorage.js:66-82 | a category row has six cells: the category label, then the part name, description, formatted cost, formatted weight and its specs joined by "; " (or "" without specs); an empty slot gives "(empty)" and four empty cells |
| Storage.CategoryRows | src/composables/useStorage.js:66-83 | there is one row per category, in registry order |
| Storage.CsvRowsCategories | src/composables/useStorage.js:65-83 | the export starts with the header, then one six-cell row per category with its label and part |
| Storage.CsvRows | src/composables/useStorage.js:63-88 | the export of the real registry has nineteen rows: the header, fourteen category rows, a blank row, TOTAL, the build name and the parts count |
| Storage.ExportCsv | src/composables/useStorage.js:63-90 | the CSV text's first line is the quoted header row (`ExportReadsBack` gives the whole round trip) |
| Storage.CsvRowsSummary | src/composables/useStorage.js:84-88 | after the category rows come a blank row, TOTAL, the build name, and the parts count "filled / categories" |
| Storage.ExportReadsBack | src/composables/useStorage.js:63-90 | the exported CSV text decodes to exactly the export's rows |
| Storage.SanitizeFileName | src/composables/useStorage.js:58 | the file name keeps its length, keeps every ASCII letter and digit in place, and has '_' at every other position |
| Storage.SanitizeFixedIff | src/composables/useStorage.js:58 | a name is left unchanged exactly when all its characters are already safe |
| Storage.SanitizeIdempotent | src/composables/useStorage.js:95 | sanitising twice is the same as sanitising once |
| Storage.JsonFileName | src/composables/useStorage.js:58 | the JSON download name keeps each ASCII letter and digit of the name in place, writes `_` for every other character, and ends in ".json"; its prefix is exactly the sanitised name |
| Storage.CsvFileName | src/composables/useStorage.js:95 | the CSV download name keeps each ASCII letter and digit of the name in place, writes `_` for every other character, and ends in ".csv"; its prefix is exactly the sanitised name |
| Storage.LoadSavedBuilds | src/composables/useStorage.js:12-19 | a missing or unreadable entry gives no builds; otherwise the stored list |
| Storage.FindById | src/composables/useStorage.js:35 | nothing is found exactly when no saved build has the id; a found build has it |
| Storage.SaveBuild | src/composables/useStorage.js:21-31 | the name falls back to the current one; the export, stamped with the new id, is appended; the write succeeds exactly when storage accepts it, and otherwise storage is unchanged |
| Storage.LoadBuildById | src/composables/useStorage.js:33-42 | the answer is true exactly when some saved build has the id, and then the store is the first such build loaded into it; otherwise the store is unchanged |
| Storage.DeleteBuild | src/composables/useStorage.js:44-48 | the kept builds are exactly the saved ones with another id |
| Storage.DeleteBuildAppend | src/composables/useStorage.js:46 | deleting from two concatenated lists deletes from each in turn, so the kept builds stay in their order |
| Storage.DeleteBuildAbsentId | src/composables/useStorage.js:46 | deleting an id no build carries keeps the whole list, in order |
| Storage.SaveThenLoad | src/composables/useStorage.js:21-42 | a build saved under a fresh id loads back with the saved slots and name |
| Storage.DeleteThenLoad | src/composables/useStorage.js:33-48 | after a delete the id no longer loads, and every build with another id is kept |
| Storage.PresetId | src/composables/useStorage.js:146-148 | a part keeps its own id; a part without one gets a non-empty "custom-" id |
| Storage.GetCustomPresets | src/composables/useStorage.js:133-140 | a missing or unreadable entry gives a table with no category at all; otherwise the stored table |
| Storage.SaveCustomPreset | src/composables/useStorage.js:142-157 | the returned part is marked custom and carries its id; a duplicate id writes nothing; a failed write leaves storage unchanged |
| Storage.SavePresetEffect | src/composables/useStorage.js:142-157 | after a save the category holds the id; a new id is appended at the end of the category's list, while an existing one leaves the table as it was; other categories are unchanged, and unique ids stay unique |
| Storage.DeleteCustomPreset | src/composables/useStorage.js:159-165 | an unknown category writes nothing; a known one succeeds exactly when the write does |
| Storage.DeletePresetEffect | src/composables/useStorage.js:159-165 | after a delete the category holds exactly the presets it had whose id differs, and no more of them; other categories are unchanged |
| Storage.DeletePresetAppend | src/composables/useStorage.js:162 | a category's list made of two parts loses the id from each in turn, so the kept presets stay in their order |
| Storage.DeletePresetAbsentId | src/composables/useStorage.js:159-165 | deleting an id no preset of the category carries leaves the table as it was |
| Ai.CategoryLines | src/composables/useAi.js:18-29 | a filled slot gives its name and description (or "no description"), plus a line of its specs joined by ", " when it has specs; an empty one gives "(not selected)" |
| Ai.SlotLinesAppend | src/composables/useAi.js:17-30 | the category lines come category by category, in registry order |
| Ai.CategoryInPlace | src/composables/useAi.js:17-30 | each category's lines sit between those of the categories before and after it |
| Ai.EmptySlotsOneLineEach | src/composables/useAi.js:27-29 | an empty build gives exactly one "(not selected)" line per category |
| Ai.IssueLines | src/composables/useAi.js:34-41 | no alerts give the no-issues line; otherwise a heading, then one line per alert in order |
| Ai.ContextShape | src/composables/useAi.js:16-43 | the summary starts with the heading, has the score line after the category lines, and ends with the no-issues line exactly when there are no alerts |
| Ai.BuildContext | src/composables/useAi.js:12-44 | the summary begins with the heading line (`ContextReportsPerfectBuild` states its ending) |
| Ai.ContextText | src/composables/useAi.js:12-44 | for any score that is 100 exactly when there are no alerts, the joined summary begins with the heading and ends with the no-issues line exactly when the score is 100 |
| Ai.ContextReportsPerfectBuild | src/composables/useAi.js:12-44 | the summary begins with the heading and reports no issues exactly when the build scores 100 |
| Ai.SendMessage | src/composables/useAi.js:50-57 | without an API key only the error is set; with one the error clears and a request is pending |
| Ai.SendKeepsHistory | src/composables/useAi.js:50-57 | a send never rewrites earlier messages; it appends the question exactly when a key is set |
| Ai.RequestMessages | src/composables/useAi.js:70-74 | the request opens with the system prompt and the summary followed by the question, in the code's wording, then the history without its last message |
| Ai.RequestAfterSend | src/composables/useAi.js:55-74 | the request built after a send holds the question once, inside the summary message, followed by exactly the conversation before the send |
| Ai.Complete | src/composables/useAi.js:99-108 | the assistant's message appended is the reply, "No response received." for an empty reply, or "Error: " and the failure; a failure sets the error; loading always ends |
| Ai.ClearChat | src/composables/useAi.js:111-114 | the chat is emptied and the error cleared, and nothing else changes |
| Ai.ExchangeAddsTwo | src/composables/useAi.js:55-108 | a full exchange with a key keeps the history and adds the question and one answer |
| NodeAnimations.Duration | src/composables/useNodeAnimations.js:7-30 | power-on lasts 600 ms, power-off 400, lock-in 300, error-pulse 800, ok-flash 500, warning-pulse 700; a name inherited from `Object.prototype` gives a zero delay, and any other name 500 |
| NodeAnimations.Trigger | src/composables/useNodeAnimations.js:28-37 | the node's animation becomes active with the new kind, others are untouched, and a timer for that node and kind is scheduled after exactly the kind's `Duration` (its table entry, else 500 ms) |
| NodeAnimations.Expire | src/composables/useNodeAnimations.js:31-36 | a timer deactivates its node only while that node still shows the timer's kind; nothing else changes |
| NodeAnimations.ExpireOnlyOwnKind | src/composables/useNodeAnimations.js:28-37 | a timer ends its own animation, but not a later animation of another kind on the same node |
| NodeAnimations.ComponentTransition | src/composables/useNodeAnimations.js:57-63 | power-on exactly when a part appears, power-off exactly when one disappears, lock-in when the identity changes, and nothing when it is unchanged |
| NodeAnimations.ComponentsChanged | src/composables/useNodeAnimations.js:42-50 | the first run only takes a snapshot and animates nothing |
| NodeAnimations.SnapshotAfterRun | src/composables/useNodeAnimations.js:45-65 | after any run the snapshot holds each category's current part identity |
| NodeAnimations.PassTimers | src/composables/useNodeAnimations.js:52-66 | a pass schedules exactly the animations of each category's transition from the snapshot, in category order |
| NodeAnimations.RerunIsQuiet | src/composables/useNodeAnimations.js:40-69 | running the watcher again on unchanged parts animates nothing |
| NodeAnimations.StatusTransition | src/composables/useNodeAnimations.js:85-93 | a changed status pulses error or warning; ok after error flashes; no animation without a previous status or without a change |
| NodeAnimations.StatusesChanged | src/composables/useNodeAnimations.js:80-99 | after a run the status snapshot holds every category's current status |
| NodeAnimations.StatusPassTimers | src/composables/useNodeAnimations.js:81-94 | a category gets a timer exactly when its status transition starts an animation, and with that kind |
| NodeAnimations.StatusRunsQuietWhenUnchanged | src/composables/useNodeAnimations.js:72-101 | the first run animates nothing, and nor does a second run on the same statuses |
| NodePositions.Load | src/composables/useNodePositions.js:9-17 | no stored entry gives an empty table |
| NodePositions.LoadLastWins | src/composables/useNodePositions.js:9-17 | after loading, each key answers its last stored position, and the default if it has none |
| NodePositions.GetPosition | src/composables/useNodePositions.js:26-29 | the override if there is one, else the default |
| NodePositions.SetPosition | src/composables/useNodePositions.js:31-34 | the key answers the new position and every other key is unchanged; storage receives the table when the write succeeds and is unchanged otherwise |
| NodePositions.SetThenGet | src/composables/useNodePositions.js:26-34 | after a set the key reads back the new position, other keys read as before, and an override exists |
| NodePositions.ResetPositions | src/composables/useNodePositions.js:36-39 | the table empties; storage is cleared when the removal succeeds |
| NodePositions.ResetThenGet | src/composables/useNodePositions.js:26-39 | after a reset every node is at its default and nothing is overridden |
| NodePositions.HasOverridesIff | src/composables/useNodePositions.js:41 | some node is overridden exactly when some key answers an override |
| NodePositions.TableStaysDistinct | src/composables/useNodePositions.js:9-34 | the table never holds a key twice, after a load or after a set |
| NodePositions.PersistLoadRoundTrip | src/composables/useNodePositions.js:9-23 | a table written by a successful set loads back as the same table, in the same order |

## Left out

- The user interface, `useTheme.js`, the wiring hints, the build configuration and the preset catalogue. They hold no logic the core depends on.
- The network request to the assistant. Its outcome is the parameter of `Ai.Complete`. The request's headers, model choice and system prompt text are not modelled.
- Settings. The API key reaches `Ai.SendMessage` as a parameter, and `saveSettings` and `getSettings` are not modelled.
- `exportBuildToFile`, the Blob download of the CSV, and `importBuildFromFile`. They are browser file I/O; their file names are `Storage.JsonFileName` and `Storage.CsvFileName`, and an imported build goes through `BuildStore.LoadBuild`.
- JSON parsing and serialisation. A stored value is already the data, or `None` when it is missing or does not parse. A stored value of the wrong shape, for example a non-array under the builds key, is not modelled.
- Reactivity, watcher scheduling and `setTimeout`. A watcher run is a function call, and a timer is a returned record whose firing is `NodeAnimations.Expire`. A re-triggered animation can be cut short by the earlier timer of the same kind. That is the code's behaviour, and the model keeps it by keying expiry on node and kind only.
- Floating point. Costs, weights, positions, spec numbers and voltages are integers. A spec number with a fraction is not represented.
- Helpers.FormatWeight: the kilogram branch (`toFixed(2)`) is not modelled and answers `None`.
- Helpers.FormatCurrency: the `Intl.NumberFormat` branch is not modelled. The CSV export takes the two formatters as parameters.
- Rules.ToNumber: it converts integer literals, booleans and the empty string. Fractional, exponent, hex and `Infinity` strings read as `NaN` here.
- JavaScript strings are UTF-16; here they are sequences of code points. `replace(/[^a-z0-9]/gi, '_')` therefore writes one `_` per astral character, where the code writes two.
- Prototype keys. A slot, preset category or size key such as `constructor` is treated as an ordinary missing key. The animation-duration lookup is the exception: `NodeAnimations.Duration` gives such a name the zero delay the timer derives from the inherited value.
- NodeAnimations.Duration: it gives the delay the timer runs with, not the raw `dur` value. For an inherited name such as `constructor` that value is a function, which `setTimeout` reads as `NaN` and so as 0 ms; the model returns the 0 directly.
- `voltageOverlap`: it is modelled and proved, but no rule uses it, as in the code.
- `compatibilityExplanations[rule.id] || ''`: every rule has an entry, so the `''` fallback is not modelled.
- Storage.CsvRowsSummary: the parts count is stated for any registry, as "filled / number of categories". The fourteen of the real registry follows from `Helpers.Categories`.
- Rules.Check: its own contract only says messages are non-empty. What each rule decides is stated by the per-rule members above. For rx-rxAntenna-frequency it dispatches to the corrected `Rules.CheckRxAntennaFrequency`, so it never models the code's `TypeError` on a non-string frequency; that throw is stated only by `Rules.CheckRxAntennaFrequencyAsWritten`, and `Compatibility`, `Ai` and `NodeAnimations` inherit the corrected rule.
- Integer-like object keys. A plain JavaScript object lists keys such as "3" before its other keys, in numeric order; the model keeps every table in insertion order. Every key whose order the core shows (slot keys, spec names, preset categories, node keys) is a name, so this only matters for a part carrying integer-like spec names, whose CSV and summary spec text would list them in another order.

## Findings

| source | as written | input that shows it | evidently intended | confidence | as-written member | corrected member |
|---|---|---|---|---|---|---|
| src/data/compatibilityRules.js:362-374 | the rule calls `split('/')` directly on the receiver's and the antenna's frequency values, and only strings have `split` | a receiver whose `frequency` spec is the number 915 and an antenna with frequency "915": the check raises a `TypeError`, which breaks the whole alert computation | compare the frequencies' string forms, like every other rule that interpolates spec values, so "915" matches 915 and no check ever raises | not executed | Rules.CheckRxAntennaFrequencyAsWritten (witness Rules.FrequencyNumberRaises) | Rules.CheckRxAntennaFrequency (Rules.FrequencyAgreesOnStrings, Rules.FrequencySelfMatch) |

=== FILE: ai.dfy ===
/** The build assistant's local logic: the plain-text summary of the build
    that accompanies every question, the chat state and its guard against a
    missing API key, and how a reply or a failed request lands in the chat.
    The HTTP request itself is not modelled: its outcome is a parameter. */
module Ai {
  import opened Wrappers
  import opened Entities
  import JsText
  import Helpers
  import BuildStore
  import Compatibility

  const Header: string := "Current FPV Quadcopter Build:"
  const IssuesHeader: string := "\nCompatibility Issues:"
  const NoIssues: string := "\nNo compatibility issues detected."
  const MissingKey: string := "Please set your OpenRouter API key in Settings."
  const NoResponse: string := "No response received."

  // ---------------------------------------------------------------------
  // The build summary

  /** The lines for one category: the part with its description (or "no
      description") and, when it has specs, a line listing them; or the
      "(not selected)" marker. */
  function CategoryLines(cat: Helpers.Category, slot: Option<Component>): (r: seq<string>)
    ensures slot.None? ==> r == ["- " + cat.displayLabel + ": (not selected)"]
    ensures slot.Some? ==> |r| == (if slot.value.specs.Some? then 2 else 1)
    ensures slot.Some? ==> (r[0] == "- " + cat.displayLabel + ": " + slot.value.name + " ("
      + (if slot.value.description != "" then slot.value.description else "no description") + ")")
    ensures slot.Some? && slot.value.specs.Some? ==> r[1] == "  Specs: " + FlattenSpecs(slot.value.specs.value, ", ")
  {
    match slot
    case None => ["- " + cat.displayLabel + ": (not selected)"]
    case Some(c) =>
      var first := "- " + cat.displayLabel + ": " + c.name + " ("
        + (if c.description != "" then c.description else "no description") + ")";
      if c.specs.Some? then [first, "  Specs: " + FlattenSpecs(c.specs.value, ", ")] else [first]
  }

  /** The lines of every category of `cats`, in order. */
  function SlotLines(cats: seq<Helpers.Category>, s: BuildStore.Slots): (r: seq<string>)
    ensures |r| >= |cats|
  {
    if |cats| == 0 then []
    else CategoryLines(cats[0], BuildStore.Slot(s, cats[0].key)) + SlotLines(cats[1..], s)
  }

  /** The line for one alert: upper-cased severity in brackets, rule name and
      message. */
  function AlertLine(a: Compatibility.Alert): string {
    "- [" + a.Severity().Upper() + "] " + a.Name() + ": " + a.message
  }

  /** The closing block: every alert in order under a heading, or the
      no-issues line. */
  function IssueLines(alerts: seq<Compatibility.Alert>): (r: seq<string>)
    ensures |r| > 0
    ensures |alerts| == 0 ==> r == [NoIssues]
    ensures |alerts| > 0 ==> (|r| == |alerts| + 1 && r[0] == IssuesHeader
      && forall i :: 0 <= i < |alerts| ==> r[i + 1] == AlertLine(alerts[i]))
  {
    if |alerts| == 0 then [NoIssues]
    else [IssuesHeader] + seq(|alerts|, i requires 0 <= i < |alerts| => AlertLine(alerts[i]))
  }

  function ScoreLine(score: nat): string {
    "\nCompatibility Score: " + JsText.NatToString(score) + "%"
  }

  /** The parts `buildContext` joins with line breaks. */
  function ContextParts(cats: seq<Helpers.Category>, s: BuildStore.Slots, score: nat,
                        alerts: seq<Compatibility.Alert>): seq<string> {
    [Header] + SlotLines(cats, s) + [ScoreLine(score)] + IssueLines(alerts)
  }

  /** `buildContext()` over the registry, the store's slots and the score and
      alerts the compatibility engine derives from them. */
  function BuildContext(s: BuildStore.Slots): (r: string)
    ensures Header <= r
  {
    HeaderLeads(Helpers.Categories(), s, Compatibility.Score(s), Compatibility.Alerts(s));
    JsText.Join(ContextParts(Helpers.Categories(), s, Compatibility.Score(s), Compatibility.Alerts(s)), "\n")
  }

  /** Whatever the slots, score and alerts, the joined summary opens with the
      heading line. */
  lemma HeaderLeads(cats: seq<Helpers.Category>, s: BuildStore.Slots, score: nat,
                    alerts: seq<Compatibility.Alert>)
    ensures Header <= JsText.Join(ContextParts(cats, s, score, alerts), "\n")
  {
    var p := ContextParts(cats, s, score, alerts);
    assert p[0] == Header && |p| > 1;
    assert JsText.Join(p, "\n") == p[0] + "\n" + JsText.Join(p[1..], "\n");
  }

  /** The category lines of a concatenated registry are those of each part in
      turn, so every category contributes its lines in registry order. */
  lemma {:induction false} SlotLinesAppend(c1: seq<Helpers.Category>, c2: seq<Helpers.Category>, s: BuildStore.Slots)
    ensures SlotLines(c1 + c2, s) == SlotLines(c1, s) + SlotLines(c2, s)
    decreases |c1|
  {
    if |c1| > 0 {
      assert (c1 + c2)[0] == c1[0];
      assert (c1 + c2)[1..] == c1[1..] + c2;
      SlotLinesAppend(c1[1..], c2, s);
    } else {
      assert c1 + c2 == c2;
    }
  }

  /** The lines of the `i`-th category sit between those of the categories
      before and after it. */
  lemma CategoryInPlace(cats: seq<Helpers.Category>, s: BuildStore.Slots, i: int)
    requires 0 <= i < |cats|
    ensures SlotLines(cats, s) ==
      SlotLines(cats[..i], s) + CategoryLines(cats[i], BuildStore.Slot(s, cats[i].key)) + SlotLines(cats[i + 1..], s)
  {
    var after := cats[i + 1..];
    assert cats == cats[..i] + ([cats[i]] + after);
    SlotLinesAppend(cats[..i], [cats[i]] + after, s);
    SlotLinesCons(cats[i], after, s);
  }

  /** A registry with a first category gives that category's lines, then the
      rest's. */
  lemma SlotLinesCons(cat: Helpers.Category, rest: seq<Helpers.Category>, s: BuildStore.Slots)
    ensures SlotLines([cat] + rest, s) == CategoryLines(cat, BuildStore.Slot(s, cat.key)) + SlotLines(rest, s)
  {
    assert ([cat] + rest)[0] == cat && ([cat] + rest)[1..] == rest;
  }

  /** A registry whose slots are all empty contributes exactly one line per
      category. */
  lemma {:induction false} EmptySlotsOneLineEach(cats: seq<Helpers.Category>, s: BuildStore.Slots)
    requires forall i :: 0 <= i < |cats| ==> BuildStore.Slot(s, cats[i].key).None?
    ensures |SlotLines(cats, s)| == |cats|
    ensures forall i :: 0 <= i < |cats| ==> SlotLines(cats, s)[i] == "- " + cats[i].displayLabel + ": (not selected)"
    decreases |cats|
  {
    if |cats| > 0 {
      EmptySlotsOneLineEach(cats[1..], s);
      assert forall i :: 1 <= i < |cats| ==> cats[1..][i - 1] == cats[i];
    }
  }

  /** The summary starts with the heading and ends with the no-issues line
      exactly when the engine reports no alerts. */
  lemma ContextShape(cats: seq<Helpers.Category>, s: BuildStore.Slots, score: nat,
                      alerts: seq<Compatibility.Alert>)
    ensures var p := ContextParts(cats, s, score, alerts);
      && p[0] == Header
      && p[1 + |SlotLines(cats, s)|] == ScoreLine(score)
      && (p[|p| - 1] == NoIssues <==> |alerts| == 0)
  {
    var issues := IssueLines(alerts);
    PartsLayout(Header, SlotLines(cats, s), ScoreLine(score), issues);
    if |alerts| > 0 {
      assert issues[|issues| - 1] == AlertLine(alerts[|alerts| - 1]);
      AlertLineIsNotNoIssues(alerts[|alerts| - 1]);
    }
  }

  /** Where the head, the middle line and the last line sit in
      `[head] + body + [mid] + tail`. */
  lemma PartsLayout(head: string, body: seq<string>, mid: string, tail: seq<string>)
    requires |tail| > 0
    ensures var p := [head] + body + [mid] + tail;
      && |p| == |body| + |tail| + 2
      && p[0] == head
      && p[1 + |body|] == mid
      && p[|p| - 1] == tail[|tail| - 1]
  {
  }

  /** An alert line starts with a dash, the no-issues line with a line break. */
  lemma AlertLineIsNotNoIssues(a: Compatibility.Alert)
    ensures AlertLine(a) != NoIssues
  {
    assert AlertLine(a)[0] == '-';
    assert NoIssues[0] == '\n';
  }

  /** For any score that is 100 exactly when the alert list is empty, the
      joined summary begins with the heading and ends with the no-issues line
      exactly when the score is 100. */
  lemma ContextText(cats: seq<Helpers.Category>, s: BuildStore.Slots, score: nat,
                    alerts: seq<Compatibility.Alert>)
    requires score == 100 <==> |alerts| == 0
    ensures Header <= JsText.Join(ContextParts(cats, s, score, alerts), "\n")
    ensures var p := ContextParts(cats, s, score, alerts);
      p[|p| - 1] == NoIssues <==> score == 100
  {
    var p := ContextParts(cats, s, score, alerts);
    ContextShape(cats, s, score, alerts);
    assert |p| > 1;
    assert JsText.Join(p, "\n") == p[0] + "\n" + JsText.Join(p[1..], "\n");
  }

  /** The text handed to the assistant begins with the heading, and reports
      no compatibility issues exactly when the build scores 100%. */
  lemma ContextReportsPerfectBuild(s: BuildStore.Slots)
    ensures Header <= BuildContext(s)
    ensures var p := ContextParts(Helpers.Categories(), s, Compatibility.Score(s), Compatibility.Alerts(s));
      p[|p| - 1] == NoIssues <==> Compatibility.Score(s) == 100
  {
    Compatibility.ScoreHundredIffNoAlerts(s);
    ContextText(Helpers.Categories(), s, Compatibility.Score(s), Compatibility.Alerts(s));
  }

  // ---------------------------------------------------------------------
  // The chat

  datatype Role = User | Assistant | System
  datatype Message = Message(role: Role, content: string)

  /** The chat panel's state: the conversation, the pending-request flag and
      the error banner (`None` is `null`). */
  datatype Chat = Chat(messages: seq<Message>, loading: bool, error: Option<string>)

  /** The synchronous part of `sendMessage(text)`: without an API key (missing
      or empty) only the error is set; otherwise the error is cleared, the
      question is appended and the request is marked pending. */
  function SendMessage(chat: Chat, apiKey: Option<string>, text: string): (r: Chat)
    ensures apiKey.None? || apiKey.value == "" ==> r.error == Some(MissingKey)
    ensures apiKey.Some? && apiKey.value != "" ==> r.error.None? && r.loading
  {
    if apiKey.None? || apiKey.value == "" then chat.(error := Some(MissingKey))
    else Chat(chat.messages + [Message(User, text)], true, None)
  }

  /** A send never rewrites the history: it appends the question when a key is
      set and appends nothing otherwise. */
  lemma SendKeepsHistory(chat: Chat, apiKey: Option<string>, text: string)
    ensures chat.messages <= SendMessage(chat, apiKey, text).messages
    ensures SendMessage(chat, apiKey, text).messages == chat.messages <==> apiKey.None? || apiKey.value == ""
    ensures apiKey.None? || apiKey.value == "" ==> SendMessage(chat, apiKey, text).loading == chat.loading
  {
    var r := SendMessage(chat, apiKey, text);
    if apiKey.Some? && apiKey.value != "" {
      assert |r.messages| == |chat.messages| + 1;
    }
  }

  /** The messages of the request: the system prompt, the build summary with
      the question, then the earlier conversation without the question just
      appended. */
  function RequestMessages(systemPrompt: string, context: string, history: seq<Message>, text: string): (r: seq<Message>)
    ensures |history| > 0 ==> |r| == |history| + 1
    ensures |r| >= 2 && r[0] == Message(System, systemPrompt) && r[1].role == User
    ensures r[1].content == "Here is my current build state:\n\n" + context + "\n\n---\n\nUser question: " + text
    ensures |history| > 0 ==> r[2..] == history[..|history| - 1]
    ensures |history| == 0 ==> |r| == 2
  {
    [ Message(System, systemPrompt),
      Message(User, "Here is my current build state:\n\n" + context + "\n\n---\n\nUser question: " + text) ]
    + (if |history| > 0 then history[..|history| - 1] else [])
  }

  /** The request built right after a send carries the question once, inside
      the build summary, and after it exactly the conversation as it stood
      before the send. */
  lemma RequestAfterSend(chat: Chat, key: string, text: string, systemPrompt: string, context: string)
    requires key != ""
    ensures var r := RequestMessages(systemPrompt, context, SendMessage(chat, Some(key), text).messages, text);
      && |r| == |chat.messages| + 2
      && r[1].content == "Here is my current build state:\n\n" + context + "\n\n---\n\nUser question: " + text
      && r[2..] == chat.messages
  {
    var h := SendMessage(chat, Some(key), text).messages;
    assert h[..|h| - 1] == chat.messages;
  }

  /** The end of a request: a reply (an empty one reads "No response
      received.") is appended as the assistant's message; a failure sets the
      error and appends it as an assistant message; either way loading ends. */
  function Complete(chat: Chat, outcome: Result<string, string>): (r: Chat)
    ensures !r.loading
    ensures |r.messages| == |chat.messages| + 1 && r.messages[..|chat.messages|] == chat.messages
    ensures r.messages[|chat.messages|].role == Assistant
    ensures outcome.Success? ==> r.error == chat.error
    ensures outcome.Failure? ==> r.error == Some(outcome.error)
    ensures outcome.Success? && outcome.value != "" ==> r.messages[|chat.messages|].content == outcome.value
    ensures outcome.Success? && outcome.value == "" ==> r.messages[|chat.messages|].content == NoResponse
    ensures outcome.Failure? ==> r.messages[|chat.messages|].content == "Error: " + outcome.error
  {
    match outcome
    case Success(reply) =>
      Chat(chat.messages + [Message(Assistant, if reply != "" then reply else NoResponse)], false, chat.error)
    case Failure(e) =>
      Chat(chat.messages + [Message(Assistant, "Error: " + e)], false, Some(e))
  }

  /** `clearChat()`: no messages and no error; the loading flag is untouched. */
  function ClearChat(chat: Chat): (r: Chat)
    ensures r.messages == [] && r.error.None? && r.loading == chat.loading
  {
    chat.(messages := [], error := None)
  }

  /** A full exchange with a key set adds exactly the question and the answer. */
  lemma ExchangeAddsTwo(chat: Chat, key: string, text: string, outcome: Result<string, string>)
    requires key != ""
    ensures var r := Complete(SendMessage(chat, Some(key), text), outcome);
      && |r.messages| == |chat.messages| + 2
      && r.messages[..|chat.messages|] == chat.messages
      && r.messages[|chat.messages|] == Message(User, text)
      && !r.loading
  {
    var sent := SendMessage(chat, Some(key), text);
    var r := Complete(sent, outcome);
    assert r.messages[..|sent.messages|] == sent.messages;
    assert r.messages[..|chat.messages|] == sent.messages[..|chat.messages|];
  }
}

=== FILE: assoc.dfy ===
/** Insertion-ordered string-keyed tables: the model of a JavaScript `Map`
    with string keys, and of a plain JavaScript object used as a dictionary.
    Lookup finds the first entry with the key; assignment overwrites an
    existing entry where it stands and otherwise appends, so iteration order
    is the order in which keys were first inserted. That is exact for a `Map`.
    A plain object lists integer-like keys ("0", "42") first, in ascending
    numeric order, before its other keys; the model assumes insertion order
    for objects as well, which matches them whenever no key is integer-like. */
module Assoc {
  import opened Wrappers

  datatype Entry<V> = Entry(key: string, value: V)

  /** The keys in iteration order (`Object.keys`, `Map.prototype.keys`). */
  function Keys<V>(s: seq<Entry<V>>): (r: seq<string>)
    ensures |r| == |s|
    ensures forall i :: 0 <= i < |s| ==> r[i] == s[i].key
  {
    if |s| == 0 then [] else [s[0].key] + Keys(s[1..])
  }

  /** No key occurs twice: what every JavaScript object and Map guarantees. */
  predicate DistinctKeys<V>(s: seq<Entry<V>>) {
    forall i, j :: 0 <= i < j < |s| ==> s[i].key != s[j].key
  }

  /** A table whose key list has no repeats has distinct keys. */
  lemma KeysDistinct<V>(s: seq<Entry<V>>, ks: seq<string>)
    requires Keys(s) == ks
    requires forall i, j :: 0 <= i < j < |ks| ==> ks[i] != ks[j]
    ensures DistinctKeys(s)
  {
    forall i, j | 0 <= i < j < |s| ensures s[i].key != s[j].key {
      assert s[i].key == ks[i] && s[j].key == ks[j];
    }
  }

  /** `obj[k]` / `map.get(k)`: `None` stands for `undefined`. */
  function Get<V>(s: seq<Entry<V>>, k: string): (r: Option<V>)
    ensures r.None? <==> k !in Keys(s)
  {
    if |s| == 0 then None
    else if s[0].key == k then Some(s[0].value)
    else Get(s[1..], k)
  }

  /** `obj[k] = v` / `map.set(k, v)`. */
  function Put<V>(s: seq<Entry<V>>, k: string, v: V): (r: seq<Entry<V>>)
    ensures Get(r, k) == Some(v)
    ensures forall k' :: k' != k ==> Get(r, k') == Get(s, k')
  {
    if |s| == 0 then [Entry(k, v)]
    else if s[0].key == k then
      var r := [Entry(k, v)] + s[1..];
      assert r[1..] == s[1..];
      r
    else
      var t := Put(s[1..], k, v);
      var r := [s[0]] + t;
      assert r[1..] == t;
      r
  }

  /** Assignment to an existing key keeps the key order; assignment to a new
      key appends it at the end. */
  lemma {:induction false} PutKeys<V>(s: seq<Entry<V>>, k: string, v: V)
    ensures k in Keys(s) ==> Keys(Put(s, k, v)) == Keys(s)
    ensures k !in Keys(s) ==> Keys(Put(s, k, v)) == Keys(s) + [k]
    decreases |s|
  {
    if |s| > 0 {
      assert Keys(s) == [s[0].key] + Keys(s[1..]);
      if s[0].key != k {
        PutKeys(s[1..], k, v);
        PutPassesHead(s, k, v);
        var r := Put(s, k, v);
        assert Keys(r) == [r[0].key] + Keys(r[1..]);
      }
    }
  }

  /** Under distinct keys, lookup returns the value stored at the key's unique
      position. */
  lemma {:induction false} GetAt<V>(s: seq<Entry<V>>, i: int)
    requires DistinctKeys(s)
    requires 0 <= i < |s|
    ensures Get(s, s[i].key) == Some(s[i].value)
    decreases |s|
  {
    if i > 0 {
      assert s[0].key != s[i].key;
      GetAt(s[1..], i - 1);
    }
  }

  /** Assignment never introduces a repeated key. */
  lemma PutKeepsDistinct<V>(s: seq<Entry<V>>, k: string, v: V)
    requires DistinctKeys(s)
    ensures DistinctKeys(Put(s, k, v))
  {
    var r := Put(s, k, v);
    PutKeys(s, k, v);
    forall i, j | 0 <= i < j < |r| ensures r[i].key != r[j].key {
      assert r[i].key == Keys(r)[i] && r[j].key == Keys(r)[j];
      if j < |s| {
        assert Keys(s)[i] == s[i].key && Keys(s)[j] == s[j].key;
      } else {
        assert Keys(s)[i] == s[i].key;
      }
    }
  }

  /** Replaces the value under every existing key by `f(key)`, keeping the keys
      and their order (`Object.keys(obj).forEach(k => { obj[k] = f(k) })`). */
  function Reassign<V>(s: seq<Entry<V>>, f: string -> V): (r: seq<Entry<V>>)
    ensures Keys(r) == Keys(s)
    ensures forall i :: 0 <= i < |r| ==> r[i] == Entry(s[i].key, f(s[i].key))
  {
    seq(|s|, i requires 0 <= i < |s| => Entry(s[i].key, f(s[i].key)))
  }

  /** Assigns every entry of `entries` into `acc` from left to right
      (`for (const [k, v] of entries) map.set(k, v)`, `Object.fromEntries`). */
  function PutAll<V>(acc: seq<Entry<V>>, entries: seq<Entry<V>>): seq<Entry<V>>
    decreases |entries|
  {
    if |entries| == 0 then acc
    else PutAll(Put(acc, entries[0].key, entries[0].value), entries[1..])
  }

  /** The value of the LAST entry with key `k`, if any. */
  function LastValue<V>(entries: seq<Entry<V>>, k: string): Option<V> {
    if |entries| == 0 then None
    else if entries[|entries| - 1].key == k then Some(entries[|entries| - 1].value)
    else LastValue(entries[..|entries| - 1], k)
  }

  lemma {:induction false} LastValueCons<V>(e: Entry<V>, rest: seq<Entry<V>>, k: string)
    ensures LastValue([e] + rest, k) ==
      (if LastValue(rest, k).Some? then LastValue(rest, k) else if e.key == k then Some(e.value) else None)
    decreases |rest|
  {
    if |rest| == 0 {
      assert [e] + rest == [e];
      assert LastValue([e][..0], k) == None;
    } else {
      var s := [e] + rest;
      assert s[..|s| - 1] == [e] + rest[..|rest| - 1];
      LastValueCons(e, rest[..|rest| - 1], k);
    }
  }

  /** Loading entries one by one: a later entry for a key overwrites an earlier
      one, and a key no entry mentions keeps its previous value. */
  lemma {:induction false} PutAllLastWins<V>(acc: seq<Entry<V>>, entries: seq<Entry<V>>, k: string)
    ensures Get(PutAll(acc, entries), k) ==
      (if LastValue(entries, k).Some? then LastValue(entries, k) else Get(acc, k))
    decreases |entries|
  {
    if |entries| > 0 {
      var e := entries[0];
      PutAllLastWins(Put(acc, e.key, e.value), entries[1..], k);
      assert entries == [e] + entries[1..];
      LastValueCons(e, entries[1..], k);
    }
  }

  /** Loading entries whose keys are all new just appends them, in order; in
      particular `PutAll([], s) == s` for any table `s`. */
  lemma {:induction false} PutAllFresh<V>(acc: seq<Entry<V>>, entries: seq<Entry<V>>)
    requires DistinctKeys(acc + entries)
    ensures PutAll(acc, entries) == acc + entries
    decreases |entries|
  {
    if |entries| > 0 {
      var e := entries[0];
      var all := acc + entries;
      assert all[|acc|] == e;
      forall i | 0 <= i < |acc| ensures acc[i].key != e.key {
        assert all[i] == acc[i];
        assert all[i].key != all[|acc|].key;
      }
      PutAppendsNewKey(acc, e.key, e.value);
      var acc' := acc + [e];
      assert acc' + entries[1..] == all;
      PutAllFresh(acc', entries[1..]);
      assert PutAll(acc, entries) == PutAll(acc', entries[1..]);
    }
  }

  lemma {:induction false} PutAppendsNewKey<V>(s: seq<Entry<V>>, k: string, v: V)
    requires forall i :: 0 <= i < |s| ==> s[i].key != k
    ensures Put(s, k, v) == s + [Entry(k, v)]
    decreases |s|
  {
    if |s| > 0 {
      var tail := s[1..];
      assert forall i :: 0 <= i < |tail| ==> tail[i].key != k by {
        assert forall i :: 0 <= i < |tail| ==> tail[i] == s[i + 1];
      }
      PutAppendsNewKey(tail, k, v);
      PutPassesHead(s, k, v);
      ConsAppend(s, Entry(k, v));
    }
  }

  /** Assigning a key the first entry does not carry leaves that entry first. */
  lemma PutPassesHead<V>(s: seq<Entry<V>>, k: string, v: V)
    requires |s| > 0 && s[0].key != k
    ensures Put(s, k, v) == [s[0]] + Put(s[1..], k, v)
  {
  }

  /** Assigning a key the value it already answers changes nothing. */
  lemma {:induction false} PutSameValue<V>(s: seq<Entry<V>>, k: string, v: V)
    requires Get(s, k) == Some(v)
    ensures Put(s, k, v) == s
    decreases |s|
  {
    if s[0].key == k {
      assert s == [Entry(k, v)] + s[1..];
    } else {
      PutPassesHead(s, k, v);
      PutSameValue(s[1..], k, v);
      assert s == [s[0]] + s[1..];
    }
  }

  lemma ConsAppend<T>(s: seq<T>, x: T)
    requires |s| > 0
    ensures [s[0]] + (s[1..] + [x]) == s + [x]
  {
    assert s == [s[0]] + s[1..];
  }

  /** A table built from entries with distinct keys answers every lookup from
      those entries: `Object.fromEntries` / `new Map(entries)`. */
  lemma FromEntriesLookup<V>(entries: seq<Entry<V>>)
    requires DistinctKeys(entries)
    ensures forall i :: 0 <= i < |entries| ==> Get(PutAll([], entries), entries[i].key) == Some(entries[i].value)
    ensures forall k :: k !in Keys(entries) ==> Get(PutAll([], entries), k).None?
  {
    assert [] + entries == entries;
    PutAllFresh([], entries);
    forall i | 0 <= i < |entries| ensures Get(entries, entries[i].key) == Some(entries[i].value) {
      GetAt(entries, i);
    }
  }
}

=== FILE: build_store.dfy ===
/** The build store: one slot per registered category, each holding a
    component or nothing, plus the build's name; the derived totals; and the
    mutations the interface calls. Every operation is a function from the old
    state to the new one. */
module BuildStore {
  import opened Wrappers
  import opened Assoc
  import opened Entities
  import Helpers

  /** `components`: category key to component, `None` for `null`. */
  type Slots = seq<Entry<Option<Component>>>

  datatype Store = Store(components: Slots, buildName: string)

  /** A build as `exportBuild` returns it and as saved builds hold it. `id` is ""
      until the build is saved; `components` is `None` when the field is
      missing. */
  datatype BuildRecord = BuildRecord(id: string, name: string, timestamp: int, components: Option<Slots>)

  const UntitledName: string := "Untitled Build"
  const LoadedName: string := "Loaded Build"

  /** `emptyBuild()`: every registered key, in registry order, mapped to `null`. */
  function EmptyBuild(): (r: Slots)
    ensures Keys(r) == Helpers.CategoryKeys()
    ensures forall i :: 0 <= i < |r| ==> r[i].value.None?
  {
    var ks := Helpers.CategoryKeys();
    seq(|ks|, i requires 0 <= i < |ks| => Entry(ks[i], None))
  }

  /** The state the store starts in. */
  function Initial(): (r: Store)
    ensures Keys(r.components) == Helpers.CategoryKeys() && DistinctKeys(r.components)
    ensures forall k :: Slot(r.components, k).None?
    ensures r.buildName == UntitledName
  {
    var r := Store(EmptyBuild(), UntitledName);
    Helpers.CategoryKeysDistinct();
    KeysDistinct(r.components, Helpers.CategoryKeys());
    EmptySlots(r.components);
    r
  }

  /** `components[k]` read for truthiness: `None` for `null` and for a key the
      map does not hold. */
  function Slot(s: Slots, k: string): Option<Component> {
    match Get(s, k)
    case Some(c) => c
    case None => None
  }

  /** A table in which every slot is empty answers `None` for every key. */
  lemma {:induction false} EmptySlots(s: Slots)
    requires forall i :: 0 <= i < |s| ==> s[i].value.None?
    ensures forall k :: Slot(s, k).None?
  {
    forall k ensures Slot(s, k).None? {
      EmptyGet(s, k);
    }
  }

  lemma {:induction false} EmptyGet(s: Slots, k: string)
    requires forall i :: 0 <= i < |s| ==> s[i].value.None?
    ensures Slot(s, k).None?
    decreases |s|
  {
    if |s| > 0 && s[0].key != k {
      EmptyGet(s[1..], k);
    }
  }

  // ---------------------------------------------------------------------
  // Derived values

  /** `Object.values(components).filter(Boolean).length`. */
  function FilledCount(s: Slots): (r: nat)
    ensures r <= |s|
    ensures r == 0 <==> forall i :: 0 <= i < |s| ==> s[i].value.None?
  {
    if |s| == 0 then 0
    else
      assert forall i :: 1 <= i < |s| ==> s[i] == s[1..][i - 1];
      (if s[0].value.Some? then 1 else 0) + FilledCount(s[1..])
  }

  /** `c?.cost || 0`. */
  function CostOf(c: Option<Component>): int {
    if c.Some? then c.value.cost.GetOr(0) else 0
  }

  /** What one slot adds to `totalWeight`: nothing for a missing or zero
      weight, four times the weight for a component tagged `motors` or
      `propellers` (a set of four), the weight otherwise. */
  function WeightOf(c: Option<Component>): int {
    if c.None? || c.value.weight.GetOr(0) == 0 then 0
    else if c.value.category == "motors" || c.value.category == "propellers" then c.value.weight.value * 4
    else c.value.weight.value
  }

  /** The sum of `f` over the slots in order (`reduce` from 0). */
  function Total(s: Slots, f: Option<Component> -> int): (r: int)
    ensures (forall i :: 0 <= i < |s| ==> f(s[i].value) == 0) ==> r == 0
    ensures (forall i :: 0 <= i < |s| ==> f(s[i].value) >= 0) ==> r >= 0
  {
    if |s| == 0 then 0
    else
      assert forall i :: 1 <= i < |s| ==> s[i] == s[1..][i - 1];
      f(s[0].value) + Total(s[1..], f)
  }

  /** `totalCost`: the sum of the parts' costs, a missing cost counting 0. An
      empty build costs nothing, and no part with a negative cost means no
      negative total. */
  function TotalCost(s: Slots): (r: int)
    ensures (forall i :: 0 <= i < |s| ==> s[i].value.None?) ==> r == 0
    ensures (forall i :: 0 <= i < |s| && s[i].value.Some? ==> s[i].value.value.cost.GetOr(0) >= 0) ==> r >= 0
  {
    Total(s, CostOf)
  }

  /** `totalWeight`: the sum of the slots' weight shares. An empty build weighs
      nothing, and no part with a negative weight means no negative total. */
  function TotalWeight(s: Slots): (r: int)
    ensures (forall i :: 0 <= i < |s| ==> s[i].value.None?) ==> r == 0
    ensures (forall i :: 0 <= i < |s| && s[i].value.Some? ==> s[i].value.value.weight.GetOr(0) >= 0) ==> r >= 0
  {
    Total(s, WeightOf)
  }

  /** Overwriting one slot changes a total by the new slot's share minus the
      old one's; appending a new key adds its share. */
  lemma {:induction false} TotalPut(s: Slots, k: string, v: Option<Component>, f: Option<Component> -> int)
    requires DistinctKeys(s)
    ensures Total(Put(s, k, v), f) ==
      Total(s, f) + f(v) - (match Get(s, k) case Some(prev) => f(prev) case None => 0)
    decreases |s|
  {
    if |s| > 0 {
      var t := Put(s, k, v);
      if s[0].key == k {
        assert t == [Entry(k, v)] + s[1..];
        assert t[1..] == s[1..];
      } else {
        assert t == [s[0]] + Put(s[1..], k, v);
        assert t[1..] == Put(s[1..], k, v);
        TotalPut(s[1..], k, v, f);
      }
    }
  }

  /** The filled count is the total of a 0/1 share per slot. */
  lemma {:induction false} FilledCountIsTotal(s: Slots)
    ensures FilledCount(s) == Total(s, (c: Option<Component>) => if c.Some? then 1 else 0)
    decreases |s|
  {
    if |s| > 0 {
      FilledCountIsTotal(s[1..]);
    }
  }

  // ---------------------------------------------------------------------
  // Mutations

  /** `setComponent(k, c)`: a copy of `c` tagged with `k` goes into slot `k`,
      or the slot is cleared when `c` is `null`. */
  function SetComponent(st: Store, k: string, c: Option<Component>): (r: Store)
    ensures Get(r.components, k) == Some(if c.Some? then Some(c.value.(category := k)) else None)
    ensures forall k' :: k' != k ==> Get(r.components, k') == Get(st.components, k')
    ensures k in Keys(st.components) ==> Keys(r.components) == Keys(st.components)
    ensures k !in Keys(st.components) ==> Keys(r.components) == Keys(st.components) + [k]
    ensures r.buildName == st.buildName
  {
    var v := if c.Some? then Some(c.value.(category := k)) else None;
    PutKeys(st.components, k, v);
    st.(components := Put(st.components, k, v))
  }

  /** `clearComponent(k)`. */
  function ClearComponent(st: Store, k: string): (r: Store)
    ensures Get(r.components, k) == Some(None)
    ensures forall k' :: k' != k ==> Get(r.components, k') == Get(st.components, k')
    ensures k in Keys(st.components) ==> Keys(r.components) == Keys(st.components)
    ensures k !in Keys(st.components) ==> Keys(r.components) == Keys(st.components) + [k]
    ensures r.buildName == st.buildName
  {
    PutKeys(st.components, k, None);
    st.(components := Put(st.components, k, None))
  }

  /** `clearAll()`: every existing key is emptied and the name reset. */
  function ClearAll(st: Store): (r: Store)
    ensures Keys(r.components) == Keys(st.components)
    ensures forall i :: 0 <= i < |r.components| ==> r.components[i].value.None?
    ensures r.buildName == UntitledName
  {
    Store(Reassign(st.components, _ => None), UntitledName)
  }

  /** `loadBuild(build)`: the name falls back to "Loaded Build"; every key the
      store already has takes the build's component for it, or `null`; keys
      only the build has are ignored. */
  function LoadBuild(st: Store, b: BuildRecord): (r: Store)
    ensures Keys(r.components) == Keys(st.components)
    ensures forall i :: 0 <= i < |r.components| ==>
      r.components[i].value == Slot(b.components.GetOr([]), st.components[i].key)
    ensures r.buildName == if b.name != "" then b.name else LoadedName
  {
    var comps := b.components.GetOr([]);
    Store(Reassign(st.components, k => Slot(comps, k)), if b.name != "" then b.name else LoadedName)
  }

  /** `exportBuild()`: the name and a copy of the slots, stamped with `now`.
      The store is not changed. */
  function ExportBuild(st: Store, now: int): (r: BuildRecord)
    ensures r.name == st.buildName && r.components == Some(st.components) && r.timestamp == now
    ensures r.id == ""
  {
    BuildRecord("", st.buildName, now, Some(st.components))
  }

  // ---------------------------------------------------------------------
  // Properties

  /** Every filled slot carries its own key as the component's tag. */
  predicate TagsMatch(s: Slots) {
    forall i :: 0 <= i < |s| && s[i].value.Some? ==> s[i].value.value.category == s[i].key
  }

  /** The store's mutations keep the keys distinct and every tag equal to its
      slot's key. */
  lemma SetComponentKeepsInvariant(st: Store, k: string, c: Option<Component>)
    requires DistinctKeys(st.components) && TagsMatch(st.components)
    ensures DistinctKeys(SetComponent(st, k, c).components) && TagsMatch(SetComponent(st, k, c).components)
  {
    var v := if c.Some? then Some(c.value.(category := k)) else None;
    PutKeepsDistinct(st.components, k, v);
    PutKeepsTags(st.components, k, v);
  }

  lemma {:induction false} PutKeepsTags(s: Slots, k: string, v: Option<Component>)
    requires TagsMatch(s)
    requires v.Some? ==> v.value.category == k
    ensures TagsMatch(Put(s, k, v))
    decreases |s|
  {
    if |s| > 0 {
      var t := Put(s, k, v);
      if s[0].key == k {
        assert t == [Entry(k, v)] + s[1..];
      } else {
        assert t == [s[0]] + Put(s[1..], k, v);
        assert TagsMatch(s[1..]) by {
          forall i | 0 <= i < |s[1..]| && s[1..][i].value.Some? ensures s[1..][i].value.value.category == s[1..][i].key {
            assert s[1..][i] == s[i + 1];
          }
        }
        PutKeepsTags(s[1..], k, v);
        forall i | 0 <= i < |t| && t[i].value.Some? ensures t[i].value.value.category == t[i].key {
          if i > 0 {
            assert t[i] == Put(s[1..], k, v)[i - 1];
          }
        }
      }
    }
  }

  /** Setting a slot changes the filled count by the change in that slot alone. */
  lemma SetComponentCount(st: Store, k: string, c: Option<Component>)
    requires DistinctKeys(st.components)
    ensures FilledCount(SetComponent(st, k, c).components) ==
      FilledCount(st.components) + (if c.Some? then 1 else 0)
      - (match Get(st.components, k) case Some(prev) => (if prev.Some? then 1 else 0) case None => 0)
  {
    var v := if c.Some? then Some(c.value.(category := k)) else None;
    var f := (o: Option<Component>) => if o.Some? then 1 else 0;
    FilledCountIsTotal(st.components);
    FilledCountIsTotal(Put(st.components, k, v));
    TotalPut(st.components, k, v, f);
  }

  /** Setting a slot changes the total cost by the new part's cost minus the
      cost of the part it replaces. */
  lemma SetComponentCost(st: Store, k: string, c: Option<Component>)
    requires DistinctKeys(st.components)
    ensures TotalCost(SetComponent(st, k, c).components) ==
      TotalCost(st.components) + CostOf(c) - (match Get(st.components, k) case Some(prev) => CostOf(prev) case None => 0)
  {
    var v := if c.Some? then Some(c.value.(category := k)) else None;
    assert CostOf(v) == CostOf(c);
    TotalPut(st.components, k, v, CostOf);
  }

  /** Setting a slot changes the total weight by the new part's share minus
      the share of the part it replaces; a part placed in the motors or
      propellers slot is tagged so and weighs four times over. */
  lemma SetComponentWeight(st: Store, k: string, c: Option<Component>)
    requires DistinctKeys(st.components)
    ensures TotalWeight(SetComponent(st, k, c).components) ==
      TotalWeight(st.components) + WeightOf(if c.Some? then Some(c.value.(category := k)) else None)
      - (match Get(st.components, k) case Some(prev) => WeightOf(prev) case None => 0)
    ensures c.Some? && c.value.weight.Some? && (k == "motors" || k == "propellers") ==>
      WeightOf(Some(c.value.(category := k))) == 4 * c.value.weight.value
  {
    var v := if c.Some? then Some(c.value.(category := k)) else None;
    TotalPut(st.components, k, v, WeightOf);
  }

  /** Clearing every slot twice is clearing it once. */
  lemma ClearAllIdempotent(st: Store)
    ensures ClearAll(ClearAll(st)) == ClearAll(st)
  {
    var once := ClearAll(st);
    var twice := ClearAll(once);
    assert Keys(twice.components) == Keys(once.components);
    assert |twice.components| == |once.components|;
    forall i | 0 <= i < |once.components| ensures twice.components[i] == once.components[i] {
      assert twice.components[i].key == Keys(twice.components)[i];
      assert once.components[i].key == Keys(once.components)[i];
    }
  }

  /** Loading an exported build into a store with the same keys restores the
      exported store exactly, provided the build has a name. */
  lemma ExportLoadRoundTrip(st: Store, other: Store, now: int)
    requires DistinctKeys(st.components)
    requires Keys(other.components) == Keys(st.components)
    requires st.buildName != ""
    ensures LoadBuild(other, ExportBuild(st, now)) == st
  {
    var r := LoadBuild(other, ExportBuild(st, now));
    var s := st.components;
    assert |r.components| == |s|;
    forall i | 0 <= i < |s| ensures r.components[i] == s[i] {
      assert other.components[i].key == Keys(other.components)[i] == s[i].key;
      assert r.components[i].key == Keys(r.components)[i];
      GetAt(s, i);
    }
  }
}

=== FILE: compatibility.dfy ===
/** The evaluation of the rule table against the build: the alerts, their
    split by severity, the compatibility score and the per-category status
    that colours the diagram. */
module Compatibility {
  import opened Wrappers
  import opened Entities
  import opened BuildStore
  import Rules
  import Seqs

  /** One alert: the rule that raised it and the message its check returned.
      The other fields of the alert object are copies of the rule's. */
  datatype Alert = Alert(rule: Rules.Rule, message: string) {
    function Id(): string { rule.Id() }
    function Name(): string { rule.Name() }
    function Description(): string { rule.Description() }
    /** `compatibilityExplanations[rule.id] || ''`. */
    function Explanation(): string { rule.Explanation() }
    function Severity(): Rules.Severity { rule.Level() }
    /** `categories`, as its two entries. */
    function CatA(): string { rule.CatA() }
    function CatB(): string { rule.CatB() }
  }

  /** Both of the rule's categories hold a component. */
  predicate Applies(rule: Rules.Rule, s: Slots) {
    Slot(s, rule.CatA()).Some? && Slot(s, rule.CatB()).Some?
  }

  /** The check's result for an applicable rule. */
  function MessageOf(rule: Rules.Rule, s: Slots): Option<string>
    requires Applies(rule, s)
  {
    Rules.Check(rule, Slot(s, rule.CatA()).value, Slot(s, rule.CatB()).value)
  }

  /** The rule applies and its check returned a truthy message. */
  predicate Fires(rule: Rules.Rule, s: Slots) {
    Applies(rule, s) && MessageOf(rule, s).Some? && MessageOf(rule, s).value != ""
  }

  /** The alert one rule contributes: present exactly when both slots are
      filled and the check returns a message (every message is truthy), and
      then carrying that message. */
  function RuleAlert(rule: Rules.Rule, s: Slots): (r: Option<Alert>)
    ensures r.Some? <==> Applies(rule, s) && MessageOf(rule, s).Some?
    ensures r.Some? ==> r.value.rule == rule && r.value.message == MessageOf(rule, s).value
  {
    if Fires(rule, s) then Some(Alert(rule, MessageOf(rule, s).value)) else None
  }

  /** The rule's alert as a list of zero or one alerts. */
  function Contribution(rule: Rules.Rule, s: Slots): (r: seq<Alert>)
    ensures |r| <= 1
    ensures forall a :: a in r <==> RuleAlert(rule, s) == Some(a)
  {
    match RuleAlert(rule, s)
    case Some(a) => [a]
    case None => []
  }

  /** `Contribution` for a fixed build, as a function of the rule. */
  function ContributionIn(s: Slots): Rules.Rule -> seq<Alert> {
    rule => Contribution(rule, s)
  }

  /** The alerts of `rules`, walked in order. */
  function AlertsOf(rules: seq<Rules.Rule>, s: Slots): (r: seq<Alert>)
    ensures |r| <= |rules|
    ensures forall a :: a in r ==> exists i :: 0 <= i < |rules| && RuleAlert(rules[i], s) == Some(a)
  {
    Seqs.FlatMapAtMostOne(rules, ContributionIn(s));
    AlertsSound(rules, s);
    Seqs.FlatMap(rules, ContributionIn(s))
  }

  /** Every alert of the walk comes from some rule of the table. */
  lemma AlertsSound(rules: seq<Rules.Rule>, s: Slots)
    ensures forall a :: a in Seqs.FlatMap(rules, ContributionIn(s)) ==>
      exists i :: 0 <= i < |rules| && RuleAlert(rules[i], s) == Some(a)
  {
    forall a | a in Seqs.FlatMap(rules, ContributionIn(s))
      ensures exists i :: 0 <= i < |rules| && RuleAlert(rules[i], s) == Some(a)
    {
      Seqs.FlatMapMember(rules, ContributionIn(s), a);
    }
  }

  /** `alerts`. */
  function Alerts(s: Slots): (r: seq<Alert>)
    ensures |r| <= 19
    ensures forall a :: a in r ==> exists i :: 0 <= i < |Rules.Table()| && RuleAlert(Rules.Table()[i], s) == Some(a)
  {
    AlertsOf(Rules.Table(), s)
  }

  /** Walking two tables one after the other gives the alerts of the first
      followed by those of the second: alerts come out in table order. */
  lemma AlertsAppend(r1: seq<Rules.Rule>, r2: seq<Rules.Rule>, s: Slots)
    ensures AlertsOf(r1 + r2, s) == AlertsOf(r1, s) + AlertsOf(r2, s)
  {
    Seqs.FlatMapAppend(r1, r2, ContributionIn(s));
  }

  /** Every rule whose alert is raised contributes it. */
  lemma AlertsComplete(rules: seq<Rules.Rule>, s: Slots, i: int)
    requires 0 <= i < |rules| && RuleAlert(rules[i], s).Some?
    ensures RuleAlert(rules[i], s).value in AlertsOf(rules, s)
  {
    var a := RuleAlert(rules[i], s).value;
    assert a in ContributionIn(s)(rules[i]);
    Seqs.FlatMapMember(rules, ContributionIn(s), a);
  }

  /** An alert is in `alerts` exactly when some rule of the table raises it. */
  lemma AlertMembership(s: Slots, a: Alert)
    ensures a in Alerts(s) <==> exists i :: 0 <= i < |Rules.Table()| && RuleAlert(Rules.Table()[i], s) == Some(a)
  {
    if i :| 0 <= i < |Rules.Table()| && RuleAlert(Rules.Table()[i], s) == Some(a) {
      AlertsComplete(Rules.Table(), s, i);
    }
  }

  // ---------------------------------------------------------------------
  // Score

  /** The number of rules whose two slots are both filled. */
  function Applicable(rules: seq<Rules.Rule>, s: Slots): (r: nat)
    ensures r <= |rules|
  {
    if |rules| == 0 then 0 else (if Applies(rules[0], s) then 1 else 0) + Applicable(rules[1..], s)
  }

  /** The number of applicable rules whose check returns no (truthy) message. */
  function Passing(rules: seq<Rules.Rule>, s: Slots): nat {
    if |rules| == 0 then 0
    else (if Applies(rules[0], s) && !Fires(rules[0], s) then 1 else 0) + Passing(rules[1..], s)
  }

  /** Every applicable rule either passes or raises exactly one alert. */
  lemma {:induction false} AlertCount(rules: seq<Rules.Rule>, s: Slots)
    ensures Passing(rules, s) <= Applicable(rules, s)
    ensures |AlertsOf(rules, s)| == Applicable(rules, s) - Passing(rules, s)
    decreases |rules|
  {
    if |rules| > 0 {
      AlertCount(rules[1..], s);
    }
  }

  /** `Math.round(n / d)` for non-negative `n` and positive `d`: the nearest
      integer, halves rounding up. */
  function RoundHalfUp(n: nat, d: nat): (r: nat)
    requires d > 0
    ensures 2 * d * r <= 2 * n + d < 2 * d * (r + 1)
  {
    (2 * n + d) / (2 * d)
  }

  /** The score of a rule table: 100 when no rule applies, otherwise the
      rounded percentage of applicable rules that pass. */
  function ScoreOf(rules: seq<Rules.Rule>, s: Slots): (r: nat)
    ensures r <= 100
    ensures Applicable(rules, s) == 0 ==> r == 100
  {
    var a := Applicable(rules, s);
    var p := Passing(rules, s);
    PassingBound(rules, s);
    if a == 0 then 100 else Percent(p, a)
  }

  /** `Math.round(p / a * 100)` for `p` out of `a`. */
  function Percent(p: nat, a: nat): (r: nat)
    requires 0 < a && p <= a
    ensures r <= 100
    ensures r == 100 <==> 200 * p + a >= 200 * a
  {
    var r := RoundHalfUp(100 * p, a);
    MulMono(2 * a, r, 101);
    MulMono(2 * a, 100, r + 1);
    r
  }

  lemma MulMono(c: nat, x: int, y: int)
    ensures x >= y ==> c * x >= c * y
  {
    if x >= y {
      assert c * x - c * y == c * (x - y);
    }
  }

  lemma {:induction false} PassingBound(rules: seq<Rules.Rule>, s: Slots)
    ensures Passing(rules, s) <= Applicable(rules, s)
    decreases |rules|
  {
    if |rules| > 0 {
      PassingBound(rules[1..], s);
    }
  }

  /** `compatibilityScore`. `Math.round(passing / applicable * 100)` is
      computed exactly here: with at most nineteen applicable rules a tie
      arises only for 8 or 16 of them, where the quotient is a binary
      fraction that floating point holds exactly. */
  function Score(s: Slots): (r: nat)
    ensures r <= 100
    ensures Applicable(Rules.Table(), s) == 0 ==> r == 100
  {
    ScoreOf(Rules.Table(), s)
  }

  /** For any table of fewer than 200 rules, the score is 100 exactly when no
      alert is raised. */
  lemma ScoreOfHundredIff(rules: seq<Rules.Rule>, s: Slots)
    requires |rules| < 200
    ensures ScoreOf(rules, s) == 100 <==> |AlertsOf(rules, s)| == 0
  {
    var a := Applicable(rules, s);
    var p := Passing(rules, s);
    AlertCount(rules, s);
    if a > 0 && p < a {
      assert 200 * p + a < 200 * a;
    }
  }

  /** The score is 100 exactly when `alerts` is empty. */
  lemma ScoreHundredIffNoAlerts(s: Slots)
    ensures Score(s) == 100 <==> |Alerts(s)| == 0
  {
    ScoreOfHundredIff(Rules.Table(), s);
  }

  // ---------------------------------------------------------------------
  // Severity filters

  /** `alerts.filter(a => a.severity === sev)`. */
  function OfSeverity(alerts: seq<Alert>, sev: Rules.Severity): (r: seq<Alert>)
    ensures |r| <= |alerts|
    ensures forall a :: a in r <==> a in alerts && a.Severity() == sev
  {
    Seqs.Filter(alerts, (a: Alert) => a.Severity() == sev)
  }

  function Errors(s: Slots): (r: seq<Alert>)
    ensures forall a :: a in r <==> a in Alerts(s) && a.Severity() == Rules.Error
  {
    OfSeverity(Alerts(s), Rules.Error)
  }

  function Warnings(s: Slots): (r: seq<Alert>)
    ensures forall a :: a in r <==> a in Alerts(s) && a.Severity() == Rules.Warning
  {
    OfSeverity(Alerts(s), Rules.Warning)
  }

  function Infos(s: Slots): (r: seq<Alert>)
    ensures forall a :: a in r <==> a in Alerts(s) && a.Severity() == Rules.Info
  {
    OfSeverity(Alerts(s), Rules.Info)
  }

  /** Filtering keeps the relative order: it distributes over concatenation. */
  lemma OfSeverityAppend(x: seq<Alert>, y: seq<Alert>, sev: Rules.Severity)
    ensures OfSeverity(x + y, sev) == OfSeverity(x, sev) + OfSeverity(y, sev)
  {
    Seqs.FilterAppend(x, y, (a: Alert) => a.Severity() == sev);
  }

  /** The three filters split the alerts: every alert lands in exactly one. */
  lemma {:induction false} SeverityPartition(alerts: seq<Alert>)
    ensures |OfSeverity(alerts, Rules.Error)| + |OfSeverity(alerts, Rules.Warning)| + |OfSeverity(alerts, Rules.Info)| == |alerts|
    decreases |alerts|
  {
    if |alerts| > 0 {
      SeverityPartition(alerts[1..]);
    }
  }

  // ---------------------------------------------------------------------
  // Category status

  datatype Status = Empty | Ok | Warning | Error

  /** `a.categories.includes(k)`. */
  predicate Mentions(a: Alert, k: string) {
    a.CatA() == k || a.CatB() == k
  }

  /** The worst severity among the alerts that mention `k`, read as a status:
      any error wins, then any warning; info alerts count for nothing. */
  function Worst(alerts: seq<Alert>, k: string): (r: Status)
    ensures r == Error <==> exists i :: 0 <= i < |alerts| && Mentions(alerts[i], k) && alerts[i].Severity() == Rules.Error
    ensures r == Warning <==>
      (!exists i :: 0 <= i < |alerts| && Mentions(alerts[i], k) && alerts[i].Severity() == Rules.Error)
      && exists i :: 0 <= i < |alerts| && Mentions(alerts[i], k) && alerts[i].Severity() == Rules.Warning
    ensures r == Ok <==> forall i :: 0 <= i < |alerts| && Mentions(alerts[i], k) ==> alerts[i].Severity() == Rules.Info
    ensures r in {Ok, Warning, Error}
  {
    if |alerts| == 0 then Ok
    else
      var rest := Worst(alerts[1..], k);
      assert forall i :: 1 <= i < |alerts| ==> alerts[i] == alerts[1..][i - 1];
      var a := alerts[0];
      if Mentions(a, k) && a.Severity() == Rules.Error then Error
      else if rest == Error then Error
      else if Mentions(a, k) && a.Severity() == Rules.Warning then Warning
      else rest
  }

  /** `getCategoryStatus(k)`: 'empty' for an empty slot, otherwise the worst
      severity among the alerts that mention the category. */
  function CategoryStatus(s: Slots, k: string): (r: Status)
    ensures r == Empty <==> Slot(s, k).None?
    ensures r == Error <==> (Slot(s, k).Some? &&
      exists i :: 0 <= i < |Alerts(s)| && Mentions(Alerts(s)[i], k) && Alerts(s)[i].Severity() == Rules.Error)
    ensures r == Ok <==> (Slot(s, k).Some? &&
      forall i :: 0 <= i < |Alerts(s)| && Mentions(Alerts(s)[i], k) ==> Alerts(s)[i].Severity() == Rules.Info)
  {
    if Slot(s, k).None? then Empty else Worst(Alerts(s), k)
  }

  /** A build in which no alert is raised scores 100 and shows every filled
      category as ok. */
  lemma NoAlertsAllClear(s: Slots)
    requires |Alerts(s)| == 0
    ensures Score(s) == 100
    ensures forall k :: CategoryStatus(s, k) == (if Slot(s, k).Some? then Ok else Empty)
  {
    ScoreHundredIffNoAlerts(s);
  }
}

=== FILE: entities.dfy ===
/** The component record every slot holds, and the JavaScript value semantics
    its spec fields are read with: truthiness, strict equality and the text a
    template literal produces. */
module Entities {
  import opened Wrappers
  import opened Assoc
  import JsText

  /** A spec value: a string, a number (integers only here), a boolean, or a
      list of strings (a JSON array). */
  datatype SpecValue = Str(s: string) | Num(n: int) | Bool(b: bool) | List(items: seq<string>)

  /** A component's `specs` object: keys in insertion order. */
  type Specs = seq<Entry<SpecValue>>

  /** One concrete part. `id` and `description` use "" for a missing field (both
      are falsy wherever the application reads them); `cost` is in cents and
      `weight` in grams; `category` is the tag the store stamps on assignment;
      `aioVirtual` is `_aioVirtual` and `custom` is `_custom`. */
  datatype Component = Component(
    id: string,
    name: string,
    description: string,
    cost: Option<int>,
    weight: Option<int>,
    specs: Option<Specs>,
    category: string,
    aioVirtual: bool,
    custom: bool)

  /** `c.specs?.[key]`: `None` is `undefined`. */
  function Spec(c: Component, key: string): Option<SpecValue> {
    match c.specs
    case None => None
    case Some(s) => Get(s, key)
  }

  /** JavaScript truthiness of a spec value that may be `undefined`. Every
      array is truthy, even an empty one. */
  predicate Truthy(v: Option<SpecValue>) {
    match v
    case None => false
    case Some(Str(s)) => s != ""
    case Some(Num(n)) => n != 0
    case Some(Bool(b)) => b
    case Some(List(_)) => true
  }

  /** `a === b`. Two arrays are never strictly equal here: every component
      carries its own array objects. */
  predicate StrictEq(a: SpecValue, b: SpecValue) {
    match (a, b)
    case (Str(x), Str(y)) => x == y
    case (Num(x), Num(y)) => x == y
    case (Bool(x), Bool(y)) => x == y
    case _ => false
  }

  /** `String(v)`, which is also what `${v}` inserts: an array renders as its
      elements joined by ",". */
  function Render(v: SpecValue): string {
    match v
    case Str(s) => s
    case Num(n) => JsText.IntToString(n)
    case Bool(b) => if b then "true" else "false"
    case List(items) => JsText.Join(items, ",")
  }

  /** `${v}` for a value that may be `undefined`. */
  function RenderOpt(v: Option<SpecValue>): string {
    match v
    case None => "undefined"
    case Some(x) => Render(x)
  }

  /** A spec value as the CSV export and the assistant context print it: arrays
      joined by "/", anything else as `String(v)`. */
  function SpecText(v: SpecValue): string {
    match v
    case List(items) => JsText.Join(items, "/")
    case _ => Render(v)
  }

  /** `Object.entries(specs).map(([k, v]) => `${k}: ...`).join(sep)`. */
  function FlattenSpecs(specs: Specs, sep: string): string {
    JsText.Join(SpecPairs(specs), sep)
  }

  /** The "key: value" texts of `specs`, one per entry, in order. */
  function SpecPairs(specs: Specs): (r: seq<string>)
    ensures |r| == |specs|
    ensures forall i :: 0 <= i < |specs| ==> r[i] == specs[i].key + ": " + SpecText(specs[i].value)
  {
    seq(|specs|, i requires 0 <= i < |specs| => specs[i].key + ": " + SpecText(specs[i].value))
  }

  /** The identity the diagram animations compare: `c.id || c.name`. */
  function Identity(c: Component): string {
    if c.id != "" then c.id else c.name
  }
}

=== FILE: helpers.dfy ===
/** The category registry and the two display formatters of `helpers.js`. */
module Helpers {
  import opened Wrappers
  import opened Assoc
  import JsText

  /** One registered slot of a build: its key, its display label (`label`) and
      its icon name. */
  datatype Category = Category(key: string, displayLabel: string, icon: string)

  /** `CATEGORIES`: the fourteen slots in display order. */
  function Categories(): (r: seq<Category>)
    ensures |r| == 14
  {
    [ Category("frame", "Frame", "frame"),
      Category("motors", "Motors", "motors"),
      Category("propellers", "Propellers", "propellers"),
      Category("battery", "Battery", "battery"),
      Category("fc", "Flight Controller", "fc"),
      Category("esc", "ESC", "esc"),
      Category("vtx", "VTX", "vtx"),
      Category("vtxAntenna", "VTX Antenna", "antenna"),
      Category("camera", "Camera", "camera"),
      Category("rx", "Receiver (RX)", "rx"),
      Category("rxAntenna", "RX Antenna", "antenna"),
      Category("tx", "Transmitter (TX)", "tx"),
      Category("goggles", "Goggles", "goggles"),
      Category("other", "Other", "other") ]
  }

  /** The registered keys, in registry order. */
  function CategoryKeys(): (r: seq<string>)
    ensures |r| == |Categories()|
    ensures forall i :: 0 <= i < |r| ==> r[i] == Categories()[i].key
  {
    seq(|Categories()|, i requires 0 <= i < |Categories()| => Categories()[i].key)
  }

  predicate IsCategory(k: string) {
    k in CategoryKeys()
  }

  /** A registry as `[key, entry]` pairs, the argument of `Object.fromEntries`. */
  function EntriesOf(cs: seq<Category>): (r: seq<Entry<Category>>)
    ensures |r| == |cs|
    ensures forall i :: 0 <= i < |r| ==> r[i] == Entry(cs[i].key, cs[i])
  {
    seq(|cs|, i requires 0 <= i < |cs| => Entry(cs[i].key, cs[i]))
  }

  /** `CATEGORY_MAP = Object.fromEntries(CATEGORIES.map(c => [c.key, c]))`. */
  function CategoryMap(): seq<Entry<Category>> {
    PutAll([], EntriesOf(Categories()))
  }

  /** The fourteen keys are pairwise distinct, so every slot is addressed by
      exactly one key. */
  lemma CategoryKeysDistinct()
    ensures forall i, j :: 0 <= i < j < |Categories()| ==> Categories()[i].key != Categories()[j].key
    ensures forall i, j :: 0 <= i < j < |CategoryKeys()| ==> CategoryKeys()[i] != CategoryKeys()[j]
  {
    var ks := CategoryKeys();
    assert ks == ["frame", "motors", "propellers", "battery", "fc", "esc", "vtx",
                  "vtxAntenna", "camera", "rx", "rxAntenna", "tx", "goggles", "other"];
  }

  /** The registry keys in order, as a literal list. */
  lemma CategoryOrder()
    ensures CategoryKeys() == ["frame", "motors", "propellers", "battery", "fc", "esc", "vtx",
                               "vtxAntenna", "camera", "rx", "rxAntenna", "tx", "goggles", "other"]
  {
  }

  /** `Object.fromEntries` over a registry with distinct keys maps each key to
      its own entry and nothing else. */
  lemma RegistryLookup(cs: seq<Category>)
    requires forall i, j :: 0 <= i < j < |cs| ==> cs[i].key != cs[j].key
    ensures forall i :: 0 <= i < |cs| ==> Get(PutAll([], EntriesOf(cs)), cs[i].key) == Some(cs[i])
    ensures forall k :: (forall i :: 0 <= i < |cs| ==> cs[i].key != k) ==> Get(PutAll([], EntriesOf(cs)), k).None?
  {
    var es := EntriesOf(cs);
    FromEntriesLookup(es);
    forall k | (forall i :: 0 <= i < |cs| ==> cs[i].key != k) ensures k !in Keys(es) {
      assert forall i :: 0 <= i < |es| ==> Keys(es)[i] == cs[i].key;
    }
  }

  /** `CATEGORY_MAP[k]` is the registry entry whose key is `k`, for every
      registered `k`, and `undefined` for every other key. */
  lemma CategoryMapLookup()
    ensures forall i :: 0 <= i < |Categories()| ==> Get(CategoryMap(), Categories()[i].key) == Some(Categories()[i])
    ensures forall k :: !IsCategory(k) ==> Get(CategoryMap(), k).None?
  {
    CategoryMapHasEach();
    CategoryMapHasNoOther();
  }

  lemma CategoryMapHasEach()
    ensures forall i :: 0 <= i < |Categories()| ==> Get(CategoryMap(), Categories()[i].key) == Some(Categories()[i])
  {
    CategoryKeysDistinct();
    RegistryLookup(Categories());
  }

  lemma CategoryMapHasNoOther()
    ensures forall k :: !IsCategory(k) ==> Get(CategoryMap(), k).None?
  {
    CategoryKeysDistinct();
    RegistryLookup(Categories());
  }

  /** `formatWeight(grams)` for its null and gram branches. The kilogram branch
      (`toFixed(2)` on a floating-point quotient) is outside this model and is
      reported as `None`. */
  function FormatWeight(grams: Option<int>): (r: Option<string>)
    ensures grams.None? ==> r == Some("—")
    ensures grams.Some? && grams.value < 1000 ==> r == Some(JsText.IntToString(grams.value) + " g")
    ensures grams.Some? && grams.value >= 1000 ==> r.None?
  {
    match grams
    case None => Some("—")
    case Some(g) => if g >= 1000 then None else Some(JsText.IntToString(g) + " g")
  }

  /** `formatCurrency(cents)` for its null branch; every amount goes through
      `Intl.NumberFormat`, which is outside this model and reported as `None`. */
  function FormatCurrency(cents: Option<int>): (r: Option<string>)
    ensures r.Some? <==> cents.None?
    ensures cents.None? ==> r == Some("—")
  {
    if cents.None? then Some("—") else None
  }
}

=== FILE: js_text.dfy ===
/** The fragments of JavaScript's string and number semantics that the
    application relies on: decimal rendering of integers (`String(n)`),
    `parseInt`, the string-to-number conversion used by `<`, `Array.join`,
    `String.split` on a one-character separator and the `\s` character class.
    Numbers are modelled as mathematical integers; `None` stands for `NaN`. */
module JsText {
  import opened Wrappers

  predicate IsDigit(c: char) {
    '0' <= c <= '9'
  }

  predicate AllDigits(s: string) {
    forall i :: 0 <= i < |s| ==> IsDigit(s[i])
  }

  /** ECMAScript WhiteSpace and LineTerminator code points: the characters
      `\s` matches, and those `parseInt` and `Number()` skip. */
  predicate IsJsSpace(c: char) {
    || c == '\t' || c == '\n' || c == '\U{000B}' || c == '\U{000C}' || c == '\r' || c == ' '
    || c == '\U{00A0}' || c == '\U{1680}' || ('\U{2000}' <= c <= '\U{200A}')
    || c == '\U{2028}' || c == '\U{2029}' || c == '\U{202F}' || c == '\U{205F}'
    || c == '\U{3000}' || c == '\U{FEFF}'
  }

  function DigitValue(c: char): (r: nat)
    requires IsDigit(c)
    ensures r < 10
  {
    c as int - '0' as int
  }

  function DigitChar(d: nat): (c: char)
    requires d < 10
    ensures IsDigit(c) && DigitValue(c) == d
  {
    ('0' as int + d) as char
  }

  /** The value of a decimal digit string, most significant digit first. */
  function DigitsValue(s: string): nat
    requires AllDigits(s)
  {
    if |s| == 0 then 0 else DigitsValue(s[..|s| - 1]) * 10 + DigitValue(s[|s| - 1])
  }

  /** `String(n)` for a non-negative integer: shortest decimal numeral. */
  function NatToString(n: nat): (r: string)
    ensures |r| > 0 && AllDigits(r)
    ensures DigitsValue(r) == n
    ensures |r| > 1 ==> r[0] != '0'
  {
    if n < 10 then [DigitChar(n)]
    else
      var r := NatToString(n / 10) + [DigitChar(n % 10)];
      assert r[..|r| - 1] == NatToString(n / 10);
      r
  }

  /** `String(n)` for an integer. */
  function IntToString(n: int): (r: string)
    ensures |r| > 0
    ensures n < 0 <==> r[0] == '-'
  {
    if n < 0 then "-" + NatToString(-n) else NatToString(n)
  }

  /** The longest prefix of `s` made of decimal digits. */
  function TakeDigits(s: string): (r: string)
    ensures AllDigits(r) && r <= s
    ensures |r| < |s| ==> !IsDigit(s[|r|])
  {
    if |s| == 0 || !IsDigit(s[0]) then "" else [s[0]] + TakeDigits(s[1..])
  }

  predicate IsHexDigit(c: char) {
    IsDigit(c) || 'a' <= c <= 'f' || 'A' <= c <= 'F'
  }

  function HexDigitValue(c: char): (r: nat)
    requires IsHexDigit(c)
    ensures r < 16
  {
    if IsDigit(c) then DigitValue(c)
    else if 'a' <= c <= 'f' then c as int - 'a' as int + 10
    else c as int - 'A' as int + 10
  }

  /** The longest prefix of `s` made of hexadecimal digits. */
  function TakeHexDigits(s: string): (r: string)
    ensures r <= s
    ensures forall i :: 0 <= i < |r| ==> IsHexDigit(r[i])
  {
    if |s| == 0 || !IsHexDigit(s[0]) then "" else [s[0]] + TakeHexDigits(s[1..])
  }

  function HexValue(s: string): nat
    requires forall i :: 0 <= i < |s| ==> IsHexDigit(s[i])
  {
    if |s| == 0 then 0 else HexValue(s[..|s| - 1]) * 16 + HexDigitValue(s[|s| - 1])
  }

  /** `s.trimStart()`. */
  function TrimStart(s: string): (r: string)
    ensures |r| > 0 ==> !IsJsSpace(r[0])
    ensures |r| <= |s| && r == s[|s| - |r|..]
  {
    if |s| > 0 && IsJsSpace(s[0]) then TrimStart(s[1..]) else s
  }

  /** `s.trimEnd()`. */
  function TrimEnd(s: string): (r: string)
    ensures |r| > 0 ==> !IsJsSpace(r[|r| - 1])
    ensures |r| <= |s| && r == s[..|r|]
  {
    if |s| > 0 && IsJsSpace(s[|s| - 1]) then TrimEnd(s[..|s| - 1]) else s
  }

  /** The global `parseInt(s)` with no radix argument: leading white space is
      skipped, one sign is accepted, a `0x`/`0X` prefix selects base 16, and the
      longest run of digits that follows is converted; no digits is `NaN`. */
  function ParseInt(s: string): Option<int> {
    var t := TrimStart(s);
    if |t| > 0 && t[0] == '-' then
      match ParseUnsigned(t[1..])
      case Some(v) => Some(-v)
      case None => None
    else if |t| > 0 && t[0] == '+' then ParseUnsigned(t[1..])
    else ParseUnsigned(t)
  }

  /** The digits part of `parseInt`, after white space and sign. */
  function ParseUnsigned(u: string): Option<int> {
    if |u| >= 2 && u[0] == '0' && (u[1] == 'x' || u[1] == 'X') then
      var h := TakeHexDigits(u[2..]);
      if |h| == 0 then None else Some(HexValue(h))
    else
      var d := TakeDigits(u);
      if |d| == 0 then None else Some(DigitsValue(d))
  }

  /** The conversion `Number(s)` of a string, for the strings that denote
      integers: surrounding white space is ignored, a blank string is 0, and an
      optionally signed run of decimal digits is its value. Everything else
      (fractions, exponents, `0x`, `Infinity`) is read as `NaN` here. */
  function StringToNumber(s: string): Option<int> {
    var t := TrimEnd(TrimStart(s));
    if |t| == 0 then Some(0)
    else
      var negative := t[0] == '-';
      var u := if t[0] == '-' || t[0] == '+' then t[1..] else t;
      if |u| > 0 && AllDigits(u) then
        var v: int := DigitsValue(u);
        Some(if negative then -v else v)
      else None
  }

  /** `parts.join(sep)`. */
  function Join(parts: seq<string>, sep: string): string {
    if |parts| == 0 then ""
    else if |parts| == 1 then parts[0]
    else parts[0] + sep + Join(parts[1..], sep)
  }

  /** `s.split(c)` for a one-character separator `c`: the maximal pieces of `s`
      free of `c`, including empty ones. */
  function Split(s: string, c: char): (r: seq<string>)
    ensures |r| >= 1
    ensures forall i :: 0 <= i < |r| ==> c !in r[i]
  {
    if |s| == 0 then [""]
    else if s[0] == c then [""] + Split(s[1..], c)
    else
      var p := Split(s[1..], c);
      [[s[0]] + p[0]] + p[1..]
  }

  /** `s.replace(/\s/g, '')`. */
  function RemoveSpaces(s: string): (r: string)
    ensures forall i :: 0 <= i < |r| ==> !IsJsSpace(r[i])
    ensures |r| <= |s|
  {
    if |s| == 0 then ""
    else if IsJsSpace(s[0]) then RemoveSpaces(s[1..])
    else [s[0]] + RemoveSpaces(s[1..])
  }

  /** Splitting on `c` and joining the pieces with `c` gives the string back,
      so `split` loses nothing but the separators. */
  lemma {:induction false} JoinSplit(s: string, c: char)
    ensures Join(Split(s, c), [c]) == s
  {
    if |s| > 0 {
      var p := Split(s[1..], c);
      JoinSplit(s[1..], c);
      if s[0] == c {
        assert Split(s, c) == [""] + p;
        assert ([""] + p)[1..] == p;
      } else {
        var r := [[s[0]] + p[0]] + p[1..];
        assert Split(s, c) == r;
        assert r[1..] == p[1..];
        if |p| == 1 {
          assert s == [s[0]] + p[0];
        } else {
          assert Join(p, [c]) == p[0] + [c] + Join(p[1..], [c]);
          assert s == [s[0]] + s[1..];
        }
      }
    }
  }

  /** A text with no separator splits into itself alone. */
  lemma {:induction false} SplitPlain(a: string, c: char)
    requires c !in a
    ensures Split(a, c) == [a]
  {
    if |a| > 0 {
      SplitPlain(a[1..], c);
      assert [a[0]] + a[1..] == a;
    }
  }

  /** A separator between two texts that have none splits them apart. */
  lemma {:induction false} SplitAround(a: string, b: string, c: char)
    requires c !in a && c !in b
    ensures Split(a + [c] + b, c) == [a, b]
    decreases |a|
  {
    if |a| == 0 {
      SplitPlain(b, c);
      assert (a + [c] + b)[0] == c;
      assert (a + [c] + b)[1..] == b;
    } else {
      SplitAround(a[1..], b, c);
      assert (a + [c] + b)[1..] == a[1..] + [c] + b;
      assert [a[0]] + a[1..] == a;
    }
  }

  /** Removing white space from a text that has none leaves it as it is. */
  lemma {:induction false} RemoveNoSpaces(s: string)
    requires forall i :: 0 <= i < |s| ==> !IsJsSpace(s[i])
    ensures RemoveSpaces(s) == s
  {
    if |s| > 0 {
      RemoveNoSpaces(s[1..]);
      assert [s[0]] + s[1..] == s;
    }
  }

  lemma {:induction false} TakeAllDigits(s: string)
    requires AllDigits(s)
    ensures TakeDigits(s) == s
  {
    if |s| > 0 {
      TakeAllDigits(s[1..]);
    }
  }

  /** `parseInt(String(n)) === n` for every integer `n`: the numeral the
      application renders is read back to the same value. */
  lemma ParseIntOfIntToString(n: int)
    ensures ParseInt(IntToString(n)) == Some(n)
  {
    var r := IntToString(n);
    var m: nat := if n < 0 then -n else n;
    var d := NatToString(m);
    assert IsDigit(d[0]);
    TakeAllDigits(d);
    assert ParseUnsigned(d) == Some(m);
    if n < 0 {
      assert r == "-" + d;
      assert TrimStart(r) == r;
      assert r[1..] == d;
    } else {
      assert r == d;
      assert TrimStart(r) == r;
    }
  }
}

=== FILE: node_animations.dfy ===
/** The wiring diagram's node animations: which animation a change of part or
    of compatibility status starts in a category's node, the snapshots the two
    watchers keep between runs, and the timer that switches an animation off.
    A watcher run is a function from the watcher state and the new value to
    the next state and the timers it schedules; the reactive scheduling that
    decides when a run happens, and the clock, are not modelled. */
module NodeAnimations {
  import opened Wrappers
  import opened Assoc
  import opened Entities
  import BuildStore
  import Helpers
  import Compatibility

  datatype Kind = PowerOn | PowerOff | LockIn | ErrorPulse | OkFlash | WarningPulse {
    /** The animation's name, as the node's styling refers to it. */
    function Name(): string {
      match this
      case PowerOn => "power-on"
      case PowerOff => "power-off"
      case LockIn => "lock-in"
      case ErrorPulse => "error-pulse"
      case OkFlash => "ok-flash"
      case WarningPulse => "warning-pulse"
    }
  }

  /** The names a plain object such as `DURATIONS` inherits from
      `Object.prototype`: looking one up yields a function (or, for
      `__proto__`, the prototype itself), never `undefined`. */
  const PrototypeNames: set<string> :=
    {"constructor", "__defineGetter__", "__defineSetter__", "hasOwnProperty",
     "__lookupGetter__", "__lookupSetter__", "isPrototypeOf",
     "propertyIsEnumerable", "toString", "valueOf", "__proto__", "toLocaleString"}

  /** The timer delay of `DURATIONS[type] || 500`, in milliseconds: the six
      named animations have their own length and any other name falls back
      to half a second, except an inherited name, whose truthy non-number
      value the timer converts to NaN and so to a zero delay. */
  function Duration(name: string): (ms: nat)
    ensures ms > 0 <==> name !in PrototypeNames
    ensures name == "power-on" ==> ms == 600
    ensures name == "power-off" ==> ms == 400
    ensures name == "lock-in" ==> ms == 300
    ensures name == "error-pulse" ==> ms == 800
    ensures name == "ok-flash" ==> ms == 500
    ensures name == "warning-pulse" ==> ms == 700
    ensures name !in {"power-on", "power-off", "lock-in", "error-pulse", "ok-flash", "warning-pulse"} && name !in PrototypeNames ==> ms == 500
  {
    match name
    case "power-on" => 600
    case "power-off" => 400
    case "lock-in" => 300
    case "error-pulse" => 800
    case "ok-flash" => 500
    case "warning-pulse" => 700
    case _ => if name in PrototypeNames then 0 else 500
  }

  /** A node's animation: its kind and whether it is still playing. */
  datatype Anim = Anim(kind: Kind, active: bool)

  type Anims = seq<Entry<Anim>>

  /** A scheduled `setTimeout`: after `delay` ms, expire `kind` on `key`. */
  datatype Timer = Timer(key: string, kind: Kind, delay: nat)

  /** The state the watchers keep: whether the part watcher has taken its
      first snapshot, the two snapshots (`None` inside the part snapshot is
      `null`, an empty slot) and the animation map. */
  datatype Watchers = Watchers(
    initialized: bool,
    prevIds: seq<Entry<Option<string>>>,
    prevStatuses: seq<Entry<Compatibility.Status>>,
    anims: Anims)

  function Start(): Watchers {
    Watchers(false, [], [], [])
  }

  /** `triggerAnimation(key, kind)`: the node plays `kind`, and a timer for
      the kind's duration is scheduled. */
  function Trigger(anims: Anims, key: string, kind: Kind): (r: (Anims, Timer))
    ensures Get(r.0, key) == Some(Anim(kind, true))
    ensures forall k :: k != key ==> Get(r.0, k) == Get(anims, k)
    ensures r.1.key == key && r.1.kind == kind && r.1.delay > 0
    ensures r.1.delay == Duration(kind.Name())
  {
    (Put(anims, key, Anim(kind, true)), Timer(key, kind, Duration(kind.Name())))
  }

  /** The timer callback: the node stops playing only if it is still playing
      the animation the timer was set for; a newer animation of another kind
      is left alone. */
  function Expire(anims: Anims, t: Timer): (r: Anims)
    ensures forall k :: k != t.key ==> Get(r, k) == Get(anims, k)
    ensures Get(anims, t.key).Some? && Get(anims, t.key).value.kind == t.kind ==>
      Get(r, t.key) == Some(Anim(t.kind, false))
    ensures !(Get(anims, t.key).Some? && Get(anims, t.key).value.kind == t.kind) ==> r == anims
  {
    match Get(anims, t.key)
    case Some(a) => if a.kind == t.kind then Put(anims, t.key, Anim(t.kind, false)) else anims
    case None => anims
  }

  /** The timer of an animation switches that animation off, but a later
      animation of a different kind on the same node keeps playing. */
  lemma ExpireOnlyOwnKind(anims: Anims, key: string, first: Kind, second: Kind)
    ensures var (a1, t1) := Trigger(anims, key, first);
      Get(Expire(a1, t1), key) == Some(Anim(first, false))
    ensures var (a1, t1) := Trigger(anims, key, first);
      var (a2, _) := Trigger(a1, key, second);
      first != second ==> Get(Expire(a2, t1), key) == Some(Anim(second, true))
  {
  }

  // ---------------------------------------------------------------------
  // Part changes

  /** What the part watcher records for a slot: `c.id || c.name`, or `null`. */
  function SlotId(slot: Option<Component>): Option<string> {
    match slot
    case None => None
    case Some(c) => Some(Identity(c))
  }

  /** The animation a slot's change of part starts. `prev` is the snapshot's
      entry (`None` when the snapshot lacks the key, `Some(None)` for `null`)
      and `curr` the slot's identity now. */
  function ComponentTransition(prev: Option<Option<string>>, curr: Option<string>): (r: Option<Kind>)
    ensures r.None? <==> prev == Some(curr)
    ensures r == Some(PowerOn) <==> prev == Some(None) && curr.Some?
    ensures r == Some(PowerOff) <==> prev != Some(None) && curr.None?
    ensures r.Some? ==> r.value in {PowerOn, PowerOff, LockIn}
  {
    if prev == Some(None) && curr.Some? then Some(PowerOn)
    else if prev != Some(None) && curr.None? then Some(PowerOff)
    else if prev != Some(None) && curr.Some? && prev != Some(curr) then Some(LockIn)
    else None
  }

  /** The snapshot of the slots `keys` of `comps`, written over `prev`. */
  function SnapshotIds(prev: seq<Entry<Option<string>>>, keys: seq<string>, comps: BuildStore.Slots): seq<Entry<Option<string>>>
    decreases |keys|
  {
    if |keys| == 0 then prev
    else SnapshotIds(Put(prev, keys[0], SlotId(BuildStore.Slot(comps, keys[0]))), keys[1..], comps)
  }

  /** One pass of the part watcher over `keys`: each slot's transition from
      the snapshot, then the snapshot updated for that slot. */
  function ComponentsPass(w: Watchers, keys: seq<string>, comps: BuildStore.Slots): (r: (Watchers, seq<Timer>))
    ensures r.0.initialized == w.initialized && r.0.prevStatuses == w.prevStatuses
    decreases |keys|
  {
    if |keys| == 0 then (w, [])
    else
      var k := keys[0];
      var curr := SlotId(BuildStore.Slot(comps, k));
      var t := ComponentTransition(Get(w.prevIds, k), curr);
      var w1 := if t.Some? then w.(anims := Trigger(w.anims, k, t.value).0) else w;
      var w2 := w1.(prevIds := Put(w1.prevIds, k, curr));
      var rest := ComponentsPass(w2, keys[1..], comps);
      (rest.0, (if t.Some? then [Trigger(w.anims, k, t.value).1] else []) + rest.1)
  }

  /** A run of the part watcher over the slots `keys`: the first run only
      takes the snapshot; later runs animate and update it. */
  function ComponentsChanged(w: Watchers, keys: seq<string>, comps: BuildStore.Slots): (r: (Watchers, seq<Timer>))
    ensures r.0.initialized
    ensures !w.initialized ==> r.1 == [] && r.0.anims == w.anims
  {
    if !w.initialized then
      (w.(prevIds := SnapshotIds(w.prevIds, keys, comps), initialized := true), [])
    else ComponentsPass(w, keys, comps)
  }

  /** The timers a pass schedules when every transition is read from the
      snapshot `prev` as it was before the pass. */
  function ExpectedTimers(prev: seq<Entry<Option<string>>>, keys: seq<string>, comps: BuildStore.Slots): seq<Timer>
    decreases |keys|
  {
    if |keys| == 0 then []
    else
      var t := ComponentTransition(Get(prev, keys[0]), SlotId(BuildStore.Slot(comps, keys[0])));
      (if t.Some? then [Timer(keys[0], t.value, Duration(t.value.Name()))] else [])
      + ExpectedTimers(prev, keys[1..], comps)
  }

  predicate Distinct(keys: seq<string>) {
    forall i, j :: 0 <= i < j < |keys| ==> keys[i] != keys[j]
  }

  /** Keys a snapshot does not visit keep their entry. */
  lemma {:induction false} SnapshotFrame(prev: seq<Entry<Option<string>>>, keys: seq<string>, comps: BuildStore.Slots, k: string)
    requires k !in keys
    ensures Get(SnapshotIds(prev, keys, comps), k) == Get(prev, k)
    decreases |keys|
  {
    if |keys| > 0 {
      assert keys[0] != k;
      SnapshotFrame(Put(prev, keys[0], SlotId(BuildStore.Slot(comps, keys[0]))), keys[1..], comps, k);
    }
  }

  /** After a snapshot every visited slot records its current identity. */
  lemma {:induction false} SnapshotRecords(prev: seq<Entry<Option<string>>>, keys: seq<string>, comps: BuildStore.Slots, k: string)
    requires k in keys
    ensures Get(SnapshotIds(prev, keys, comps), k) == Some(SlotId(BuildStore.Slot(comps, k)))
    decreases |keys|
  {
    var p1 := Put(prev, keys[0], SlotId(BuildStore.Slot(comps, keys[0])));
    if k in keys[1..] {
      SnapshotRecords(p1, keys[1..], comps, k);
    } else {
      assert k == keys[0];
      SnapshotFrame(p1, keys[1..], comps, k);
    }
  }

  /** Slots a pass does not visit keep their snapshot entry. */
  lemma {:induction false} PassFrame(w: Watchers, keys: seq<string>, comps: BuildStore.Slots, k: string)
    requires k !in keys
    ensures Get(ComponentsPass(w, keys, comps).0.prevIds, k) == Get(w.prevIds, k)
    decreases |keys|
  {
    if |keys| > 0 {
      var k0 := keys[0];
      var curr := SlotId(BuildStore.Slot(comps, k0));
      var t := ComponentTransition(Get(w.prevIds, k0), curr);
      var w1 := if t.Some? then w.(anims := Trigger(w.anims, k0, t.value).0) else w;
      var w2 := w1.(prevIds := Put(w1.prevIds, k0, curr));
      PassFrame(w2, keys[1..], comps, k);
    }
  }

  /** After a pass every visited slot records its current identity. */
  lemma {:induction false} PassRecords(w: Watchers, keys: seq<string>, comps: BuildStore.Slots, k: string)
    requires k in keys
    ensures Get(ComponentsPass(w, keys, comps).0.prevIds, k) == Some(SlotId(BuildStore.Slot(comps, k)))
    decreases |keys|
  {
    var k0 := keys[0];
    var curr := SlotId(BuildStore.Slot(comps, k0));
    var t := ComponentTransition(Get(w.prevIds, k0), curr);
    var w1 := if t.Some? then w.(anims := Trigger(w.anims, k0, t.value).0) else w;
    var w2 := w1.(prevIds := Put(w1.prevIds, k0, curr));
    if k in keys[1..] {
      PassRecords(w2, keys[1..], comps, k);
    } else {
      assert k == k0;
      PassFrame(w2, keys[1..], comps, k);
    }
  }

  /** Every run of the part watcher, first or later, leaves the snapshot
      holding each slot's current identity. */
  lemma SnapshotAfterRun(w: Watchers, keys: seq<string>, comps: BuildStore.Slots)
    ensures forall k :: k in keys ==>
      Get(ComponentsChanged(w, keys, comps).0.prevIds, k) == Some(SlotId(BuildStore.Slot(comps, k)))
  {
    forall k | k in keys
      ensures Get(ComponentsChanged(w, keys, comps).0.prevIds, k) == Some(SlotId(BuildStore.Slot(comps, k)))
    {
      if w.initialized {
        PassRecords(w, keys, comps, k);
      } else {
        SnapshotRecords(w.prevIds, keys, comps, k);
      }
    }
  }

  /** The expected timers depend on the snapshot only at the visited keys. */
  lemma {:induction false} ExpectedTimersLocal(p1: seq<Entry<Option<string>>>, p2: seq<Entry<Option<string>>>,
                                               keys: seq<string>, comps: BuildStore.Slots)
    requires forall k :: k in keys ==> Get(p1, k) == Get(p2, k)
    ensures ExpectedTimers(p1, keys, comps) == ExpectedTimers(p2, keys, comps)
    decreases |keys|
  {
    if |keys| > 0 {
      assert keys[0] in keys;
      ExpectedTimersLocal(p1, p2, keys[1..], comps);
    }
  }

  /** Over distinct slots, a pass schedules exactly one timer for each slot
      whose identity differs from the snapshot taken before the pass, in slot
      order: updating the snapshot along the way never hides a change. */
  lemma {:induction false} PassTimers(w: Watchers, keys: seq<string>, comps: BuildStore.Slots)
    requires Distinct(keys)
    ensures ComponentsPass(w, keys, comps).1 == ExpectedTimers(w.prevIds, keys, comps)
    decreases |keys|
  {
    if |keys| > 0 {
      var k0 := keys[0];
      var curr := SlotId(BuildStore.Slot(comps, k0));
      var t := ComponentTransition(Get(w.prevIds, k0), curr);
      var w1 := if t.Some? then w.(anims := Trigger(w.anims, k0, t.value).0) else w;
      var w2 := w1.(prevIds := Put(w1.prevIds, k0, curr));
      assert Distinct(keys[1..]) by {
        forall i, j | 0 <= i < j < |keys[1..]| ensures keys[1..][i] != keys[1..][j] {
          assert keys[1..][i] == keys[i + 1] && keys[1..][j] == keys[j + 1];
        }
      }
      PassTimers(w2, keys[1..], comps);
      forall k | k in keys[1..] ensures Get(w2.prevIds, k) == Get(w.prevIds, k) {
        var j :| 0 <= j < |keys[1..]| && keys[1..][j] == k;
        assert keys[j + 1] == k;
      }
      ExpectedTimersLocal(w2.prevIds, w.prevIds, keys[1..], comps);
    }
  }

  /** No timers are expected when the snapshot already holds every slot's
      current identity. */
  lemma {:induction false} NothingExpectedWhenCurrent(prev: seq<Entry<Option<string>>>, keys: seq<string>, comps: BuildStore.Slots)
    requires forall k :: k in keys ==> Get(prev, k) == Some(SlotId(BuildStore.Slot(comps, k)))
    ensures ExpectedTimers(prev, keys, comps) == []
    decreases |keys|
  {
    if |keys| > 0 {
      assert keys[0] in keys;
      NothingExpectedWhenCurrent(prev, keys[1..], comps);
    }
  }

  /** Running the part watcher again on the same parts animates nothing. */
  lemma RerunIsQuiet(w: Watchers, keys: seq<string>, comps: BuildStore.Slots)
    requires Distinct(keys)
    ensures var w1 := ComponentsChanged(w, keys, comps).0;
      ComponentsChanged(w1, keys, comps).1 == []
  {
    var w1 := ComponentsChanged(w, keys, comps).0;
    SnapshotAfterRun(w, keys, comps);
    PassTimers(w1, keys, comps);
    NothingExpectedWhenCurrent(w1.prevIds, keys, comps);
  }

  /** The registered category keys are distinct, so the results above apply
      to the watcher as the diagram runs it. */
  lemma CategoryKeysAreDistinct()
    ensures Distinct(Helpers.CategoryKeys())
  {
    Helpers.CategoryKeysDistinct();
  }

  // ---------------------------------------------------------------------
  // Status changes

  /** The animation a category's change of status starts: only when there was
      an earlier status and it differs; then a pulse towards error or warning,
      or a flash when an error clears to ok. */
  function StatusTransition(prev: Option<Compatibility.Status>, curr: Compatibility.Status): (r: Option<Kind>)
    ensures r.Some? ==> prev.Some? && prev.value != curr
    ensures r == Some(ErrorPulse) <==> prev.Some? && prev.value != curr && curr == Compatibility.Error
    ensures r == Some(WarningPulse) <==> prev.Some? && prev.value != curr && curr == Compatibility.Warning
    ensures r == Some(OkFlash) <==> prev == Some(Compatibility.Error) && curr == Compatibility.Ok
    ensures r.Some? ==> r.value in {ErrorPulse, WarningPulse, OkFlash}
  {
    if prev.Some? && prev.value != curr then
      if curr == Compatibility.Error then Some(ErrorPulse)
      else if curr == Compatibility.Warning then Some(WarningPulse)
      else if curr == Compatibility.Ok && prev.value == Compatibility.Error then Some(OkFlash)
      else None
    else None
  }

  /** The first loop of the status watcher: transitions read from the
      snapshot, which that loop does not change. */
  function StatusPass(anims: Anims, prev: seq<Entry<Compatibility.Status>>, keys: seq<string>,
                      status: string -> Compatibility.Status): (r: (Anims, seq<Timer>))
    decreases |keys|
  {
    if |keys| == 0 then (anims, [])
    else
      var k := keys[0];
      var t := StatusTransition(Get(prev, k), status(k));
      var a1 := if t.Some? then Trigger(anims, k, t.value).0 else anims;
      var rest := StatusPass(a1, prev, keys[1..], status);
      (rest.0, (if t.Some? then [Trigger(anims, k, t.value).1] else []) + rest.1)
  }

  /** The second loop: the snapshot takes every category's new status. */
  function SnapshotStatuses(prev: seq<Entry<Compatibility.Status>>, keys: seq<string>,
                            status: string -> Compatibility.Status): (r: seq<Entry<Compatibility.Status>>)
    ensures forall k :: k in keys ==> Get(r, k) == Some(status(k))
    ensures forall k :: k !in keys ==> Get(r, k) == Get(prev, k)
    decreases |keys|
  {
    if |keys| == 0 then prev
    else
      var r := SnapshotStatuses(Put(prev, keys[0], status(keys[0])), keys[1..], status);
      assert forall k :: k in keys ==> k == keys[0] || k in keys[1..];
      r
  }

  /** A run of the status watcher with the statuses `status` of `keys`. */
  function StatusesChanged(w: Watchers, keys: seq<string>, status: string -> Compatibility.Status): (r: (Watchers, seq<Timer>))
    ensures r.0.prevIds == w.prevIds && r.0.initialized == w.initialized
    ensures forall k :: k in keys ==> Get(r.0.prevStatuses, k) == Some(status(k))
  {
    var (anims, timers) := StatusPass(w.anims, w.prevStatuses, keys, status);
    (w.(anims := anims, prevStatuses := SnapshotStatuses(w.prevStatuses, keys, status)), timers)
  }

  /** The statuses the diagram watches: `getCategoryStatus` of the build. */
  function CurrentStatus(s: BuildStore.Slots): string -> Compatibility.Status {
    k => Compatibility.CategoryStatus(s, k)
  }

  /** A pass schedules a timer for a category exactly when its status
      transition from the snapshot starts an animation. */
  lemma {:induction false} StatusPassTimers(anims: Anims, prev: seq<Entry<Compatibility.Status>>, keys: seq<string>,
                                            status: string -> Compatibility.Status)
    ensures var ts := StatusPass(anims, prev, keys, status).1;
      forall t :: t in ts ==> t.key in keys && StatusTransition(Get(prev, t.key), status(t.key)) == Some(t.kind)
    ensures forall k :: k in keys && StatusTransition(Get(prev, k), status(k)).Some? ==>
      exists t :: t in StatusPass(anims, prev, keys, status).1 && t.key == k
    decreases |keys|
  {
    if |keys| > 0 {
      var k := keys[0];
      var t := StatusTransition(Get(prev, k), status(k));
      var a1 := if t.Some? then Trigger(anims, k, t.value).0 else anims;
      StatusPassTimers(a1, prev, keys[1..], status);
      var ts := StatusPass(anims, prev, keys, status).1;
      assert ts == (if t.Some? then [Trigger(anims, k, t.value).1] else []) + StatusPass(a1, prev, keys[1..], status).1;
      if t.Some? {
        assert Trigger(anims, k, t.value).1 in ts;
      }
      assert forall k' :: k' in keys ==> k' == k || k' in keys[1..];
    }
  }

  /** A pass in which no category's status transition starts an animation
      schedules no timer. */
  lemma {:induction false} StatusPassQuiet(anims: Anims, prev: seq<Entry<Compatibility.Status>>, keys: seq<string>,
                                           status: string -> Compatibility.Status)
    requires forall k :: k in keys ==> StatusTransition(Get(prev, k), status(k)).None?
    ensures StatusPass(anims, prev, keys, status).1 == []
    decreases |keys|
  {
    if |keys| > 0 {
      assert keys[0] in keys;
      StatusPassQuiet(anims, prev, keys[1..], status);
    }
  }

  /** The status watcher's first run, against an empty snapshot, animates
      nothing; and a run with unchanged statuses animates nothing. */
  lemma StatusRunsQuietWhenUnchanged(w: Watchers, keys: seq<string>, status: string -> Compatibility.Status)
    ensures StatusesChanged(Start(), keys, status).1 == []
    ensures StatusesChanged(StatusesChanged(w, keys, status).0, keys, status).1 == []
  {
    var w1 := StatusesChanged(w, keys, status).0;
    StatusPassQuiet(Start().anims, Start().prevStatuses, keys, status);
    StatusPassQuiet(w1.anims, w1.prevStatuses, keys, status);
  }
}

=== FILE: node_positions.dfy ===
/** User-dragged positions of the wiring diagram's nodes: a shared table of
    overrides, persisted as a list of `[key, position]` pairs under one storage
    key. A write or removal that fails is swallowed, which the model expresses
    by leaving the stored value as it was. Coordinates are integers here. */
module NodePositions {
  import opened Wrappers
  import opened Assoc

  datatype Pos = Pos(x: int, y: int)

  type Overrides = seq<Entry<Pos>>

  /** The overrides in memory and what storage holds (`None`: no entry). */
  datatype Positions = Positions(overrides: Overrides, stored: Option<seq<Entry<Pos>>>)

  /** Module start-up: every stored pair is set in order into an empty table,
      so a later pair for a key wins; no stored entry gives an empty table. */
  function Load(stored: Option<seq<Entry<Pos>>>): (r: Positions)
    ensures r.stored == stored
    ensures stored.None? ==> r.overrides == []
  {
    Positions(PutAll([], stored.GetOr([])), stored)
  }

  /** `getPosition(key, dx, dy)`: the override if there is one, else the
      default. */
  function GetPosition(ov: Overrides, key: string, dx: int, dy: int): (r: Pos)
    ensures Get(ov, key).Some? ==> r == Get(ov, key).value
    ensures Get(ov, key).None? ==> r == Pos(dx, dy)
  {
    match Get(ov, key)
    case Some(p) => p
    case None => Pos(dx, dy)
  }

  /** `setPosition(key, x, y)`: the override is set, then the whole table is
      written, unless the write fails. */
  function SetPosition(p: Positions, key: string, x: int, y: int, writeOk: bool): (r: Positions)
    ensures Get(r.overrides, key) == Some(Pos(x, y))
    ensures forall k :: k != key ==> Get(r.overrides, k) == Get(p.overrides, k)
    ensures writeOk ==> r.stored == Some(r.overrides)
    ensures !writeOk ==> r.stored == p.stored
  {
    var ov := Put(p.overrides, key, Pos(x, y));
    Positions(ov, if writeOk then Some(ov) else p.stored)
  }

  /** `resetPositions()`: the table is emptied and the stored entry removed,
      unless the removal fails. */
  function ResetPositions(p: Positions, removeOk: bool): (r: Positions)
    ensures r.overrides == []
    ensures removeOk ==> r.stored.None?
    ensures !removeOk ==> r.stored == p.stored
  {
    Positions([], if removeOk then None else p.stored)
  }

  /** `hasOverrides()`: the table is not empty. */
  predicate HasOverrides(ov: Overrides) {
    |ov| > 0
  }

  /** Some node is overridden exactly when some key answers an override. */
  lemma HasOverridesIff(ov: Overrides)
    ensures HasOverrides(ov) <==> exists k :: Get(ov, k).Some?
  {
    if |ov| > 0 {
      assert Keys(ov)[0] == ov[0].key;
      assert Get(ov, ov[0].key).Some?;
    } else {
      assert Keys(ov) == [];
    }
  }

  /** Setting a key answers the new position for it and the old answer for
      every other key. */
  lemma SetThenGet(p: Positions, key: string, x: int, y: int, writeOk: bool, other: string, dx: int, dy: int)
    ensures GetPosition(SetPosition(p, key, x, y, writeOk).overrides, key, dx, dy) == Pos(x, y)
    ensures other != key ==>
      GetPosition(SetPosition(p, key, x, y, writeOk).overrides, other, dx, dy) == GetPosition(p.overrides, other, dx, dy)
    ensures HasOverrides(SetPosition(p, key, x, y, writeOk).overrides)
  {
  }

  /** After a reset every node is back at its default and nothing is
      overridden. */
  lemma ResetThenGet(p: Positions, removeOk: bool, key: string, dx: int, dy: int)
    ensures GetPosition(ResetPositions(p, removeOk).overrides, key, dx, dy) == Pos(dx, dy)
    ensures !HasOverrides(ResetPositions(p, removeOk).overrides)
  {
  }

  /** Loading answers, for each key, the position of the last stored pair for
      it, and the default for keys with no pair. */
  lemma LoadLastWins(stored: seq<Entry<Pos>>, key: string, dx: int, dy: int)
    ensures GetPosition(Load(Some(stored)).overrides, key, dx, dy) ==
      match LastValue(stored, key) case Some(p) => p case None => Pos(dx, dy)
  {
    PutAllLastWins([], stored, key);
  }

  /** Assigning pairs into a table with distinct keys keeps them distinct. */
  lemma {:induction false} PutAllKeepsDistinct(acc: Overrides, entries: seq<Entry<Pos>>)
    requires DistinctKeys(acc)
    ensures DistinctKeys(PutAll(acc, entries))
    decreases |entries|
  {
    if |entries| > 0 {
      PutKeepsDistinct(acc, entries[0].key, entries[0].value);
      PutAllKeepsDistinct(Put(acc, entries[0].key, entries[0].value), entries[1..]);
    }
  }

  /** The table only ever has distinct keys: after loading, and after each
      set or reset. */
  lemma TableStaysDistinct(stored: Option<seq<Entry<Pos>>>, p: Positions, key: string, x: int, y: int, writeOk: bool)
    ensures DistinctKeys(Load(stored).overrides)
    ensures DistinctKeys(p.overrides) ==> DistinctKeys(SetPosition(p, key, x, y, writeOk).overrides)
  {
    PutAllKeepsDistinct([], stored.GetOr([]));
    if DistinctKeys(p.overrides) {
      PutKeepsDistinct(p.overrides, key, Pos(x, y));
    }
  }

  /** A table written out and loaded back is the same table, in the same
      order: positions survive a reload after a successful write. */
  lemma PersistLoadRoundTrip(p: Positions, key: string, x: int, y: int)
    requires DistinctKeys(p.overrides)
    ensures var r := SetPosition(p, key, x, y, true);
      Load(r.stored).overrides == r.overrides
  {
    var r := SetPosition(p, key, x, y, true);
    PutKeepsDistinct(p.overrides, key, Pos(x, y));
    assert [] + r.overrides == r.overrides;
    PutAllFresh([], r.overrides);
  }
}

=== FILE: rules.dfy ===
/** The compatibility rule table: the spec parsers, the nineteen pairwise
    checks with their exact messages, and the explanation of every rule. A
    check returns `Some(message)` when the two components conflict and `None`
    (JavaScript `null`) when they do not. */
module Rules {
  import opened Wrappers
  import opened JsText
  import opened Entities

  datatype Severity = Error | Warning | Info {
    /** The severity string the table and the alerts carry. */
    function Name(): string {
      match this
      case Error => "error"
      case Warning => "warning"
      case Info => "info"
    }

    /** `severity.toUpperCase()`. */
    function Upper(): string {
      match this
      case Error => "ERROR"
      case Warning => "WARNING"
      case Info => "INFO"
    }
  }

  /** A rated voltage range in cells, `{ min, max }`. */
  datatype Range = Range(min: int, max: int) {
    predicate Contains(n: int) {
      min <= n <= max
    }
  }

  // ---------------------------------------------------------------------
  // Regular-expression searches

  /** The least position `j` in `[i, n)` with `p(j)`: the start position at which
      a left-to-right regular-expression search first succeeds. */
  function Leftmost(p: nat -> bool, i: nat, n: nat): (r: Option<nat>)
    ensures r.Some? ==> i <= r.value < n && p(r.value)
    ensures r.Some? ==> forall j :: i <= j < r.value ==> !p(j)
    ensures r.None? ==> forall j :: i <= j < n ==> !p(j)
    decreases n - i
  {
    if i >= n then None else if p(i) then Some(i) else Leftmost(p, i + 1, n)
  }

  /** The maximal run of digits starting at position `i` (what a greedy `\d+`
      captures there; empty when `s[i]` is not a digit). */
  function RunAt(s: string, i: nat): (r: string)
    ensures AllDigits(r)
    ensures i <= |s| ==> i + |r| <= |s| && r == s[i..i + |r|]
    ensures i <= |s| && i + |r| < |s| ==> !IsDigit(s[i + |r|])
  {
    if i <= |s| then TakeDigits(s[i..]) else ""
  }

  /** The capture groups of `/(\d+)-?(\d+)?S/` for a match that starts at
      position `i`, if one does: the first digit run and the second one, which
      is "" when the optional group takes no part. Backtracking cannot help a
      greedy `\d+` here, because whatever it gives back is followed by a digit,
      which neither `-` nor `S` matches. */
  function VoltageAt(s: string, i: nat): (r: Option<(string, string)>)
    ensures r.Some? ==> |r.value.0| > 0 && AllDigits(r.value.0) && AllDigits(r.value.1)
    ensures r.Some? ==> 'S' in s
  {
    var d := RunAt(s, i);
    var j := i + |d|;
    if |d| == 0 || j >= |s| then None
    else if s[j] == 'S' then Some((d, ""))
    else if s[j] == '-' then
      var e := RunAt(s, j + 1);
      var k := j + 1 + |e|;
      if k < |s| && s[k] == 'S' then Some((d, e)) else None
    else None
  }

  /** A match of `/(\d+)S/` starts at position `i`. */
  predicate SCountAt(s: string, i: nat) {
    var d := RunAt(s, i);
    |d| > 0 && i + |d| < |s| && s[i + |d|] == 'S'
  }

  /** `parseVoltage(v)`: `null` for a falsy value; otherwise the leftmost match
      of `/(\d+)-?(\d+)?S/` in `String(v)`, read as `{min, max}` with `max`
      defaulting to `min`. */
  function ParseVoltage(v: Option<SpecValue>): (r: Option<Range>)
    ensures !Truthy(v) ==> r.None?
    ensures r.Some? ==> 'S' in Render(v.value) && r.value.min >= 0 && r.value.max >= 0
  {
    if !Truthy(v) then None
    else
      var s := Render(v.value);
      match VoltageStart(s)
      case None => None
      case Some(j) =>
        var m := VoltageAt(s, j).value;
        var low := DigitsValue(m.0);
        Some(Range(low, if m.1 != "" then DigitsValue(m.1) else low))
  }

  /** Where the leftmost match of `/(\d+)-?(\d+)?S/` in `s` starts, if anywhere. */
  function VoltageStart(s: string): (r: Option<nat>)
    ensures r.Some? ==> r.value < |s| && VoltageAt(s, r.value).Some?
    ensures r.Some? ==> forall k :: 0 <= k < r.value ==> VoltageAt(s, k).None?
    ensures r.None? ==> forall k :: 0 <= k < |s| ==> VoltageAt(s, k).None?
  {
    var p := (j: nat) => VoltageAt(s, j).Some?;
    assert forall k: nat :: p(k) == VoltageAt(s, k).Some?;
    Leftmost(p, 0, |s|)
  }

  /** `parseSCount(v)`: `null` for a falsy value; otherwise the digits of the
      leftmost match of `/(\d+)S/` in `String(v)`. */
  function ParseSCount(v: Option<SpecValue>): (r: Option<nat>)
    ensures !Truthy(v) ==> r.None?
  {
    if !Truthy(v) then None
    else
      var s := Render(v.value);
      match SCountStart(s)
      case None => None
      case Some(j) => Some(DigitsValue(RunAt(s, j)))
  }

  /** Where the leftmost match of `/(\d+)S/` in `s` starts, if anywhere. */
  function SCountStart(s: string): (r: Option<nat>)
    ensures r.Some? ==> r.value < |s| && SCountAt(s, r.value)
    ensures r.Some? ==> forall k :: 0 <= k < r.value ==> !SCountAt(s, k)
    ensures r.None? ==> forall k :: 0 <= k < |s| ==> !SCountAt(s, k)
  {
    var p := (j: nat) => SCountAt(s, j);
    assert forall k: nat :: p(k) == SCountAt(s, k);
    Leftmost(p, 0, |s|)
  }

  /** `voltageOverlap(a, b)`: a missing range overlaps everything; two ranges
      overlap when each one's top reaches the other's bottom. No rule of the
      table calls it. */
  function VoltageOverlap(a: Option<Range>, b: Option<Range>): (r: bool)
    ensures a.None? || b.None? ==> r
  {
    match (a, b)
    case (Some(x), Some(y)) => x.max >= y.min && y.max >= x.min
    case _ => true
  }

  // ---------------------------------------------------------------------
  // Parser lemmas

  lemma {:induction false} TakeDigitsOf(a: string, rest: string)
    requires AllDigits(a)
    requires |rest| > 0 ==> !IsDigit(rest[0])
    ensures TakeDigits(a + rest) == a
    decreases |a|
  {
    if |a| == 0 {
      assert a + rest == rest;
    } else {
      assert (a + rest)[1..] == a[1..] + rest;
      TakeDigitsOf(a[1..], rest);
    }
  }

  /** "a-bS" reads as the range from a to b. */
  lemma VoltageOfRange(a: string, b: string)
    requires |a| > 0 && AllDigits(a) && |b| > 0 && AllDigits(b)
    ensures ParseVoltage(Some(Str(a + "-" + b + "S"))) == Some(Range(DigitsValue(a), DigitsValue(b)))
  {
    var s := a + "-" + b + "S";
    assert s[0..] == a + ("-" + b + "S");
    TakeDigitsOf(a, "-" + b + "S");
    assert RunAt(s, 0) == a;
    assert s[|a|] == '-';
    assert s[|a| + 1..] == b + "S";
    TakeDigitsOf(b, "S");
    assert RunAt(s, |a| + 1) == b;
    assert s[|a| + 1 + |b|] == 'S';
    assert VoltageAt(s, 0) == Some((a, b));
    assert Truthy(Some(Str(s)));
  }

  /** "nS" reads as the one-point range from n to n. */
  lemma VoltageOfSingle(n: string)
    requires |n| > 0 && AllDigits(n)
    ensures ParseVoltage(Some(Str(n + "S"))) == Some(Range(DigitsValue(n), DigitsValue(n)))
  {
    var s := n + "S";
    assert s[0..] == n + "S";
    TakeDigitsOf(n, "S");
    assert RunAt(s, 0) == n;
    assert VoltageAt(s, 0) == Some((n, ""));
    assert Truthy(Some(Str(s)));
  }

  /** A value whose text has no "S" has no voltage range. */
  lemma VoltageNeedsS(v: Option<SpecValue>)
    requires v.Some? ==> 'S' !in Render(v.value)
    ensures ParseVoltage(v).None?
  {
  }

  /** A match of `/(\d+)-?(\d+)?S/` can end at position `k`: the "S" there
      follows a digit, or a "-" that follows a digit. */
  predicate VoltageEndsAt(s: string, k: int) {
    1 <= k < |s| && s[k] == 'S' && (IsDigit(s[k - 1]) || (k >= 2 && s[k - 1] == '-' && IsDigit(s[k - 2])))
  }

  /** The last character of a non-empty digit run is a digit. */
  lemma RunEndsWithDigit(s: string, i: nat)
    requires i <= |s| && |RunAt(s, i)| > 0
    ensures IsDigit(s[i + |RunAt(s, i)| - 1])
  {
    var d := RunAt(s, i);
    assert s[i + |d| - 1] == d[|d| - 1];
  }

  /** A match of the form "digits S" ends at its "S". */
  lemma EndsAfterFirstRun(s: string, j: nat)
    requires VoltageAt(s, j).Some?
    requires s[j + |RunAt(s, j)|] == 'S'
    ensures VoltageEndsAt(s, j + |RunAt(s, j)|)
  {
    RunEndsWithDigit(s, j);
  }

  /** A match of the form "digits - digits? S" ends at its "S". */
  lemma EndsAfterDash(s: string, j: nat)
    requires VoltageAt(s, j).Some?
    requires s[j + |RunAt(s, j)|] != 'S'
    ensures var jj := j + |RunAt(s, j)|;
      VoltageEndsAt(s, jj + 1 + |RunAt(s, jj + 1)|)
  {
    var jj := j + |RunAt(s, j)|;
    RunEndsWithDigit(s, j);
    if |RunAt(s, jj + 1)| > 0 {
      RunEndsWithDigit(s, jj + 1);
    }
  }

  /** A match's first digit run is followed by another character. */
  lemma RunIsFollowed(s: string, j: nat)
    requires VoltageAt(s, j).Some?
    ensures j + |RunAt(s, j)| < |s|
  {
  }

  /** A match that starts at `j` ends at such a position, `k`. */
  lemma VoltageAtEnds(s: string, j: nat) returns (k: int)
    requires VoltageAt(s, j).Some?
    ensures VoltageEndsAt(s, k)
  {
    RunIsFollowed(s, j);
    var jj := j + |RunAt(s, j)|;
    if s[jj] == 'S' {
      EndsAfterFirstRun(s, j);
      k := jj;
    } else {
      EndsAfterDash(s, j);
      k := jj + 1 + |RunAt(s, jj + 1)|;
    }
  }

  /** Where a match can end, one starts a digit (or a digit and a "-") earlier. */
  lemma EndsGiveVoltageAt(s: string, k: int)
    requires VoltageEndsAt(s, k)
    ensures exists j :: 0 <= j < |s| && VoltageAt(s, j).Some?
  {
    if IsDigit(s[k - 1]) {
      var d := RunAt(s, k - 1);
      assert |d| > 0 && d[0] == s[k - 1];
      assert VoltageAt(s, k - 1).Some?;
    } else {
      var d := RunAt(s, k - 2);
      assert |d| > 0 && d[0] == s[k - 2];
      assert RunAt(s, k) == "";
      assert VoltageAt(s, k - 2).Some?;
    }
  }

  /** A non-empty text has a voltage range exactly when it contains an "S"
      directly after a digit, or after a "-" that directly follows a digit; in
      particular "S", "HVS" or "-S" give none. */
  lemma VoltageFound(s: string)
    requires s != ""
    ensures ParseVoltage(Some(Str(s))).Some? <==> exists k :: VoltageEndsAt(s, k)
  {
    assert Truthy(Some(Str(s)));
    assert Render(Str(s)) == s;
    match VoltageStart(s)
    case Some(j) =>
      var k := VoltageAtEnds(s, j);
    case None =>
      if exists k :: VoltageEndsAt(s, k) {
        var k :| VoltageEndsAt(s, k);
        EndsGiveVoltageAt(s, k);
        assert false;
      }
  }

  /** For a non-empty string the parse reads the run at the leftmost match. */
  lemma SCountOfText(s: string)
    requires s != ""
    ensures ParseSCount(Some(Str(s))) == if SCountStart(s).Some? then Some(DigitsValue(RunAt(s, SCountStart(s).value))) else None
  {
    assert Truthy(Some(Str(s)));
    assert Render(Str(s)) == s;
  }

  /** `/(\d+)S/` matches exactly when some "S" directly follows a digit. */
  lemma SCountFound(s: string)
    requires s != ""
    ensures ParseSCount(Some(Str(s))).Some? <==> exists j :: 0 < j < |s| && s[j] == 'S' && IsDigit(s[j - 1])
  {
    SCountOfText(s);
    match SCountStart(s)
    case Some(i) =>
      var d := RunAt(s, i);
      var j := i + |d|;
      assert s[j - 1] == d[|d| - 1];
      assert s[j] == 'S' && IsDigit(s[j - 1]);
    case None =>
      forall j | 0 < j < |s| && s[j] == 'S' ensures !IsDigit(s[j - 1]) {
        if IsDigit(s[j - 1]) {
          TakeDigitsOf([s[j - 1]], s[j..]);
          assert s[j - 1..] == [s[j - 1]] + s[j..];
          assert SCountAt(s, j - 1);
        }
      }
  }

  /** The leftmost match of `/(\d+)S/` starts where the digit run that ends at
      the first "S" preceded by a digit starts. */
  lemma SCountStartsAtRun(s: string, i: nat, j: nat)
    requires i < j < |s| && s[j] == 'S'
    requires AllDigits(s[i..j]) && (i > 0 ==> !IsDigit(s[i - 1]))
    requires forall k :: 0 < k < j ==> !(s[k] == 'S' && IsDigit(s[k - 1]))
    ensures SCountStart(s) == Some(i) && RunAt(s, i) == s[i..j]
  {
    assert s[i..] == s[i..j] + s[j..];
    TakeDigitsOf(s[i..j], s[j..]);
    assert RunAt(s, i) == s[i..j];
    assert SCountAt(s, i);
    forall k | 0 <= k < i ensures !SCountAt(s, k) {
      NoEarlierMatch(s, i, j, k);
    }
    var r := SCountStart(s);
    assert r.Some?;
    assert r.value == i;
  }

  lemma NoEarlierMatch(s: string, i: nat, j: nat, k: nat)
    requires i < j < |s|
    requires i > 0 ==> !IsDigit(s[i - 1])
    requires forall k :: 0 < k < j ==> !(s[k] == 'S' && IsDigit(s[k - 1]))
    requires k < i
    ensures !SCountAt(s, k)
  {
    var d := RunAt(s, k);
    var m := k + |d|;
    forall t | k <= t < m ensures IsDigit(s[t]) {
      assert s[t] == d[t - k];
    }
    assert m <= i - 1;
    if |d| > 0 {
      assert IsDigit(s[m - 1]) && 0 < m < j;
    }
  }

  /** `parseSCount` reads the digit run that ends at the first "S" preceded by
      a digit: `i` is where that run starts and `j` is the position of the "S". */
  lemma SCountIsFirstRun(s: string, i: nat, j: nat)
    requires i < j < |s| && s[j] == 'S'
    requires AllDigits(s[i..j]) && (i > 0 ==> !IsDigit(s[i - 1]))
    requires forall k :: 0 < k < j ==> !(s[k] == 'S' && IsDigit(s[k - 1]))
    ensures ParseSCount(Some(Str(s))) == Some(DigitsValue(s[i..j]))
  {
    SCountStartsAtRun(s, i, j);
    SCountOfText(s);
  }

  /** A digit run followed by "S" at the very start is the cell count. */
  lemma SCountOfPrefix(n: string, rest: string)
    requires |n| > 0 && AllDigits(n)
    ensures ParseSCount(Some(Str(n + "S" + rest))) == Some(DigitsValue(n))
  {
    var s := n + "S" + rest;
    assert s[0..|n|] == n;
    forall k | 0 < k < |n| ensures !(s[k] == 'S' && IsDigit(s[k - 1])) {
      assert s[k] == n[k];
    }
    SCountIsFirstRun(s, 0, |n|);
  }

  /** Overlap does not depend on the order of its arguments. */
  lemma OverlapSymmetric(a: Option<Range>, b: Option<Range>)
    ensures VoltageOverlap(a, b) == VoltageOverlap(b, a)
  {
  }

  /** For two non-empty ranges, overlap means a common cell count. */
  lemma OverlapIffCommonPoint(a: Range, b: Range)
    requires a.min <= a.max && b.min <= b.max
    ensures VoltageOverlap(Some(a), Some(b)) <==> exists n :: a.Contains(n) && b.Contains(n)
  {
    if VoltageOverlap(Some(a), Some(b)) {
      var n := if a.min < b.min then b.min else a.min;
      assert a.Contains(n) && b.Contains(n);
    }
  }

  // ---------------------------------------------------------------------
  // The checks

  /** One entry of `compatibilityRules`, named after the check it runs. */
  datatype Rule =
    | FramePropSize | MotorPropShaft | MotorFrameSize | FcFrameMount | EscFrameMount
    | BatteryEscVoltage | BatteryFcVoltage | BatteryMotorVoltage
    | VtxCameraSystem | VtxGogglesSystem | CameraGogglesSystem | RxTxProtocol
    | EscFcProtocol | EscFcMount | BatteryFrameSize | MotorEscCurrent | FcEscAio
    | VtxAntennaConnector | RxAntennaFrequency
  {
    /** The rule's `id`. */
    function Id(): string {
      match this
      case FramePropSize => "frame-prop-size"
      case MotorPropShaft => "motor-prop-shaft"
      case MotorFrameSize => "motor-frame-size"
      case FcFrameMount => "fc-frame-mount"
      case EscFrameMount => "esc-frame-mount"
      case BatteryEscVoltage => "battery-esc-voltage"
      case BatteryFcVoltage => "battery-fc-voltage"
      case BatteryMotorVoltage => "battery-motor-voltage"
      case VtxCameraSystem => "vtx-camera-system"
      case VtxGogglesSystem => "vtx-goggles-system"
      case CameraGogglesSystem => "camera-goggles-system"
      case RxTxProtocol => "rx-tx-protocol"
      case EscFcProtocol => "esc-fc-protocol"
      case EscFcMount => "esc-fc-mount"
      case BatteryFrameSize => "battery-frame-size"
      case MotorEscCurrent => "motor-esc-current"
      case FcEscAio => "fc-esc-aio"
      case VtxAntennaConnector => "vtx-vtxAntenna-connector"
      case RxAntennaFrequency => "rx-rxAntenna-frequency"
    }

    /** The rule's display `name`. */
    function Name(): string {
      match this
      case FramePropSize => "Frame ↔ Prop Size"
      case MotorPropShaft => "Motor ↔ Prop Shaft"
      case MotorFrameSize => "Motor ↔ Frame Size"
      case FcFrameMount => "FC ↔ Frame Mount Pattern"
      case EscFrameMount => "ESC ↔ Frame Mount Pattern"
      case BatteryEscVoltage => "Battery ↔ ESC Voltage"
      case BatteryFcVoltage => "Battery ↔ FC Voltage"
      case BatteryMotorVoltage => "Battery ↔ Motor Voltage"
      case VtxCameraSystem => "VTX ↔ Camera System"
      case VtxGogglesSystem => "VTX ↔ Goggles System"
      case CameraGogglesSystem => "Camera ↔ Goggles System"
      case RxTxProtocol => "RX ↔ TX Protocol"
      case EscFcProtocol => "ESC ↔ FC Protocol"
      case EscFcMount => "ESC ↔ FC Stack Mount"
      case BatteryFrameSize => "Battery ↔ Frame Size"
      case MotorEscCurrent => "Motor ↔ ESC Current"
      case FcEscAio => "AIO FC ↔ Standalone ESC"
      case VtxAntennaConnector => "VTX ↔ VTX Antenna Connector"
      case RxAntennaFrequency => "RX ↔ RX Antenna Frequency"
    }

    /** The rule's `description`. */
    function Description(): string {
      match this
      case FramePropSize => "Frame size must match propeller size. A 5\" frame fits 5\" props, 3\" frame fits 3\" props, etc."
      case MotorPropShaft => "Motor shaft diameter must match prop mounting hole. Most 5\" use M5 shafts, 3\" use M2 or T-mount."
      case MotorFrameSize => "Motor stator size should match frame size class. 5\" frames typically use 2205-2307 motors, 3\" use 1303-1507, 7\" use 2806+."
      case FcFrameMount => "Flight controller mounting holes must match the frame. Standard sizes: 30.5x30.5mm (5\"+) or 25.5x25.5mm (3\"/mini)."
      case EscFrameMount => "ESC mounting holes must match the frame stack. Typically same as FC mount pattern."
      case BatteryEscVoltage => "Battery cell count must be within the ESC voltage rating. Exceeding it can destroy the ESC."
      case BatteryFcVoltage => "Battery cell count must be within the FC voltage rating. Too many cells can fry the FC."
      case BatteryMotorVoltage => "Battery cell count should be within motor voltage rating. Running motors outside rated voltage affects performance and lifespan."
      case VtxCameraSystem => "VTX and camera must use the same video system (Analog, DJI, HDZero, or Walksnail). They are not cross-compatible."
      case VtxGogglesSystem => "VTX and goggles must use the same video system. DJI VTX → DJI Goggles, Analog VTX → Analog Goggles, etc."
      case CameraGogglesSystem => "Camera and goggles must use the same video system for the whole video chain to work."
      case RxTxProtocol => "Receiver and transmitter must use the same radio protocol (ELRS, Crossfire, FrSky, FlySky). They cannot communicate otherwise."
      case EscFcProtocol => "ESC and FC must share at least one compatible motor protocol (DShot600, DShot300, etc.)."
      case EscFcMount => "ESC and FC should have the same mount pattern so they stack together cleanly."
      case BatteryFrameSize => "Small batteries (XT30/3-4S low capacity) suit 3\" builds; larger batteries (XT60/5-6S) suit 5\"+ builds."
      case MotorEscCurrent => "ESC per-motor current rating should handle the motors. Rule of thumb: ESC should handle more than the motor peak draw."
      case FcEscAio => "AIO flight controllers include an integrated ESC. Adding a standalone ESC is usually redundant."
      case VtxAntennaConnector => "VTX and VTX antenna RF connectors must match (SMA, MMCX, UFL, RP-SMA). Mismatched connectors need adapters that add weight and signal loss."
      case RxAntennaFrequency => "Receiver and RX antenna must operate on the same frequency band (2.4GHz, 900MHz, 868MHz). Mismatched frequencies mean no signal."
    }

    /** The first of the rule's two `categories`: the category of the check's first argument. */
    function CatA(): string {
      match this
      case FramePropSize => "frame"
      case MotorPropShaft => "motors"
      case MotorFrameSize => "motors"
      case FcFrameMount => "fc"
      case EscFrameMount => "esc"
      case BatteryEscVoltage => "battery"
      case BatteryFcVoltage => "battery"
      case BatteryMotorVoltage => "battery"
      case VtxCameraSystem => "vtx"
      case VtxGogglesSystem => "vtx"
      case CameraGogglesSystem => "camera"
      case RxTxProtocol => "rx"
      case EscFcProtocol => "esc"
      case EscFcMount => "esc"
      case BatteryFrameSize => "battery"
      case MotorEscCurrent => "motors"
      case FcEscAio => "fc"
      case VtxAntennaConnector => "vtx"
      case RxAntennaFrequency => "rx"
    }

    /** The second of the rule's two `categories`. */
    function CatB(): string {
      match this
      case FramePropSize => "propellers"
      case MotorPropShaft => "propellers"
      case MotorFrameSize => "frame"
      case FcFrameMount => "frame"
      case EscFrameMount => "frame"
      case BatteryEscVoltage => "esc"
      case BatteryFcVoltage => "fc"
      case BatteryMotorVoltage => "motors"
      case VtxCameraSystem => "camera"
      case VtxGogglesSystem => "goggles"
      case CameraGogglesSystem => "goggles"
      case RxTxProtocol => "tx"
      case EscFcProtocol => "fc"
      case EscFcMount => "fc"
      case BatteryFrameSize => "frame"
      case MotorEscCurrent => "esc"
      case FcEscAio => "esc"
      case VtxAntennaConnector => "vtxAntenna"
      case RxAntennaFrequency => "rxAntenna"
    }

    /** The rule's `severity`. */
    function Level(): Severity {
      match this
      case FramePropSize => Error
      case MotorPropShaft => Error
      case MotorFrameSize => Warning
      case FcFrameMount => Error
      case EscFrameMount => Error
      case BatteryEscVoltage => Error
      case BatteryFcVoltage => Error
      case BatteryMotorVoltage => Warning
      case VtxCameraSystem => Error
      case VtxGogglesSystem => Error
      case CameraGogglesSystem => Error
      case RxTxProtocol => Error
      case EscFcProtocol => Warning
      case EscFcMount => Warning
      case BatteryFrameSize => Info
      case MotorEscCurrent => Info
      case FcEscAio => Warning
      case VtxAntennaConnector => Warning
      case RxAntennaFrequency => Error
    }

    /** `compatibilityExplanations[this.Id()]`: the map holds exactly one entry
        per rule id, so the `|| ''` fallback never applies to a rule of the table. */
    function Explanation(): string {
      match this
      case FramePropSize =>
        "Propellers must physically fit within the frame arms. Frame sizes (3\", 5\", 7\") define the maximum propeller diameter."
      case MotorPropShaft =>
        "The propeller center hole must match the motor shaft. M5 (5mm) is standard for 5\"+ quads, M2 (2mm) for tiny whoops and 3\" builds."
      case MotorFrameSize =>
        "Larger frames carry heavier loads and need larger motors for enough thrust. Using the wrong motor size causes poor performance or even danger."
      case FcFrameMount =>
        "Flight controllers mount to the frame via standard hole patterns. The two common sizes are 30.5x30.5mm (full-size, 5\"+) and 25.5x25.5mm (mini, 3\")."
      case EscFrameMount =>
        "ESCs stack under/over the flight controller using the same mounting pattern as the frame."
      case BatteryEscVoltage =>
        "LiPo batteries are rated in cell count (S). Each cell is ~3.7V. If you use a battery with more cells than the ESC supports, you'll fry the ESC."
      case BatteryFcVoltage =>
        "Same as ESC — the flight controller has a maximum voltage. Exceeding it destroys the FC."
      case BatteryMotorVoltage =>
        "Motors have a recommended voltage range. Too low = not enough power. Too high = overheating and reduced lifespan."
      case VtxCameraSystem =>
        "FPV video systems (Analog, DJI, HDZero, Walksnail) are closed ecosystems. The camera, VTX, and goggles MUST all be the same system."
      case VtxGogglesSystem =>
        "Your goggles receive the video signal from the VTX. Different systems use incompatible transmission methods."
      case CameraGogglesSystem =>
        "The camera feeds into the VTX which transmits to goggles. All three must match."
      case RxTxProtocol =>
        "Your transmitter (controller) talks to the receiver on the quad via a specific radio protocol. Both must use the same protocol (ELRS, Crossfire, FrSky, etc.)."
      case EscFcProtocol =>
        "The FC tells the ESC how fast to spin each motor using a digital protocol like DShot. Both must support at least one common protocol."
      case EscFcMount =>
        "The ESC and FC are typically stacked together. Matching mount patterns make assembly much easier."
      case BatteryFrameSize =>
        "Small frames need small, light batteries. Large frames need powerful batteries for adequate flight time."
      case MotorEscCurrent =>
        "The ESC current rating must exceed the motor's peak current draw. Underpowered ESCs can overheat and fail mid-flight."
      case FcEscAio =>
        "AIO (All-in-One) flight controllers have the ESC built onto the same board. Adding a separate standalone ESC is redundant unless you specifically need higher current capacity than the integrated one provides."
      case VtxAntennaConnector =>
        "VTX and its antenna connect via an RF connector. Common types are SMA, RP-SMA, MMCX, and UFL. Mismatched connectors require adapter pigtails that add weight, bulk, and signal loss. SMA↔RP-SMA adapters are simple screw-on and cause minimal loss."
      case RxAntennaFrequency =>
        "The receiver antenna must operate on the same frequency band as the receiver. ELRS 2.4GHz receivers need a 2.4GHz antenna, 900MHz receivers need a 900MHz antenna, Crossfire uses 868MHz, etc. Using the wrong frequency band means no signal reception."
    }

    /** The rules that only compare one spec field of both sides for equality. */
    predicate IsExact() {
      this in {FramePropSize, MotorPropShaft, FcFrameMount, EscFrameMount,
               VtxCameraSystem, VtxGogglesSystem, CameraGogglesSystem, RxTxProtocol, EscFcMount}
    }

    /** The rules that hold a battery's cell count against a rated range. */
    predicate IsVoltage() {
      this in {BatteryEscVoltage, BatteryFcVoltage, BatteryMotorVoltage}
    }
  }

  /** The spec field an exact-match rule compares. */
  function ExactKey(kind: Rule): string
    requires kind.IsExact()
  {
    match kind
    case FramePropSize => "size"
    case MotorPropShaft => "shaftSize"
    case VtxCameraSystem | VtxGogglesSystem | CameraGogglesSystem => "system"
    case RxTxProtocol => "protocol"
    case _ => "mountPattern"
  }

  /** The message of an exact-match rule for the two rendered values. */
  function ExactMessage(kind: Rule, x: string, y: string): (m: string)
    requires kind.IsExact()
    ensures |m| > 0
  {
    match kind
    case FramePropSize | MotorPropShaft => FitMessage(kind, x, y)
    case FcFrameMount | EscFrameMount | EscFcMount => MountMessage(kind, x, y)
    case VtxCameraSystem | VtxGogglesSystem | CameraGogglesSystem => VideoMessage(kind, x, y)
    case RxTxProtocol => ProtocolMessage(x, y)
  }

  /** The messages of the two rules about props fitting the frame and motors. */
  function FitMessage(kind: Rule, x: string, y: string): (m: string)
    requires kind in {FramePropSize, MotorPropShaft}
    ensures |m| > 0
  {
    if kind == FramePropSize then
      "Frame is " + x + "\" but props are " + y + "\". They must match — " + x + "\" frame needs " + x + "\" propellers."
    else
      "Motor has " + x + " shaft but props need " + y + " shaft. Props won't mount on motors."
  }

  /** The messages of the three mounting-pattern rules. */
  function MountMessage(kind: Rule, x: string, y: string): (m: string)
    requires kind in {FcFrameMount, EscFrameMount, EscFcMount}
    ensures |m| > 0
  {
    if kind == FcFrameMount then
      "FC mount is " + x + "mm but frame takes " + y + "mm. FC won't fit in the frame without an adapter."
    else if kind == EscFrameMount then
      "ESC mount is " + x + "mm but frame takes " + y + "mm. ESC won't fit in the frame stack."
    else
      "ESC mount is " + x + "mm but FC is " + y + "mm. They won't stack together neatly."
  }

  /** The messages of the three video-system rules. */
  function VideoMessage(kind: Rule, x: string, y: string): (m: string)
    requires kind in {VtxCameraSystem, VtxGogglesSystem, CameraGogglesSystem}
    ensures |m| > 0
  {
    if kind == VtxCameraSystem then
      "VTX is " + x + " but camera is " + y + ". They must use the same video system — " + x + " VTX needs a " + x + " camera."
    else if kind == VtxGogglesSystem then
      "VTX is " + x + " but goggles are " + y + ". You won't get video! VTX and goggles must match."
    else
      "Camera is " + x + " but goggles are " + y + ". The entire video chain (Camera → VTX → Goggles) must use the same system."
  }

  /** The message of the receiver-transmitter protocol rule. */
  function ProtocolMessage(x: string, y: string): (m: string)
    ensures |m| > 0
  {
    "Receiver is " + x + " but transmitter is " + y + ". They can't communicate — both must use the same protocol (e.g., both ELRS or both Crossfire)."
  }

  /** An exact-match rule: both values present (truthy) and not strictly equal. */
  function CheckExact(kind: Rule, a: Component, b: Component): (r: Option<string>)
    ensures r.Some? ==> |r.value| > 0
    requires kind.IsExact()
    ensures r.Some? <==> Truthy(Spec(a, ExactKey(kind))) && Truthy(Spec(b, ExactKey(kind)))
                         && !StrictEq(Spec(a, ExactKey(kind)).value, Spec(b, ExactKey(kind)).value)
    ensures r.Some? ==> r.value == ExactMessage(kind, Render(Spec(a, ExactKey(kind)).value), Render(Spec(b, ExactKey(kind)).value))
  {
    var x := Spec(a, ExactKey(kind));
    var y := Spec(b, ExactKey(kind));
    if Truthy(x) && Truthy(y) && !StrictEq(x.value, y.value) then
      Some(ExactMessage(kind, Render(x.value), Render(y.value)))
    else None
  }

  /** The message of a battery voltage rule. */
  function VoltageMessage(kind: Rule, x: string, y: string): (m: string)
    requires kind.IsVoltage()
    ensures |m| > 0
  {
    match kind
    case BatteryEscVoltage => "Battery is " + x + " but ESC supports " + y + ". This will damage the ESC!"
    case BatteryFcVoltage => "Battery is " + x + " but FC supports " + y + ". Voltage mismatch — risk of damage!"
    case BatteryMotorVoltage => "Battery is " + x + " but motors are rated for " + y + ". Motors may not perform correctly."
  }

  /** A battery voltage rule: the battery's cell count parses to a non-zero
      value (0 is falsy), the device's range parses, and the count lies
      outside the range. */
  function CheckVoltage(kind: Rule, battery: Component, device: Component): (r: Option<string>)
    ensures r.Some? ==> |r.value| > 0
    requires kind.IsVoltage()
    ensures r.Some? <==>
      (ParseSCount(Spec(battery, "voltage")).Some? && ParseSCount(Spec(battery, "voltage")).value != 0
       && ParseVoltage(Spec(device, "voltage")).Some?
       && !(ParseVoltage(Spec(device, "voltage")).value.min <= ParseSCount(Spec(battery, "voltage")).value
            <= ParseVoltage(Spec(device, "voltage")).value.max))
  {
    var cells := ParseSCount(Spec(battery, "voltage"));
    var range := ParseVoltage(Spec(device, "voltage"));
    if cells.Some? && cells.value != 0 && range.Some?
       && (cells.value < range.value.min || cells.value > range.value.max) then
      Some(VoltageMessage(kind, RenderOpt(Spec(battery, "voltage")), RenderOpt(Spec(device, "voltage"))))
    else None
  }

  /** The typical stator sizes of a frame class, `sizeRanges[String(size)]`.
      Only the three own keys are modelled; an inherited property such as
      `constructor` has no `min`/`max`, so both comparisons against it are
      false and the rule stays silent, as it does for `None`. */
  function SizeRange(frameSize: string): (r: Option<(Range, string)>)
    ensures r.Some? <==> frameSize in {"3", "5", "7"}
  {
    if frameSize == "3" then Some((Range(1103, 1507), "1103-1507"))
    else if frameSize == "5" then Some((Range(2205, 2407), "2205-2407"))
    else if frameSize == "7" then Some((Range(2505, 2908), "2505-2908"))
    else None
  }

  /** motor-frame-size: the motor's `parseInt` stator number lies outside the
      typical range of a 3", 5" or 7" frame; a size that does not parse (`NaN`)
      compares false both ways and never fires. */
  function CheckMotorFrameSize(motor: Component, frame: Component): (r: Option<string>)
    ensures r.Some? ==> |r.value| > 0
    ensures r.Some? <==>
      (Truthy(Spec(motor, "size")) && Truthy(Spec(frame, "size"))
       && SizeRange(Render(Spec(frame, "size").value)).Some?
       && ParseInt(Render(Spec(motor, "size").value)).Some?
       && !(SizeRange(Render(Spec(frame, "size").value)).value.0.min
              <= ParseInt(Render(Spec(motor, "size").value)).value
              <= SizeRange(Render(Spec(frame, "size").value)).value.0.max))
  {
    var ms := Spec(motor, "size");
    var fs := Spec(frame, "size");
    if !Truthy(ms) || !Truthy(fs) then None
    else
      var stator := ParseInt(Render(ms.value));
      var frameSize := Render(fs.value);
      match SizeRange(frameSize)
      case None => None
      case Some(range) =>
        if stator.Some? && (stator.value < range.0.min || stator.value > range.0.max) then
          Some("Motor " + Render(ms.value) + " is unusual for a " + frameSize + "\" frame. Typical motors for "
               + frameSize + "\" are " + range.1 + " stator size.")
        else None
  }

  /** A spec value as a list: an array as its string elements, anything else
      as a one-element list. */
  function AsList(v: SpecValue): (r: seq<SpecValue>)
    ensures v.List? ==> |r| == |v.items| && forall i :: 0 <= i < |r| ==> r[i] == Str(v.items[i])
    ensures !v.List? ==> r == [v]
  {
    match v
    case List(items) => seq(|items|, i requires 0 <= i < |items| => Str(items[i]))
    case _ => [v]
  }

  /** `xs.filter(p => ys.includes(p))`. `includes` compares like `===` for the
      strings, numbers and booleans a list holds. */
  function CommonTo(xs: seq<SpecValue>, ys: seq<SpecValue>): (r: seq<SpecValue>)
    ensures |r| <= |xs|
    ensures |r| == 0 <==> forall i, j :: 0 <= i < |xs| && 0 <= j < |ys| ==> !StrictEq(xs[i], ys[j])
  {
    if |xs| == 0 then []
    else
      var rest := CommonTo(xs[1..], ys);
      assert forall i :: 1 <= i < |xs| ==> xs[i] == xs[1..][i - 1];
      if exists j :: 0 <= j < |ys| && StrictEq(xs[0], ys[j]) then [xs[0]] + rest else rest
  }

  /** The texts of a list joined by "/". */
  function SlashJoined(vs: seq<SpecValue>): string {
    Join(seq(|vs|, i requires 0 <= i < |vs| => Render(vs[i])), "/")
  }

  /** esc-fc-protocol: both protocols present and no protocol in common. */
  function CheckEscFcProtocol(esc: Component, fc: Component): (r: Option<string>)
    ensures r.Some? ==> |r.value| > 0
    ensures r.Some? <==>
      (Truthy(Spec(esc, "protocol")) && Truthy(Spec(fc, "protocol"))
       && forall i, j :: 0 <= i < |AsList(Spec(esc, "protocol").value)| && 0 <= j < |AsList(Spec(fc, "protocol").value)|
            ==> !StrictEq(AsList(Spec(esc, "protocol").value)[i], AsList(Spec(fc, "protocol").value)[j]))
  {
    var ep := Spec(esc, "protocol");
    var fp := Spec(fc, "protocol");
    if !Truthy(ep) || !Truthy(fp) then None
    else
      var escP := AsList(ep.value);
      var fcP := AsList(fp.value);
      if |CommonTo(escP, fcP)| == 0 then
        Some("ESC supports " + SlashJoined(escP) + " but FC supports " + SlashJoined(fcP)
             + ". No shared motor protocol — ESC may not respond to FC commands.")
      else None
  }

  /** battery-frame-size: an XT60 battery on a 3" frame, or an XT30 battery on
      a 5" or 7" frame. Both comparisons are `===` against strings, so a numeric
      size never matches. */
  function CheckBatteryFrameSize(battery: Component, frame: Component): (r: Option<string>)
    ensures r.Some? ==> |r.value| > 0
    ensures r.Some? <==>
      (Spec(frame, "size") == Some(Str("3")) && Spec(battery, "connector") == Some(Str("XT60")))
      || (Spec(frame, "size") in {Some(Str("5")), Some(Str("7"))} && Spec(battery, "connector") == Some(Str("XT30")))
  {
    var frameSize := Spec(frame, "size");
    var connector := Spec(battery, "connector");
    if frameSize == Some(Str("3")) && connector == Some(Str("XT60")) then
      Some(OversizedConnectorMessage(frameSize.value.s))
    else if (frameSize == Some(Str("5")) || frameSize == Some(Str("7"))) && connector == Some(Str("XT30")) then
      Some(UndersizedConnectorMessage(frameSize.value.s))
    else None
  }

  /** The battery-frame-size message for an XT60 battery on a frame of size
      `fs`, which the rule only raises for "3". */
  function OversizedConnectorMessage(fs: string): (m: string)
    ensures |m| > 0
  {
    "XT60 batteries are quite large for a " + fs + "\" build. Consider an XT30 connector battery for better fit and less weight."
  }

  /** The battery-frame-size message for an XT30 battery on a frame of size
      `fs`. */
  function UndersizedConnectorMessage(fs: string): (m: string)
    ensures |m| > 0
  {
    "XT30 batteries are typically underpowered for " + fs + "\" builds. Most " + fs + "\" quads use XT60 connector batteries."
  }

  /** `Number(v)`, the conversion `v < 30` applies to a spec value. */
  function ToNumber(v: SpecValue): (r: Option<int>)
    ensures v.Num? ==> r == Some(v.n)
    ensures v.Bool? ==> r == Some(if v.b then 1 else 0)
    ensures v == Str("") ==> r == Some(0)
  {
    match v
    case Num(n) => Some(n)
    case Str(s) => StringToNumber(s)
    case Bool(b) => Some(if b then 1 else 0)
    case List(items) => StringToNumber(Join(items, ","))
  }

  /** A string of decimal digits converts to the number they spell. */
  lemma NumberOfDigits(s: string)
    requires |s| > 0 && AllDigits(s)
    ensures ToNumber(Str(s)) == Some(DigitsValue(s))
  {
    assert !IsJsSpace(s[0]) && !IsJsSpace(s[|s| - 1]);
    assert TrimStart(s) == s;
    assert TrimEnd(s) == s;
  }

  /** `Number(String(n))` is `n`: a number and its rendering convert alike. */
  lemma NumberOfRendering(n: nat)
    ensures ToNumber(Str(NatToString(n))) == ToNumber(Num(n))
  {
    NumberOfDigits(NatToString(n));
  }

  /** motor-esc-current: a motor of stator 2205 or larger on an ESC rated under
      30 A; a value that does not convert (`NaN`) never fires. */
  function CheckMotorEscCurrent(motor: Component, esc: Component): (r: Option<string>)
    ensures r.Some? ==> |r.value| > 0
    ensures r.Some? <==>
      (Truthy(Spec(motor, "size")) && Truthy(Spec(esc, "current"))
       && ParseInt(Render(Spec(motor, "size").value)).Some? && ParseInt(Render(Spec(motor, "size").value)).value >= 2205
       && ToNumber(Spec(esc, "current").value).Some? && ToNumber(Spec(esc, "current").value).value < 30)
  {
    var ms := Spec(motor, "size");
    var ec := Spec(esc, "current");
    if !Truthy(ms) || !Truthy(ec) then None
    else
      var stator := ParseInt(Render(ms.value));
      var amps := ToNumber(ec.value);
      if stator.Some? && stator.value >= 2205 && amps.Some? && amps.value < 30 then
        Some("Motors (" + Render(ms.value) + ") are full-size but ESC is only " + Render(ec.value)
             + "A per motor. Consider 35A+ for safety margin.")
      else None
  }

  /** fc-esc-aio: an AIO flight controller next to an ESC that is not the
      virtual one the AIO board supplies. */
  function CheckFcEscAio(fc: Component, esc: Component): (r: Option<string>)
    ensures r.Some? ==> |r.value| > 0
    ensures r.Some? <==> Truthy(Spec(fc, "aio")) && !esc.aioVirtual
  {
    if Truthy(Spec(fc, "aio")) && !esc.aioVirtual then
      Some("Your AIO FC already includes an ESC. The standalone ESC is redundant unless you need higher current.")
    else None
  }

  predicate InSmaFamily(v: SpecValue) {
    v == Str("SMA") || v == Str("RP-SMA")
  }

  function SimpleAdapterMessage(v: string, a: string): string {
    "VTX has " + v + " but VTX antenna is " + a + ". You'll need a simple SMA↔RP-SMA adapter — cheap and minimal signal loss."
  }

  function PigtailMessage(v: string, a: string): string {
    "VTX has " + v + " but VTX antenna is " + a + ". You'll need a " + v + "↔" + a + " adapter pigtail, which adds weight and signal loss."
  }

  /** vtx-vtxAntenna-connector: silent when either connector is absent or the
      two are equal; a simple adapter within the SMA family; a pigtail
      otherwise. */
  function CheckVtxAntennaConnector(vtx: Component, antenna: Component): (r: Option<string>)
    ensures r.Some? ==> |r.value| > 0
    ensures r.None? <==>
      (!Truthy(Spec(vtx, "connector")) || !Truthy(Spec(antenna, "connector"))
       || StrictEq(Spec(vtx, "connector").value, Spec(antenna, "connector").value))
    ensures r.Some? && InSmaFamily(Spec(vtx, "connector").value) && InSmaFamily(Spec(antenna, "connector").value) ==>
      r.value == SimpleAdapterMessage(Render(Spec(vtx, "connector").value), Render(Spec(antenna, "connector").value))
    ensures r.Some? && !(InSmaFamily(Spec(vtx, "connector").value) && InSmaFamily(Spec(antenna, "connector").value)) ==>
      r.value == PigtailMessage(Render(Spec(vtx, "connector").value), Render(Spec(antenna, "connector").value))
  {
    var vc := Spec(vtx, "connector");
    var ac := Spec(antenna, "connector");
    if !Truthy(vc) || !Truthy(ac) || StrictEq(vc.value, ac.value) then None
    else if InSmaFamily(vc.value) && InSmaFamily(ac.value) then
      Some(SimpleAdapterMessage(Render(vc.value), Render(ac.value)))
    else
      Some(PigtailMessage(Render(vc.value), Render(ac.value)))
  }

  /** The frequency bands of a text: its "/"-separated pieces with white space
      removed. */
  function Bands(text: string): (r: seq<string>)
    ensures |r| == |Split(text, '/')| && |r| >= 1
    ensures forall i :: 0 <= i < |r| ==> r[i] == RemoveSpaces(Split(text, '/')[i])
  {
    var parts := Split(text, '/');
    seq(|parts|, i requires 0 <= i < |parts| => RemoveSpaces(parts[i]))
  }

  /** `xs.some(x => ys.some(y => x === y))`. */
  predicate ShareOne(xs: seq<string>, ys: seq<string>) {
    exists i, j :: 0 <= i < |xs| && 0 <= j < |ys| && xs[i] == ys[j]
  }

  function FrequencyMessage(rx: string, ant: string): string {
    "Receiver operates on " + rx + " but RX antenna is " + ant + ". The antenna must match the receiver's frequency band."
  }

  /** rx-rxAntenna-frequency as the table writes it: `rxFreq.split('/')` is
      called on the raw value, and only strings have `split`, so a number,
      boolean or list frequency raises a `TypeError`. */
  function CheckRxAntennaFrequencyAsWritten(rx: Component, antenna: Component): (r: Result<Option<string>, string>)
    ensures r.Failure? <==>
      (Truthy(Spec(rx, "frequency")) && Truthy(Spec(antenna, "frequency"))
       && !(Spec(rx, "frequency").value.Str? && Spec(antenna, "frequency").value.Str?))
  {
    var rf := Spec(rx, "frequency");
    var af := Spec(antenna, "frequency");
    if !Truthy(rf) || !Truthy(af) then Success(None)
    else if !rf.value.Str? || !af.value.Str? then Failure("TypeError: split is not a function")
    else if ShareOne(Bands(rf.value.s), Bands(af.value.s)) then Success(None)
    else Success(Some(FrequencyMessage(rf.value.s, af.value.s)))
  }

  /** rx-rxAntenna-frequency with each frequency read as `String(v)`: silent
      when either frequency is absent or the two share a band, and it never
      raises. */
  function CheckRxAntennaFrequency(rx: Component, antenna: Component): (r: Option<string>)
    ensures r.Some? ==> |r.value| > 0
    ensures r.None? <==>
      (!Truthy(Spec(rx, "frequency")) || !Truthy(Spec(antenna, "frequency"))
       || ShareOne(Bands(Render(Spec(rx, "frequency").value)), Bands(Render(Spec(antenna, "frequency").value))))
  {
    var rf := Spec(rx, "frequency");
    var af := Spec(antenna, "frequency");
    if !Truthy(rf) || !Truthy(af) then None
    else
      var rt := Render(rf.value);
      var at := Render(af.value);
      if ShareOne(Bands(rt), Bands(at)) then None else Some(FrequencyMessage(rt, at))
  }

  /** `rule.check(a, b)`: `a` fills the rule's first category and `b` its
      second. Every message is non-empty, so a returned message is always
      truthy. */
  function Check(kind: Rule, a: Component, b: Component): (r: Option<string>)
    ensures r.Some? ==> |r.value| > 0
  {
    match kind
    case MotorFrameSize => CheckMotorFrameSize(a, b)
    case BatteryEscVoltage | BatteryFcVoltage | BatteryMotorVoltage => CheckVoltage(kind, a, b)
    case EscFcProtocol => CheckEscFcProtocol(a, b)
    case BatteryFrameSize => CheckBatteryFrameSize(a, b)
    case MotorEscCurrent => CheckMotorEscCurrent(a, b)
    case FcEscAio => CheckFcEscAio(a, b)
    case VtxAntennaConnector => CheckVtxAntennaConnector(a, b)
    case RxAntennaFrequency => CheckRxAntennaFrequency(a, b)
    case _ => CheckExact(kind, a, b)
  }

  // ---------------------------------------------------------------------
  // Lemmas about the checks

  /** Whether an exact-match rule fires does not depend on which component is
      passed first. */
  lemma ExactSymmetric(kind: Rule, a: Component, b: Component)
    requires kind.IsExact()
    ensures CheckExact(kind, a, b).Some? <==> CheckExact(kind, b, a).Some?
  {
  }

  /** Two components that carry the same non-list value in the compared field
      never trip an exact-match rule. */
  lemma ExactAgreeingNeverFires(kind: Rule, a: Component, b: Component)
    requires kind.IsExact()
    requires Spec(a, ExactKey(kind)) == Spec(b, ExactKey(kind))
    requires Spec(a, ExactKey(kind)).Some? ==> !Spec(a, ExactKey(kind)).value.List?
    ensures CheckExact(kind, a, b).None?
  {
  }

  /** A battery whose cell count lies inside the device's range passes; one
      outside it fails, whatever the range's rendering. */
  lemma VoltageInsideRange(kind: Rule, battery: Component, device: Component, cells: string, low: string, high: string)
    requires kind.IsVoltage()
    requires |cells| > 0 && AllDigits(cells) && DigitsValue(cells) != 0
    requires |low| > 0 && AllDigits(low) && |high| > 0 && AllDigits(high)
    requires Spec(battery, "voltage") == Some(Str(cells + "S"))
    requires Spec(device, "voltage") == Some(Str(low + "-" + high + "S"))
    ensures CheckVoltage(kind, battery, device).None? <==> DigitsValue(low) <= DigitsValue(cells) <= DigitsValue(high)
  {
    SCountOfPrefix(cells, "");
    assert cells + "S" + "" == cells + "S";
    VoltageOfRange(low, high);
  }

  /** Whether the protocol rule fires does not depend on which side is the
      ESC: sharing a protocol is symmetric. */
  lemma ProtocolSymmetric(a: Component, b: Component)
    ensures CheckEscFcProtocol(a, b).Some? <==> CheckEscFcProtocol(b, a).Some?
  {
    if Truthy(Spec(a, "protocol")) && Truthy(Spec(b, "protocol")) {
      NothingSharedSymmetric(AsList(Spec(a, "protocol").value), AsList(Spec(b, "protocol").value));
    }
  }

  /** Two lists have no strictly equal pair in one order exactly when they
      have none in the other. */
  lemma NothingSharedSymmetric(xs: seq<SpecValue>, ys: seq<SpecValue>)
    ensures (forall i, j :: 0 <= i < |xs| && 0 <= j < |ys| ==> !StrictEq(xs[i], ys[j]))
        <==> (forall i, j :: 0 <= i < |ys| && 0 <= j < |xs| ==> !StrictEq(ys[i], xs[j]))
  {
    if exists i, j :: 0 <= i < |xs| && 0 <= j < |ys| && StrictEq(xs[i], ys[j]) {
      var i, j :| 0 <= i < |xs| && 0 <= j < |ys| && StrictEq(xs[i], ys[j]);
      assert StrictEq(ys[j], xs[i]);
    }
    if exists i, j :: 0 <= i < |ys| && 0 <= j < |xs| && StrictEq(ys[i], xs[j]) {
      var i, j :| 0 <= i < |ys| && 0 <= j < |xs| && StrictEq(ys[i], xs[j]);
      assert StrictEq(xs[j], ys[i]);
    }
  }

  /** A listed protocol that the other side also supports keeps the rule
      silent. */
  lemma SharedProtocolPasses(esc: Component, fc: Component, p: string)
    requires Spec(esc, "protocol").Some? && Spec(esc, "protocol").value.List? && p in Spec(esc, "protocol").value.items
    requires Spec(fc, "protocol") == Some(Str(p))
    ensures CheckEscFcProtocol(esc, fc).None?
  {
    var xs := AsList(Spec(esc, "protocol").value);
    var items := Spec(esc, "protocol").value.items;
    var i :| 0 <= i < |items| && items[i] == p;
    assert xs[i] == Str(p);
    assert AsList(Spec(fc, "protocol").value)[0] == Str(p);
    assert StrictEq(xs[i], AsList(Spec(fc, "protocol").value)[0]);
  }

  /** Whether the connector rule fires does not depend on which side is the
      transmitter. */
  lemma ConnectorSymmetric(a: Component, b: Component)
    ensures CheckVtxAntennaConnector(a, b).Some? <==> CheckVtxAntennaConnector(b, a).Some?
  {
  }

  /** A motor whose size is the number `n` on a 3", 5" or 7" frame is flagged
      exactly when `n` lies outside the frame's typical stator range, because
      `parseInt` reads back the number the size renders to. */
  lemma MotorSizeNumber(motor: Component, frame: Component, n: int, size: string)
    requires n != 0 && Spec(motor, "size") == Some(Num(n))
    requires size in {"3", "5", "7"} && Spec(frame, "size") == Some(Str(size))
    ensures CheckMotorFrameSize(motor, frame).None? <==>
      SizeRange(size).value.0.min <= n <= SizeRange(size).value.0.max
  {
    ParseIntOfIntToString(n);
  }

  /** A motor of numeric size `m` on an ESC of numeric current `a` is flagged
      exactly when the motor is 2205 or larger and the ESC is rated under 30 A. */
  lemma CurrentNumbers(motor: Component, esc: Component, m: int, a: int)
    requires m != 0 && Spec(motor, "size") == Some(Num(m))
    requires a != 0 && Spec(esc, "current") == Some(Num(a))
    ensures CheckMotorEscCurrent(motor, esc).Some? <==> m >= 2205 && a < 30
  {
    ParseIntOfIntToString(m);
  }

  /** A text always shares a band with itself. */
  lemma BandsShareSelf(t: string)
    ensures ShareOne(Bands(t), Bands(t))
  {
    var bs := Bands(t);
    assert bs[0] == bs[0];
  }

  /** A receiver and an antenna that carry the same frequency value never
      conflict. */
  lemma FrequencySelfMatch(rx: Component, antenna: Component)
    requires Spec(rx, "frequency") == Spec(antenna, "frequency")
    ensures CheckRxAntennaFrequency(rx, antenna).None?
  {
    var f := Spec(rx, "frequency");
    if Truthy(f) {
      BandsShareSelf(Render(f.value));
    }
  }

  /** Where the written rule does not raise, that is, when both frequencies
      are strings, it gives the same answer as the corrected one. */
  lemma FrequencyAgreesOnStrings(rx: Component, antenna: Component)
    requires CheckRxAntennaFrequencyAsWritten(rx, antenna).Success?
    ensures CheckRxAntennaFrequencyAsWritten(rx, antenna).value == CheckRxAntennaFrequency(rx, antenna)
  {
  }

  /** The written rule raises on a receiver whose frequency is the number 915,
      where the corrected rule compares "915" with the antenna's bands. */
  lemma FrequencyNumberRaises()
    ensures
      var rx := Component("rx1", "RX", "", None, None, Some([Assoc.Entry("frequency", Num(915))]), "rx", false, false);
      var ant := Component("ant1", "Antenna", "", None, None, Some([Assoc.Entry("frequency", Str("915"))]), "rxAntenna", false, false);
      CheckRxAntennaFrequencyAsWritten(rx, ant).Failure? && CheckRxAntennaFrequency(rx, ant).None?
  {
    var rx := Component("rx1", "RX", "", None, None, Some([Assoc.Entry("frequency", Num(915))]), "rx", false, false);
    var ant := Component("ant1", "Antenna", "", None, None, Some([Assoc.Entry("frequency", Str("915"))]), "rxAntenna", false, false);
    var f := Spec(rx, "frequency");
    assert f == Some(Num(915));
    assert Spec(ant, "frequency") == Some(Str("915"));
    assert Render(Num(915)) == "915" by {
      assert NatToString(915) == NatToString(91) + [DigitChar(5)];
    }
    BandsShareSelf("915");
  }

  /** A text that neither contains "/" nor white space. */
  predicate PlainText(t: string) {
    '/' !in t && forall i :: 0 <= i < |t| ==> !IsJsSpace(t[i])
  }

  /** Bands are compared as written, unit and all. A dual-band receiver such
      as "868/915MHz" splits into "868" and "915MHz", so an antenna for its
      first band written with the unit ("868MHz") is reported as a mismatch,
      while one for its second band ("915MHz") is accepted. */
  lemma DualBandComparesPiecesLiterally(rx: Component, antenna: Component, a: string, b: string, unit: string)
    requires PlainText(a) && PlainText(b) && PlainText(unit)
    requires a != b && unit != ""
    requires Spec(rx, "frequency") == Some(Str(a + "/" + b + unit))
    ensures Spec(antenna, "frequency") == Some(Str(a + unit)) ==> CheckRxAntennaFrequency(rx, antenna).Some?
    ensures Spec(antenna, "frequency") == Some(Str(b + unit)) ==> CheckRxAntennaFrequency(rx, antenna).None?
  {
    PlainConcat(a, unit);
    PlainConcat(b, unit);
    BandsOfPair(a, b + unit);
    assert a + "/" + b + unit == a + "/" + (b + unit);
    if Spec(antenna, "frequency") == Some(Str(a + unit)) {
      FirstBandWithUnitRejected(rx, antenna, a, b, unit);
    }
    if Spec(antenna, "frequency") == Some(Str(b + unit)) {
      FrequencyOfTexts(rx, antenna, a + "/" + b + unit, b + unit);
      PlainBand(b + unit);
      assert Bands(a + "/" + b + unit)[1] == Bands(b + unit)[0];
    }
  }

  /** The first band of "a/b‹unit›" is "a", which matches neither "a‹unit›"
      (it is shorter) nor, as `a != b`, the second band "b‹unit›". */
  lemma FirstBandWithUnitRejected(rx: Component, antenna: Component, a: string, b: string, unit: string)
    requires PlainText(a + unit) && a != b && unit != ""
    requires Bands(a + "/" + b + unit) == [a, b + unit]
    requires Spec(rx, "frequency") == Some(Str(a + "/" + b + unit))
    requires Spec(antenna, "frequency") == Some(Str(a + unit))
    ensures CheckRxAntennaFrequency(rx, antenna).Some?
  {
    var xs := Bands(a + "/" + b + unit);
    FrequencyOfTexts(rx, antenna, a + "/" + b + unit, a + unit);
    PlainBand(a + unit);
    SuffixCancels(a, b, unit);
    forall i, j | 0 <= i < |xs| && 0 <= j < 1
      ensures xs[i] != Bands(a + unit)[j]
    {
      if i == 0 {
        assert |xs[i]| < |a + unit|;
      }
    }
  }

  /** Texts free of slashes and white space stay so when put together. */
  lemma PlainConcat(x: string, y: string)
    requires PlainText(x) && PlainText(y)
    ensures PlainText(x + y)
  {
    var t := x + y;
    forall i | 0 <= i < |t| ensures !IsJsSpace(t[i]) {
      if i >= |x| { assert t[i] == y[i - |x|]; }
    }
  }

  /** Texts that differ still differ once the same suffix is added. */
  lemma SuffixCancels(a: string, b: string, unit: string)
    requires a != b
    ensures a + unit != b + unit
  {
    if |a| == |b| {
      assert (a + unit)[..|a|] == a && (b + unit)[..|b|] == b;
    }
  }

  /** For two non-empty string frequencies the rule fires exactly when their
      bands share nothing. */
  lemma FrequencyOfTexts(rx: Component, antenna: Component, r: string, a: string)
    requires Spec(rx, "frequency") == Some(Str(r)) && r != ""
    requires Spec(antenna, "frequency") == Some(Str(a)) && a != ""
    ensures CheckRxAntennaFrequency(rx, antenna).None? <==> ShareOne(Bands(r), Bands(a))
  {
  }

  /** Two plain band texts joined by "/" are two bands. */
  lemma BandsOfPair(a: string, b: string)
    requires PlainText(a) && PlainText(b)
    ensures Bands(a + "/" + b) == [a, b]
  {
    PlainBand(a);
    PlainBand(b);
    SplitAround(a, b, '/');
  }

  /** A band text with neither a "/" nor white space is its own single band. */
  lemma PlainBand(t: string)
    requires PlainText(t)
    ensures Bands(t) == [t]
    ensures RemoveSpaces(t) == t
  {
    SplitPlain(t, '/');
    RemoveNoSpaces(t);
  }

  // ---------------------------------------------------------------------
  // The table

  /** `compatibilityRules`, in table order. */
  function Table(): (r: seq<Rule>)
    ensures |r| == 19
  {
    [FramePropSize, MotorPropShaft, MotorFrameSize, FcFrameMount, EscFrameMount,
     BatteryEscVoltage, BatteryFcVoltage, BatteryMotorVoltage,
     VtxCameraSystem, VtxGogglesSystem, CameraGogglesSystem, RxTxProtocol,
     EscFcProtocol, EscFcMount, BatteryFrameSize, MotorEscCurrent, FcEscAio,
     VtxAntennaConnector, RxAntennaFrequency]
  }

  /** Every rule is in the table, and no two entries share an `id`, so each
      check runs exactly once per evaluation. */
  lemma TableListsEachRuleOnce()
    ensures forall kind: Rule :: kind in Table()
    ensures forall i, j :: 0 <= i < j < |Table()| ==> Table()[i].Id() != Table()[j].Id()
  {
    var t := Table();
    forall kind: Rule
      ensures kind in t
    {
      match kind
      case FramePropSize => assert t[0] == kind;
      case MotorPropShaft => assert t[1] == kind;
      case MotorFrameSize => assert t[2] == kind;
      case FcFrameMount => assert t[3] == kind;
      case EscFrameMount => assert t[4] == kind;
      case BatteryEscVoltage => assert t[5] == kind;
      case BatteryFcVoltage => assert t[6] == kind;
      case BatteryMotorVoltage => assert t[7] == kind;
      case VtxCameraSystem => assert t[8] == kind;
      case VtxGogglesSystem => assert t[9] == kind;
      case CameraGogglesSystem => assert t[10] == kind;
      case RxTxProtocol => assert t[11] == kind;
      case EscFcProtocol => assert t[12] == kind;
      case EscFcMount => assert t[13] == kind;
      case BatteryFrameSize => assert t[14] == kind;
      case MotorEscCurrent => assert t[15] == kind;
      case FcEscAio => assert t[16] == kind;
      case VtxAntennaConnector => assert t[17] == kind;
      case RxAntennaFrequency => assert t[18] == kind;
    }
    forall i, j | 0 <= i < j < |t|
      ensures t[i].Id() != t[j].Id()
    {
      IdsDiffer(t[i], t[j]);
    }
  }

  /** Different rules carry different ids. */
  lemma IdsDiffer(a: Rule, b: Rule)
    requires a != b
    ensures a.Id() != b.Id()
  {
  }

}

=== FILE: seqs.dfy ===
/** `Array.prototype.filter`, `Array.prototype.flatMap` and the facts about
    them the model relies on. */
module Seqs {

  /** Concatenation is associative. Stated once so that proofs about long
      concatenations can regroup them cheaply. */
  lemma ConcatAssoc<T>(a: seq<T>, b: seq<T>, c: seq<T>)
    ensures a + (b + c) == (a + b) + c
  {
  }

  /** `xs.flatMap(f)`: the pieces `f` gives for the elements, concatenated in
      the elements' order. */
  function FlatMap<A, B>(xs: seq<A>, f: A -> seq<B>): seq<B> {
    if |xs| == 0 then [] else f(xs[0]) + FlatMap(xs[1..], f)
  }

  /** Mapping two lists one after the other gives the pieces of the first
      followed by those of the second. */
  lemma {:induction false} FlatMapAppend<A, B>(x: seq<A>, y: seq<A>, f: A -> seq<B>)
    ensures FlatMap(x + y, f) == FlatMap(x, f) + FlatMap(y, f)
    decreases |x|
  {
    if |x| > 0 {
      assert (x + y)[0] == x[0] && (x + y)[1..] == x[1..] + y;
      FlatMapAppend(x[1..], y, f);
      ConcatAssoc(f(x[0]), FlatMap(x[1..], f), FlatMap(y, f));
    } else {
      assert x + y == y;
    }
  }

  /** An element is in the result exactly when it is in the piece of some
      element of the list. */
  lemma {:induction false} FlatMapMember<A, B>(xs: seq<A>, f: A -> seq<B>, b: B)
    ensures b in FlatMap(xs, f) <==> exists i :: 0 <= i < |xs| && b in f(xs[i])
    decreases |xs|
  {
    if |xs| > 0 {
      var tail := xs[1..];
      FlatMapMember(tail, f, b);
      if b !in f(xs[0]) && b !in FlatMap(tail, f) {
        forall i | 0 <= i < |xs| ensures b !in f(xs[i]) {
          if i > 0 {
            assert xs[i] == tail[i - 1];
          }
        }
      } else if b !in f(xs[0]) {
        var j :| 0 <= j < |tail| && b in f(tail[j]);
        assert xs[j + 1] == tail[j];
      }
    }
  }

  /** When every piece has at most one element, the result is no longer than
      the list. */
  lemma {:induction false} FlatMapAtMostOne<A, B>(xs: seq<A>, f: A -> seq<B>)
    requires forall i :: 0 <= i < |xs| ==> |f(xs[i])| <= 1
    ensures |FlatMap(xs, f)| <= |xs|
    decreases |xs|
  {
    if |xs| > 0 {
      var tail := xs[1..];
      assert forall i :: 0 <= i < |tail| ==> tail[i] == xs[i + 1];
      FlatMapAtMostOne(tail, f);
    }
  }

  /** `s.filter(keep)`: the elements that satisfy `keep`, in their original order. */
  function Filter<T(!new)>(s: seq<T>, keep: T -> bool): (r: seq<T>)
    ensures |r| <= |s|
    ensures forall x :: x in r <==> x in s && keep(x)
  {
    if |s| == 0 then []
    else
      var rest := Filter(s[1..], keep);
      assert forall x :: x in s <==> x == s[0] || x in s[1..];
      (if keep(s[0]) then [s[0]] else []) + rest
  }

  /** Filtering distributes over concatenation, so it keeps relative order. */
  lemma {:induction false} FilterAppend<T(!new)>(x: seq<T>, y: seq<T>, keep: T -> bool)
    ensures Filter(x + y, keep) == Filter(x, keep) + Filter(y, keep)
    decreases |x|
  {
    if |x| > 0 {
      assert (x + y)[1..] == x[1..] + y;
      FilterAppend(x[1..], y, keep);
    } else {
      assert x + y == y;
    }
  }

  /** Filtering with a predicate every element meets changes nothing. */
  lemma {:induction false} FilterAll<T(!new)>(s: seq<T>, keep: T -> bool)
    requires forall i :: 0 <= i < |s| ==> keep(s[i])
    ensures Filter(s, keep) == s
    decreases |s|
  {
    if |s| > 0 {
      FilterAll(s[1..], keep);
    }
  }
}

=== FILE: storage.dfy ===
/** Persistence and export: the CSV export with its quoting, the file-name
    sanitiser, the saved-build list and the custom-preset table kept in the
    browser's key-value storage. Storage reads are modelled as the already
    parsed value (`None` when the key is missing or does not parse), and every
    write as a flag `writeOk` saying whether `setItem` succeeded; a failing
    write raises, which the model reports as `Failure(QuotaExceeded)`. */
module Storage {
  import opened Wrappers
  import opened Assoc
  import opened Entities
  import JsText
  import Helpers
  import BuildStore
  import Seqs

  const QuotaExceeded: string := "QuotaExceededError"

  // ---------------------------------------------------------------------
  // CSV encoding

  /** `cell.replace(/"/g, '""')`: every double quote doubled. */
  function Escape(c: string): (r: string)
    ensures |r| >= |c|
  {
    if |c| == 0 then ""
    else (if c[0] == '"' then "\"\"" else [c[0]]) + Escape(c[1..])
  }

  /** One cell as the export writes it: escaped and wrapped in double quotes. */
  function QuoteCell(c: string): (r: string)
    ensures |r| >= 2 && r[0] == '"' && r[|r| - 1] == '"'
  {
    "\"" + Escape(c) + "\""
  }

  /** `cells.map(quote).join(',')`. */
  function EncodeRow(cells: seq<string>): (r: string)
    ensures |cells| == 0 <==> r == ""
    ensures |cells| > 0 ==> r[0] == '"'
  {
    if |cells| == 0 then ""
    else if |cells| == 1 then QuoteCell(cells[0])
    else QuoteCell(cells[0]) + "," + EncodeRow(cells[1..])
  }

  /** `rows.map(encodeRow).join('\n')`. */
  function EncodeCsv(rows: seq<seq<string>>): string {
    if |rows| == 0 then ""
    else if |rows| == 1 then EncodeRow(rows[0])
    else EncodeRow(rows[0]) + "\n" + EncodeCsv(rows[1..])
  }

  // ---------------------------------------------------------------------
  // CSV decoding: the reading a spreadsheet gives the exported text

  /** Reads the body of a quoted cell, just after its opening quote, up to the
      closing quote: a doubled quote stands for one quote. Returns the cell and
      the text after the closing quote, or `None` when no closing quote comes. */
  function ReadQuoted(s: string): (r: Option<(string, string)>)
    ensures r.Some? ==> |r.value.1| < |s|
    decreases |s|
  {
    if |s| == 0 then None
    else if s[0] == '"' then
      if |s| >= 2 && s[1] == '"' then
        match ReadQuoted(s[2..])
        case None => None
        case Some((c, rest)) => Some(("\"" + c, rest))
      else Some(("", s[1..]))
    else
      match ReadQuoted(s[1..])
      case None => None
      case Some((c, rest)) => Some(([s[0]] + c, rest))
  }

  /** Reads a non-empty row of quoted cells separated by commas, returning the
      cells and the text after the last one. */
  function ReadCells(s: string): (r: Option<(seq<string>, string)>)
    ensures r.Some? ==> |r.value.0| > 0 && |r.value.1| < |s|
    decreases |s|
  {
    if |s| == 0 || s[0] != '"' then None
    else
      match ReadQuoted(s[1..])
      case None => None
      case Some((c, rest)) =>
        if |rest| > 0 && rest[0] == ',' then
          match ReadCells(rest[1..])
          case None => None
          case Some((cs, tail)) => Some(([c] + cs, tail))
        else Some(([c], rest))
  }

  /** Reads newline-separated rows; an empty line is a row with no cells. */
  function DecodeCsv(s: string): (r: Option<seq<seq<string>>>)
    ensures r.Some? ==> |r.value| > 0
    decreases |s|
  {
    var parsed: Option<(seq<string>, string)> := if |s| == 0 || s[0] == '\n' then Some(([], s)) else ReadCells(s);
    match parsed
    case None => None
    case Some((row, rest)) =>
      if |rest| == 0 then Some([row])
      else if rest[0] != '\n' then None
      else
        match DecodeCsv(rest[1..])
        case None => None
        case Some(rows) => Some([row] + rows)
  }

  /** The body of a quoted cell reads back as the cell, whatever quotes it
      holds, as long as the text after it does not start with a quote. */
  lemma {:induction false} ReadEscaped(c: string, t: string)
    requires |t| == 0 || t[0] != '"'
    ensures ReadQuoted(Escape(c) + "\"" + t) == Some((c, t))
    decreases |c|
  {
    if |c| == 0 {
      ReadClosing(t);
    } else {
      var rest := Escape(c[1..]) + "\"" + t;
      ReadEscaped(c[1..], t);
      EscapedThen(c, t);
      if c[0] == '"' {
        ReadDoubled(rest);
        assert "\"" + c[1..] == c;
      } else {
        ReadPlain(c[0], rest);
        assert [c[0]] + c[1..] == c;
      }
    }
  }

  /** An escaped cell and what follows it, regrouped after the escape of the
      cell's first character. */
  lemma EscapedThen(c: string, t: string)
    requires |c| > 0
    ensures Escape(c) + "\"" + t ==
      (if c[0] == '"' then "\"\"" else [c[0]]) + (Escape(c[1..]) + "\"" + t)
  {
    var head := if c[0] == '"' then "\"\"" else [c[0]];
    assert Escape(c) == head + Escape(c[1..]);
    Seqs.ConcatAssoc(head, Escape(c[1..]), "\"");
    Seqs.ConcatAssoc(head, Escape(c[1..]) + "\"", t);
  }

  lemma ReadClosing(t: string)
    requires |t| == 0 || t[0] != '"'
    ensures ReadQuoted("\"" + t) == Some(("", t))
  {
    var s := "\"" + t;
    assert s[0] == '"' && s[1..] == t;
    assert |s| >= 2 ==> s[1] == t[0];
  }

  lemma ReadDoubled(rest: string)
    ensures ReadQuoted("\"\"" + rest) ==
      match ReadQuoted(rest) case None => None case Some((c, r)) => Some(("\"" + c, r))
  {
    var s := "\"\"" + rest;
    assert s[0] == '"' && s[1] == '"' && s[2..] == rest;
  }

  lemma ReadPlain(x: char, rest: string)
    requires x != '"'
    ensures ReadQuoted([x] + rest) ==
      match ReadQuoted(rest) case None => None case Some((c, r)) => Some(([x] + c, r))
  {
    var s := [x] + rest;
    assert s[0] == x && s[1..] == rest;
  }

  /** An encoded non-empty row reads back as its cells, followed by the end of
      the text or a line break. */
  lemma {:induction false} ReadEncodedRow(cells: seq<string>, t: string)
    requires |cells| > 0
    requires |t| == 0 || t[0] == '\n'
    ensures ReadCells(EncodeRow(cells) + t) == Some((cells, t))
    decreases |cells|
  {
    var c := cells[0];
    if |cells| == 1 {
      assert cells == [c] && EncodeRow(cells) == QuoteCell(c);
      ReadLastCell(c, t);
    } else {
      var tail := EncodeRow(cells[1..]) + t;
      ReadEncodedRow(cells[1..], t);
      assert EncodeRow(cells) == QuoteCell(c) + "," + EncodeRow(cells[1..]);
      Seqs.ConcatAssoc(QuoteCell(c) + ",", EncodeRow(cells[1..]), t);
      ReadCellThenComma(c, tail);
      assert [c] + cells[1..] == cells;
    }
  }

  /** A quoted cell followed by the end of the text or a line break reads back
      as a row of that one cell. */
  lemma ReadLastCell(c: string, t: string)
    requires |t| == 0 || t[0] == '\n'
    ensures ReadCells(QuoteCell(c) + t) == Some(([c], t))
  {
    var body := Escape(c) + "\"" + t;
    QuotedThen(c, t);
    assert ("\"" + body)[1..] == body;
    ReadEscaped(c, t);
  }

  /** A quoted cell and what follows it, regrouped around the opening quote. */
  lemma QuotedThen(c: string, t: string)
    ensures QuoteCell(c) + t == "\"" + (Escape(c) + "\"" + t)
  {
    Seqs.ConcatAssoc("\"" + Escape(c), "\"", t);
    Seqs.ConcatAssoc("\"", Escape(c), "\"" + t);
    Seqs.ConcatAssoc(Escape(c), "\"", t);
  }

  /** A quoted cell and a comma before a readable row read back as that cell
      in front of the row's cells. */
  lemma ReadCellThenComma(c: string, tail: string)
    requires ReadCells(tail).Some?
    ensures ReadCells(QuoteCell(c) + "," + tail) ==
      Some(([c] + ReadCells(tail).value.0, ReadCells(tail).value.1))
  {
    var body := Escape(c) + "\"" + ("," + tail);
    Seqs.ConcatAssoc(QuoteCell(c), ",", tail);
    QuotedThen(c, "," + tail);
    assert ("\"" + body)[1..] == body;
    ReadEscaped(c, "," + tail);
    assert ("," + tail)[1..] == tail;
  }

  /** One row followed by the rest of the text reads back as that row. */
  lemma DecodeRowThen(row: seq<string>, t: string)
    requires |t| == 0 || t[0] == '\n'
    ensures DecodeCsv(EncodeRow(row) + t) ==
      if |t| == 0 then Some([row])
      else match DecodeCsv(t[1..]) case None => None case Some(rows) => Some([row] + rows)
  {
    if |row| == 0 {
      assert EncodeRow(row) + t == t;
    } else {
      ReadEncodedRow(row, t);
    }
  }

  /** The CSV text reads back as exactly the rows it was made from: quotes,
      commas and the empty separator row all survive. */
  lemma {:induction false} DecodeEncodedCsv(rows: seq<seq<string>>)
    requires |rows| > 0
    ensures DecodeCsv(EncodeCsv(rows)) == Some(rows)
    decreases |rows|
  {
    if |rows| == 1 {
      assert rows == [rows[0]];
      assert EncodeCsv(rows) == EncodeRow(rows[0]);
      DecodeRowThen(rows[0], "");
      assert EncodeRow(rows[0]) + "" == EncodeRow(rows[0]);
    } else {
      var tail := EncodeCsv(rows[1..]);
      assert EncodeCsv(rows) == EncodeRow(rows[0]) + ("\n" + tail);
      DecodeRowThen(rows[0], "\n" + tail);
      assert ("\n" + tail)[1..] == tail;
      DecodeEncodedCsv(rows[1..]);
      assert [rows[0]] + rows[1..] == rows;
    }
  }

  // ---------------------------------------------------------------------
  // The rows of the CSV export

  const CsvHeader: seq<string> := ["Category", "Component", "Description", "Cost", "Weight", "Specs"]

  /** The "Component" cell of a category's row: the part's name, or the
      marker of an empty slot. */
  function PartCell(slot: Option<Component>): string {
    match slot
    case None => "(empty)"
    case Some(c) => c.name
  }

  /** The row for one category: the part's fields, or the "(empty)" marker.
      `money` and `mass` are the currency and weight formatters. */
  function CategoryRow(cat: Helpers.Category, slot: Option<Component>,
                       money: Option<int> -> string, mass: Option<int> -> string): (r: seq<string>)
    ensures |r| == 6 && r[0] == cat.displayLabel
    ensures r[1] == PartCell(slot)
    ensures slot.None? ==> r[2..] == ["", "", "", ""]
    ensures slot.Some? ==> r[2] == slot.value.description && r[3] == money(slot.value.cost)
                           && r[4] == mass(slot.value.weight)
    ensures slot.Some? ==> r[5] == if slot.value.specs.Some? then FlattenSpecs(slot.value.specs.value, "; ") else ""
  {
    match slot
    case None => [cat.displayLabel, "(empty)", "", "", "", ""]
    case Some(c) =>
      [cat.displayLabel, c.name, c.description, money(c.cost), mass(c.weight),
       if c.specs.Some? then FlattenSpecs(c.specs.value, "; ") else ""]
  }

  function CategoryRows(cats: seq<Helpers.Category>, s: BuildStore.Slots,
                        money: Option<int> -> string, mass: Option<int> -> string): (r: seq<seq<string>>)
    ensures |r| == |cats|
    ensures forall i :: 0 <= i < |cats| ==> r[i] == CategoryRow(cats[i], BuildStore.Slot(s, cats[i].key), money, mass)
  {
    seq(|cats|, i requires 0 <= i < |cats| => CategoryRow(cats[i], BuildStore.Slot(s, cats[i].key), money, mass))
  }

  /** The summary block after the rows of the categories `cats`. */
  function SummaryRows(cats: seq<Helpers.Category>, st: BuildStore.Store,
                       money: Option<int> -> string, mass: Option<int> -> string): seq<seq<string>> {
    [ [],
      ["TOTAL", "", "", money(Some(BuildStore.TotalCost(st.components))), mass(Some(BuildStore.TotalWeight(st.components))), ""],
      ["Build Name", st.buildName],
      ["Parts", JsText.NatToString(BuildStore.FilledCount(st.components)) + " / " + JsText.NatToString(|cats|)] ]
  }

  /** The rows of the export over the registry `cats`. */
  function CsvRowsOf(cats: seq<Helpers.Category>, st: BuildStore.Store,
                     money: Option<int> -> string, mass: Option<int> -> string): seq<seq<string>> {
    [CsvHeader] + CategoryRows(cats, st.components, money, mass) + SummaryRows(cats, st, money, mass)
  }

  /** The rows `exportBuildToCsv` assembles. */
  function CsvRows(st: BuildStore.Store, money: Option<int> -> string, mass: Option<int> -> string): (r: seq<seq<string>>)
    ensures |r| == 19 && r[0] == CsvHeader
    ensures r[15] == [] && r[17] == ["Build Name", st.buildName]
  {
    CsvRowsOf(Helpers.Categories(), st, money, mass)
  }

  /** The text of the exported CSV file. */
  function ExportCsv(st: BuildStore.Store, money: Option<int> -> string, mass: Option<int> -> string): (r: string)
    ensures EncodeRow(CsvHeader) + "\n" <= r
  {
    var rows := CsvRows(st, money, mass);
    assert EncodeCsv(rows) == EncodeRow(rows[0]) + "\n" + EncodeCsv(rows[1..]);
    EncodeCsv(rows)
  }

  /** The export over any registry starts with the header and then has one
      six-cell row per category in registry order, naming the slot's part or
      "(empty)". */
  lemma CsvRowsCategories(cats: seq<Helpers.Category>, st: BuildStore.Store,
                          money: Option<int> -> string, mass: Option<int> -> string)
    ensures var rows := CsvRowsOf(cats, st, money, mass);
      && |rows| == |cats| + 5
      && rows[0] == CsvHeader
      && (forall i :: 0 <= i < |cats| ==>
            && |rows[i + 1]| == 6
            && rows[i + 1][0] == cats[i].displayLabel
            && rows[i + 1][1] == PartCell(BuildStore.Slot(st.components, cats[i].key)))
  {
    var body := CategoryRows(cats, st.components, money, mass);
    RowsLayout(CsvHeader, body, SummaryRows(cats, st, money, mass));
  }

  /** A header row, then a body, then a tail: the header is row 0 and body
      row `i` is row `i + 1`. */
  lemma RowsLayout(header: seq<string>, body: seq<seq<string>>, tail: seq<seq<string>>)
    ensures var rows := [header] + body + tail;
      && |rows| == |body| + |tail| + 1
      && rows[0] == header
      && forall i :: 0 <= i < |body| ==> rows[i + 1] == body[i]
  {
  }

  /** After the category rows come a blank row, the totals, the build name and
      the parts count out of the number of categories. */
  lemma CsvRowsSummary(cats: seq<Helpers.Category>, st: BuildStore.Store,
                       money: Option<int> -> string, mass: Option<int> -> string)
    ensures var rows := CsvRowsOf(cats, st, money, mass);
      && |rows| == |cats| + 5
      && rows[|cats| + 1] == []
      && rows[|cats| + 2][0] == "TOTAL"
      && rows[|cats| + 3] == ["Build Name", st.buildName]
      && rows[|cats| + 4] == ["Parts", JsText.NatToString(BuildStore.FilledCount(st.components)) + " / " + JsText.NatToString(|cats|)]
  {
    var rows := CsvRowsOf(cats, st, money, mass);
    var head := [CsvHeader] + CategoryRows(cats, st.components, money, mass);
    var tail := SummaryRows(cats, st, money, mass);
    assert rows == head + tail;
    assert |head| == |cats| + 1;
    assert rows[|cats| + 1..] == tail;
  }

  /** The exported text reads back as exactly the rows above. */
  lemma ExportReadsBack(st: BuildStore.Store, money: Option<int> -> string, mass: Option<int> -> string)
    ensures DecodeCsv(ExportCsv(st, money, mass)) == Some(CsvRows(st, money, mass))
  {
    DecodeEncodedCsv(CsvRows(st, money, mass));
  }

  // ---------------------------------------------------------------------
  // File names

  predicate IsAsciiAlnum(c: char) {
    'a' <= c <= 'z' || 'A' <= c <= 'Z' || '0' <= c <= '9'
  }

  /** A character that may appear in a sanitised file name. */
  predicate IsSafe(c: char) {
    IsAsciiAlnum(c) || c == '_'
  }

  /** `name.replace(/[^a-z0-9]/gi, '_')`: the case-insensitive class matches the
      ASCII letters of both cases, so every other character becomes '_'. */
  function SanitizeFileName(s: string): (r: string)
    ensures |r| == |s|
    ensures forall i :: 0 <= i < |r| ==> IsSafe(r[i])
    ensures forall i :: 0 <= i < |s| && IsAsciiAlnum(s[i]) ==> r[i] == s[i]
    ensures forall i :: 0 <= i < |s| && !IsAsciiAlnum(s[i]) ==> r[i] == '_'
  {
    if |s| == 0 then ""
    else [if IsAsciiAlnum(s[0]) then s[0] else '_'] + SanitizeFileName(s[1..])
  }

  /** A name is left unchanged by sanitising exactly when it is already made
      of safe characters. */
  lemma {:induction false} SanitizeFixedIff(s: string)
    ensures SanitizeFileName(s) == s <==> forall i :: 0 <= i < |s| ==> IsSafe(s[i])
    decreases |s|
  {
    if |s| > 0 {
      SanitizeFixedIff(s[1..]);
      var r := SanitizeFileName(s);
      assert r == [r[0]] + SanitizeFileName(s[1..]);
      if forall i :: 0 <= i < |s| ==> IsSafe(s[i]) {
        assert forall i :: 0 <= i < |s[1..]| ==> IsSafe(s[1..][i]) by {
          forall i | 0 <= i < |s[1..]| ensures IsSafe(s[1..][i]) {
            assert s[1..][i] == s[i + 1];
          }
        }
        assert r[0] == s[0];
        assert s == [s[0]] + s[1..];
      }
    }
  }

  /** Sanitising an already sanitised name changes nothing. */
  lemma SanitizeIdempotent(s: string)
    ensures SanitizeFileName(SanitizeFileName(s)) == SanitizeFileName(s)
  {
    SanitizeFixedIff(SanitizeFileName(s));
  }

  /** The download names of the JSON and CSV exports. */
  function JsonFileName(name: string): (r: string)
    ensures |r| == |name| + 5 && r[|name|..] == ".json"
    ensures forall i :: 0 <= i < |name| ==> IsSafe(r[i])
    ensures forall i :: 0 <= i < |name| && IsAsciiAlnum(name[i]) ==> r[i] == name[i]
    ensures forall i :: 0 <= i < |name| && !IsAsciiAlnum(name[i]) ==> r[i] == '_'
    ensures r[..|name|] == SanitizeFileName(name)
  {
    SanitizeFileName(name) + ".json"
  }

  function CsvFileName(name: string): (r: string)
    ensures |r| == |name| + 4 && r[|name|..] == ".csv"
    ensures forall i :: 0 <= i < |name| ==> IsSafe(r[i])
    ensures forall i :: 0 <= i < |name| && IsAsciiAlnum(name[i]) ==> r[i] == name[i]
    ensures forall i :: 0 <= i < |name| && !IsAsciiAlnum(name[i]) ==> r[i] == '_'
    ensures r[..|name|] == SanitizeFileName(name)
  {
    SanitizeFileName(name) + ".csv"
  }

  // ---------------------------------------------------------------------
  // Saved builds

  /** `loadSavedBuilds()`: the stored list, or none when the key is missing or
      does not parse. */
  function LoadSavedBuilds(stored: Option<seq<BuildStore.BuildRecord>>): (r: seq<BuildStore.BuildRecord>)
    ensures stored.None? ==> r == []
    ensures stored.Some? ==> r == stored.value
  {
    stored.GetOr([])
  }

  /** `find(b => b.id === id)`: the first record with the id. */
  function FindById(records: seq<BuildStore.BuildRecord>, id: string): (r: Option<BuildStore.BuildRecord>)
    ensures r.None? <==> forall i :: 0 <= i < |records| ==> records[i].id != id
    ensures r.Some? ==> exists i :: 0 <= i < |records| && records[i] == r.value && r.value.id == id
                                   && forall j :: 0 <= j < i ==> records[j].id != id
  {
    if |records| == 0 then None
    else if records[0].id == id then Some(records[0])
    else
      var r := FindById(records[1..], id);
      assert forall i :: 0 < i < |records| ==> records[1..][i - 1] == records[i];
      if r.Some? then
        var i :| 0 <= i < |records[1..]| && records[1..][i] == r.value && r.value.id == id
                 && forall j :: 0 <= j < i ==> records[1..][j].id != id;
        assert records[i + 1] == r.value;
        r
      else r
  }

  datatype SaveOutcome = SaveOutcome(
    store: BuildStore.Store,
    saved: seq<BuildStore.BuildRecord>,
    stored: Option<seq<BuildStore.BuildRecord>>,
    result: Result<BuildStore.BuildRecord, string>)

  /** `saveBuild(name)`: renames the store unless `name` is empty, exports it
      under the fresh `id` at time `now`, appends it to the freshly loaded list
      and writes the list back. When the write fails the rename and the
      in-memory append have already happened and the call raises. */
  function SaveBuild(st: BuildStore.Store, stored: Option<seq<BuildStore.BuildRecord>>,
                     name: string, now: int, id: string, writeOk: bool): (r: SaveOutcome)
    ensures r.store.components == st.components
    ensures r.store.buildName == if name != "" then name else st.buildName
    ensures |r.saved| == |LoadSavedBuilds(stored)| + 1
    ensures r.saved == LoadSavedBuilds(stored) + [r.saved[|r.saved| - 1]]
    ensures r.saved[|r.saved| - 1] == BuildStore.ExportBuild(r.store, now).(id := id)
    ensures r.result.Success? <==> writeOk
    ensures r.result.Success? ==> r.result.value == r.saved[|r.saved| - 1] && r.stored == Some(r.saved)
    ensures r.result.Failure? ==> r.stored == stored
  {
    var st' := st.(buildName := if name != "" then name else st.buildName);
    var b := BuildStore.ExportBuild(st', now).(id := id);
    var saved := LoadSavedBuilds(stored) + [b];
    if writeOk then SaveOutcome(st', saved, Some(saved), Success(b))
    else SaveOutcome(st', saved, stored, Failure(QuotaExceeded))
  }

  /** `loadBuild(id)`: loads the first saved build with the id into the store
      and answers true; answers false and leaves the store alone when there is
      none. */
  function LoadBuildById(st: BuildStore.Store, stored: Option<seq<BuildStore.BuildRecord>>, id: string): (r: (BuildStore.Store, bool))
    ensures r.1 <==> exists i :: 0 <= i < |LoadSavedBuilds(stored)| && LoadSavedBuilds(stored)[i].id == id
    ensures !r.1 ==> r.0 == st
    ensures r.1 ==> exists i :: 0 <= i < |LoadSavedBuilds(stored)| && LoadSavedBuilds(stored)[i].id == id
                              && (forall j :: 0 <= j < i ==> LoadSavedBuilds(stored)[j].id != id)
                              && r.0 == BuildStore.LoadBuild(st, LoadSavedBuilds(stored)[i])
  {
    match FindById(LoadSavedBuilds(stored), id)
    case Some(b) => (BuildStore.LoadBuild(st, b), true)
    case None => (st, false)
  }

  /** `deleteBuild(id)`: the freshly loaded list without the builds carrying
      the id, written back. */
  function DeleteBuild(stored: Option<seq<BuildStore.BuildRecord>>, id: string, writeOk: bool):
    (r: (seq<BuildStore.BuildRecord>, Result<Option<seq<BuildStore.BuildRecord>>, string>))
    ensures forall b :: b in r.0 <==> b in LoadSavedBuilds(stored) && b.id != id
    ensures r.1.Success? <==> writeOk
    ensures r.1.Success? ==> r.1.value == Some(r.0)
  {
    var kept := Seqs.Filter(LoadSavedBuilds(stored), (b: BuildStore.BuildRecord) => b.id != id);
    (kept, if writeOk then Success(Some(kept)) else Failure(QuotaExceeded))
  }

  /** Deleting from a list made of two parts deletes from each part, so the
      builds that stay keep their relative order. */
  lemma DeleteBuildAppend(x: seq<BuildStore.BuildRecord>, y: seq<BuildStore.BuildRecord>, id: string, writeOk: bool)
    ensures DeleteBuild(Some(x + y), id, writeOk).0 ==
            DeleteBuild(Some(x), id, writeOk).0 + DeleteBuild(Some(y), id, writeOk).0
  {
    Seqs.FilterAppend(x, y, (b: BuildStore.BuildRecord) => b.id != id);
  }

  /** Deleting an id no saved build carries keeps the whole list, in order. */
  lemma DeleteBuildAbsentId(stored: Option<seq<BuildStore.BuildRecord>>, id: string, writeOk: bool)
    requires forall i :: 0 <= i < |LoadSavedBuilds(stored)| ==> LoadSavedBuilds(stored)[i].id != id
    ensures DeleteBuild(stored, id, writeOk).0 == LoadSavedBuilds(stored)
  {
    Seqs.FilterAll(LoadSavedBuilds(stored), (b: BuildStore.BuildRecord) => b.id != id);
  }

  /** Saving under a fresh id and then loading that id restores the saved
      components into any store with the same slots, under the saved name (or
      "Loaded Build" when it is empty). */
  lemma SaveThenLoad(st: BuildStore.Store, stored: Option<seq<BuildStore.BuildRecord>>,
                     name: string, now: int, id: string, other: BuildStore.Store)
    requires DistinctKeys(st.components)
    requires Keys(other.components) == Keys(st.components)
    requires forall i :: 0 <= i < |LoadSavedBuilds(stored)| ==> LoadSavedBuilds(stored)[i].id != id
    ensures var out := SaveBuild(st, stored, name, now, id, true);
      && LoadBuildById(other, out.stored, id).1
      && LoadBuildById(other, out.stored, id).0.components == st.components
      && LoadBuildById(other, out.stored, id).0.buildName ==
           (if out.store.buildName != "" then out.store.buildName else BuildStore.LoadedName)
  {
    var out := SaveBuild(st, stored, name, now, id, true);
    var prev := LoadSavedBuilds(stored);
    var b := out.saved[|out.saved| - 1];
    assert LoadSavedBuilds(out.stored) == prev + [b];
    assert forall i :: 0 <= i < |prev| ==> (prev + [b])[i] == prev[i];
    assert FindById(prev + [b], id) == Some(b);
    var loaded := BuildStore.LoadBuild(other, b);
    var named := out.store.(buildName := "x");
    BuildStore.ExportLoadRoundTrip(named, other, now);
    assert loaded.components == BuildStore.LoadBuild(other, BuildStore.ExportBuild(named, now)).components;
  }

  /** After a successful delete no saved build carries the id, so loading it
      answers false, and every build with another id is still there. */
  lemma DeleteThenLoad(st: BuildStore.Store, stored: Option<seq<BuildStore.BuildRecord>>, id: string)
    ensures var (kept, res) := DeleteBuild(stored, id, true);
      && !LoadBuildById(st, Some(kept), id).1
      && LoadBuildById(st, Some(kept), id).0 == st
      && forall b :: b in LoadSavedBuilds(stored) && b.id != id ==> b in kept
  {
    var (kept, res) := DeleteBuild(stored, id, true);
    forall i | 0 <= i < |kept| ensures kept[i].id != id {
      assert kept[i] in kept;
    }
  }

  // ---------------------------------------------------------------------
  // Custom presets

  /** The preset table: per category key, the user's own components. */
  type Presets = seq<Entry<seq<Component>>>

  /** `getCustomPresets()`: the stored table, or an empty one. */
  function GetCustomPresets(stored: Option<Presets>): (r: Presets)
    ensures stored.None? ==> forall k :: Get(r, k).None?
    ensures stored.Some? ==> r == stored.value
  {
    stored.GetOr([])
  }

  /** The presets of one category (`presets[category] || []`). */
  function PresetsIn(p: Presets, category: string): seq<Component> {
    Get(p, category).GetOr([])
  }

  predicate HasId(list: seq<Component>, id: string) {
    exists i :: 0 <= i < |list| && list[i].id == id
  }

  /** No two presets of a list share an id. */
  predicate UniqueIds(list: seq<Component>) {
    forall i, j :: 0 <= i < j < |list| ==> list[i].id != list[j].id
  }

  /** `list.filter(p => p.id !== id)`. */
  function WithoutId(list: seq<Component>, id: string): (r: seq<Component>)
    ensures forall p :: p in r <==> p in list && p.id != id
  {
    Seqs.Filter(list, (p: Component) => p.id != id)
  }

  datatype PresetOutcome = PresetOutcome(stored: Option<Presets>, result: Result<Component, string>)

  /** The id a preset is saved under: its own, or "custom-" and a fresh stamp. */
  function PresetId(c: Component, stamp: string): (id: string)
    ensures id != ""
    ensures c.id != "" ==> id == c.id
  {
    if c.id != "" then c.id else "custom-" + stamp
  }

  /** `saveCustomPreset(category, component)`: the component gets an id if it
      has none and is marked custom; it is appended to its category and the
      table written back, unless a preset with that id is already there, in
      which case nothing is written. */
  function SaveCustomPreset(stored: Option<Presets>, category: string, c: Component,
                            stamp: string, writeOk: bool): (r: PresetOutcome)
    ensures r.result.Success? ==> r.result.value == c.(id := PresetId(c, stamp), custom := true)
    ensures HasId(PresetsIn(GetCustomPresets(stored), category), PresetId(c, stamp)) ==>
      r.stored == stored && r.result.Success?
    ensures !HasId(PresetsIn(GetCustomPresets(stored), category), PresetId(c, stamp)) ==>
      (r.result.Success? <==> writeOk)
    ensures r.result.Failure? ==> r.stored == stored
  {
    var presets := GetCustomPresets(stored);
    var list := PresetsIn(presets, category);
    var comp := c.(id := PresetId(c, stamp), custom := true);
    if HasId(list, comp.id) then PresetOutcome(stored, Success(comp))
    else if writeOk then PresetOutcome(Some(Put(presets, category, list + [comp])), Success(comp))
    else PresetOutcome(stored, Failure(QuotaExceeded))
  }

  /** `deleteCustomPreset(category, id)`: a category with presets loses those
      carrying the id and the table is written back; an unknown category is
      left alone without a write. */
  function DeleteCustomPreset(stored: Option<Presets>, category: string, id: string, writeOk: bool):
    (r: Result<Option<Presets>, string>)
    ensures Get(GetCustomPresets(stored), category).None? ==> r == Success(stored)
    ensures Get(GetCustomPresets(stored), category).Some? ==> (r.Success? <==> writeOk)
  {
    var presets := GetCustomPresets(stored);
    match Get(presets, category)
    case None => Success(stored)
    case Some(list) =>
      if writeOk then Success(Some(Put(presets, category, WithoutId(list, id))))
      else Failure(QuotaExceeded)
  }

  /** After a successful save the category holds a preset with the returned
      id, every other category is unchanged, and a category whose ids were
      unique keeps them unique. When no preset had the id the new one is
      appended at the end of its category; otherwise the table is untouched. */
  lemma SavePresetEffect(stored: Option<Presets>, category: string, c: Component, stamp: string)
    ensures var r := SaveCustomPreset(stored, category, c, stamp, true);
      var before := GetCustomPresets(stored);
      var after := GetCustomPresets(r.stored);
      && r.result.Success?
      && HasId(PresetsIn(after, category), r.result.value.id)
      && (forall k :: k != category ==> Get(after, k) == Get(before, k))
      && (UniqueIds(PresetsIn(before, category)) ==> UniqueIds(PresetsIn(after, category)))
      && (!HasId(PresetsIn(before, category), PresetId(c, stamp)) ==>
            PresetsIn(after, category) == PresetsIn(before, category) + [r.result.value])
      && (HasId(PresetsIn(before, category), PresetId(c, stamp)) ==> after == before)
  {
    var before := GetCustomPresets(stored);
    var list := PresetsIn(before, category);
    var comp := c.(id := PresetId(c, stamp), custom := true);
    if !HasId(list, comp.id) {
      var l2 := list + [comp];
      assert PresetsIn(Put(before, category, l2), category) == l2;
      assert l2[|list|].id == comp.id;
      if UniqueIds(list) {
        forall i, j | 0 <= i < j < |l2| ensures l2[i].id != l2[j].id {
          if j == |list| {
            assert l2[i] == list[i];
          } else {
            assert l2[i] == list[i] && l2[j] == list[j];
          }
        }
      }
    }
  }

  /** After a successful delete in a known category no preset there carries
      the id, the category holds exactly the presets with other ids, and other
      categories are unchanged. */
  lemma DeletePresetEffect(stored: Option<Presets>, category: string, id: string)
    requires Get(GetCustomPresets(stored), category).Some?
    ensures var r := DeleteCustomPreset(stored, category, id, true);
      var before := GetCustomPresets(stored);
      var after := GetCustomPresets(r.value);
      && r.Success?
      && !HasId(PresetsIn(after, category), id)
      && (forall p :: p in PresetsIn(after, category) <==> p in PresetsIn(before, category) && p.id != id)
      && |PresetsIn(after, category)| <= |PresetsIn(before, category)|
      && (forall k :: k != category ==> Get(after, k) == Get(before, k))
  {
    var before := GetCustomPresets(stored);
    var kept := WithoutId(PresetsIn(before, category), id);
    assert PresetsIn(Put(before, category, kept), category) == kept;
    forall i | 0 <= i < |kept| ensures kept[i].id != id {
      assert kept[i] in kept;
    }
  }

  /** A category's list made of two parts loses the id from each part, so the
      presets that stay keep their relative order. */
  lemma DeletePresetAppend(stored: Option<Presets>, category: string, id: string,
                           x: seq<Component>, y: seq<Component>)
    requires Get(GetCustomPresets(stored), category) == Some(x + y)
    ensures PresetsIn(GetCustomPresets(DeleteCustomPreset(stored, category, id, true).value), category) ==
            WithoutId(x, id) + WithoutId(y, id)
  {
    Seqs.FilterAppend(x, y, (p: Component) => p.id != id);
  }

  /** Deleting an id no preset of the category carries leaves the table as it
      was, whether or not the category exists. */
  lemma DeletePresetAbsentId(stored: Option<Presets>, category: string, id: string)
    requires !HasId(PresetsIn(GetCustomPresets(stored), category), id)
    ensures GetCustomPresets(DeleteCustomPreset(stored, category, id, true).value) == GetCustomPresets(stored)
  {
    var presets := GetCustomPresets(stored);
    if Get(presets, category).Some? {
      var list := Get(presets, category).value;
      Seqs.FilterAll(list, (p: Component) => p.id != id);
      PutSameValue(presets, category, list);
    }
  }
}

=== FILE: wrappers.dfy ===
/** The wrappers used throughout the model: `Option` for a value
    that JavaScript represents as `null` / `undefined`, and `Result` for an
    operation that can raise (a rejected storage write, a `TypeError`). */
module Wrappers {

  datatype Option<+T> = None | Some(value: T) {

    /** The value, or `default` when absent (JavaScript's `x ?? default`). */
    function GetOr(default: T): T {
      match this
      case Some(v) => v
      case None => default
    }
  }

  datatype Result<+R, +E> = Success(value: R) | Failure(error: E)
}
